=== FILE: README.md ===
# silicium kernel core in Dafny

A model of the memory-management and thread-management core of the
silicium x86-64 kernel, written in Dafny, together with proofs of what that
core promises. The covered parts are:

- **the higher-half direct map** (`Address`);
- **physical frames.** Frame descriptors and frame ranges (`Frames`). The
  frame state array built from the bootloader's memory map (`FrameState`).
  The first-fit frame allocator (`FrameAllocator`);
- **paging.** The four-level page table with map, unmap, protection
  changes, translation and the preallocation of the kernel's PML4 entries
  (`Paging`). The page-fault handler with demand paging (`PageFault`, using
  the reasons in `Faults`);
- **the vmalloc area allocator** (`Vmm`). Its free and used maps are
  ordered association lists (`SortedMap`);
- **the GDT** with its segment and TSS descriptors (`Gdt`, using `Bits`);
- **threads.** The thread and process identifier bitmaps (`Ids`). Threads
  with their builder, `zombify` and drop (`Threads`). Processes with their
  table, children and drop (`Processes`);
- **scheduling.** The round-robin scheduler (`RoundRobin`) and the
  scheduling step (`Schedule`).

Every kernel global becomes an explicit value that operations take and
return. This covers the frame state, the allocators, the active page table,
the identifier bitmaps, the process table and the run list. Regions whose
bounds are defined outside these files (heap, vmalloc, kernel base) are a
`Regions` parameter.

A panic (`assert!`, `unwrap`, `expect`, `unimplemented!`, `todo!`, an
out-of-bounds index) is the `Panic` case of `Outcome`. Errors the kernel
returns are `Option`/`Result` values.

## Model

| member | source | states |
|---|---|---|
| Base.Unwrap | src/sys/process.rs:132 | `unwrap` panics exactly on `None` and otherwise yields the wrapped value |
| Address.PhysToVirt | src/arch/address.rs:6-10 | succeeds exactly when adding the direct-map offset does not overflow 64 bits; the result minus the offset is the physical address |
| Address.VirtToPhys | src/arch/address.rs:15-20 | the assertion passes exactly for addresses inside the direct map; the result plus the offset is the virtual address |
| Address.PhysVirtRoundTrip | src/arch/address.rs:6-20 | a physical address below the direct map's size comes back unchanged through `phys_to_virt` then `virt_to_phys` |
| Address.VirtPhysRoundTrip | src/arch/address.rs:6-20 | a direct-map virtual address comes back unchanged through `virt_to_phys` then `phys_to_virt` |
| Address.PhysToVirtKeepsPageOffset | src/arch/address.rs:6-10 | the direct map keeps the offset within the page and shifts the page number by a fixed amount |
| Bits.SetBitRange | crates/silicium-x86_64/src/gdt.rs:92-99 | `set_bit_range(msb, lsb, v)` puts v's low bits into bits lsb..msb and leaves every other bit as it was |
| Frames.New | src/mm/frame/mod.rs:28-38 | `Frame::new` succeeds exactly on page-aligned addresses; the frame holds the address and starts with count 0 |
| Frames.TryNew | src/mm/frame/mod.rs:44-54 | `try_new` is `Ok` exactly on page-aligned addresses; otherwise the error carries the address and the 4096 alignment |
| Frames.TryNewAgreesWithNew | src/mm/frame/mod.rs:28-54 | `try_new` and `new` accept the same addresses and build the same frame with the given flags |
| Frames.ContainsIffSameIndex | src/mm/frame/mod.rs:58-60 | an aligned frame contains an address exactly when the address has the frame's index |
| Frames.IncrementCount | src/mm/frame/mod.rs:89-91 | after `increment_count` the frame is referenced |
| Frames.DecrementCount | src/mm/frame/mod.rs:93-95 | `decrement_count` panics exactly on a frame with count 0 |
| Frames.CountRoundTrip | src/mm/frame/mod.rs:89-95 | decrementing after incrementing gives the frame back, and so does incrementing after decrementing a referenced frame |
| Frames.IncrementCountIsSuccessor | src/mm/frame/mod.rs:89-91 | incrementing adds exactly one to the count and changes nothing else |
| Frames.AddAssign | src/mm/frame/mod.rs:113-117 | `+= n` moves the frame n pages up and keeps its flags and count |
| Frames.Add | src/mm/frame/mod.rs:105-111 | `+ n` gives a fresh frame n pages up, and panics exactly when the frame is not aligned |
| Frames.RangeContainsIsByAddress | src/mm/frame/mod.rs:189-199 | `Range::contains(frame)` is `contains_address` of the frame's address, a half-open interval test |
| Frames.Count | src/mm/frame/mod.rs:204-206 | `count` is the number of whole pages between the two ends, and the subtraction panics on a reversed range |
| Frames.Next | src/mm/frame/mod.rs:224-232 | the iterator yields the start frame and advances it one page, and stops exactly when the range is empty |
| Frames.FramesAreSteps | src/mm/frame/mod.rs:224-232 | the k-th frame the iterator yields is the start frame k pages up, and it lies inside the range |
| Frames.FramesLengthIsCount | src/mm/frame/mod.rs:204-232 | an aligned range yields exactly `count()` frames |
| FrameAllocator.FirstFree | src/mm/frame/dummy_allocator.rs:43-46 | finds the first FREE frame from a position on, or reports that there is none |
| FrameAllocator.Allocate | src/mm/frame/dummy_allocator.rs:38-63 | takes the lowest FREE frame, clears FREE, adds KERNEL when asked and references it; counts it in the statistics; `None` exactly when no frame is free, with nothing changed |
| FrameAllocator.FreeCount | src/mm/frame/dummy_allocator.rs:43-46 | the number of FREE frames is 0 exactly when `allocate` finds none |
| FrameAllocator.FreeCountTake | src/mm/frame/dummy_allocator.rs:57 | making one FREE frame non-free lowers the free count by one |
| FrameAllocator.AllocateUsesOneFree | src/mm/frame/dummy_allocator.rs:38-63 | `allocate` fails exactly when no frame is free, and a success uses up exactly one free frame |
| FrameAllocator.AllocatePreservesInvariant | src/mm/frame/dummy_allocator.rs:38-63 | free frames stay unreferenced and every frame keeps its address after `allocate` |
| FrameAllocator.AllocateDeallocateRoundTrip | src/mm/frame/dummy_allocator.rs:38-172 | deallocating the frame just allocated restores the allocator exactly, statistics included |
| FrameAllocator.Reference | src/mm/frame/dummy_allocator.rs:125-135 | `reference` panics unless the frame exists and is allocated; otherwise it adds one reference to that frame only |
| FrameAllocator.Deallocate | src/mm/frame/dummy_allocator.rs:147-172 | panics on an unknown or unreferenced frame; drops one reference; when the last one goes, the frame becomes FREE without KERNEL and the allocated and kernel counts drop |
| FrameAllocator.ReferenceDeallocateRoundTrip | src/mm/frame/dummy_allocator.rs:125-172 | `deallocate` undoes `reference` exactly |
| FrameAllocator.ReferenceDeallocatePreserveInvariant | src/mm/frame/dummy_allocator.rs:125-172 | `reference` and `deallocate` keep free frames unreferenced |
| FrameAllocator.DeallocateRangeIsEach | src/mm/frame/dummy_allocator.rs:184-188 | `deallocate_range` is `deallocate` on each frame the range iterator yields, in order |
| FrameAllocator.DeallocateRangeReleasesEach | src/mm/frame/dummy_allocator.rs:184-188 | on a range of referenced frames, every frame inside it loses one reference and every frame outside it is unchanged |
| FrameAllocator.FirstRun | src/mm/frame/dummy_allocator.rs:84-110 | finds the first index from which `count` consecutive frames are all FREE, or reports that there is none |
| FrameAllocator.TakeRun | src/mm/frame/dummy_allocator.rs:90-102 | taking a run changes only the frames inside it |
| FrameAllocator.AllocateRangeAsWritten | src/mm/frame/dummy_allocator.rs:74-113 | as written, a range comes back exactly when the first free run ends before the last frame, and the kernel panics exactly when it ends at the last frame, because `array[i + count]` is read; no run leaves the allocator unchanged |
| FrameAllocator.AllocateRangeAsWrittenFailsAtEnd | src/mm/frame/dummy_allocator.rs:104-107 | with one free frame and count 1 the code as written panics, while the corrected allocation succeeds |
| FrameAllocator.AllocateRange | src/mm/frame/dummy_allocator.rs:74-113 | takes the first run of `count` free frames, returns a range that starts at its first frame and spans `count` pages, and counts the run in the statistics; `None` exactly when no run exists, with nothing changed; panics only for count 0 on an empty array |
| FrameAllocator.AllocateRangeCoversRun | src/mm/frame/dummy_allocator.rs:74-113 | the returned range counts `count` frames, and it contains exactly the frames that changed |
| FrameAllocator.AllocateRangeAsWrittenAgrees | src/mm/frame/dummy_allocator.rs:74-113 | whenever the code as written returns a range, the corrected allocation takes the same frames and starts at the same frame |
| FrameAllocator.AllocateRangePreservesInvariant | src/mm/frame/dummy_allocator.rs:74-113 | both range allocations keep free frames unreferenced |
| FrameState.MaxRegularEnd | src/mm/frame/state.rs:161-171 | the largest end of a usable, kernel or bootloader-reclaimable entry, or none when there is no such entry |
| FrameState.FindLastUsableFrameIndex | src/mm/frame/state.rs:161-171 | the frame count bounds the end of every regular entry, is reached by one of them, and is 0 when there are none |
| FrameState.FirstFitting | src/mm/frame/state.rs:149-151 | the first usable entry long enough for the descriptor array |
| FrameState.FindArrayLocation | src/mm/frame/state.rs:146-155 | the direct-map address of the first usable entry large enough for the array, or 0 (null) exactly when no entry fits |
| FrameState.InitialFrameZones | src/mm/frame/state.rs:55-70 | every frame starts POISONED with count 0; BIOS marks the first MiB, ISA the first 16 MiB and X86 the first 256 MiB, each zone inside the next |
| FrameState.Initial | src/mm/frame/state.rs:55-70 | the array before the memory map is applied holds the initial frame of every index |
| FrameState.ReserveAsWrittenSkipsPoisoned | src/mm/frame/state.rs:95-101 | as written, a reserved entry leaves a still-poisoned frame POISONED, where the corrected rule marks it RESERVED |
| FrameState.ReserveTracksPoison | src/mm/frame/state.rs:95-101 | the corrected rule reserves exactly the poisoned frames, and every frame it reserves moves one count from poisoned to reserved |
| FrameState.StepByType | src/mm/frame/state.rs:78-103 | usable entries make frames FREE; kernel and bootloader entries make them KERNEL and do not add FREE; bad memory changes nothing; other entries reserve poisoned frames |
| FrameState.ApplyRange | src/mm/frame/state.rs:77-104 | applying one entry keeps the array's length |
| FrameState.Clamp | src/mm/frame/state.rs:74-75 | an entry's frame interval is clamped into the array |
| FrameState.ApplyRangeFrames | src/mm/frame/state.rs:77-104 | one entry changes exactly the frames of its clamped interval, each by the rule for the entry's type |
| FrameState.ApplyMap | src/mm/frame/state.rs:73-105 | applying the memory map keeps the array's length |
| FrameState.UncoveredFramesUntouched | src/mm/frame/state.rs:73-105 | a frame that no entry other than bad memory covers is not changed by the memory map |
| FrameState.ApplyMapKeepsLayout | src/mm/frame/state.rs:73-105 | the memory map keeps every frame at its own address and leaves all counts at 0 |
| FrameState.MarkKernel | src/mm/frame/state.rs:109-116 | marking the array's frames keeps the array's length |
| FrameState.MarkKernelFrames | src/mm/frame/state.rs:109-116 | exactly the frames holding the array become KERNEL and lose FREE |
| FrameState.ArrayRange | src/mm/frame/state.rs:41-46 | the frames the array occupies start at the first fitting entry's frame and span the array's size in pages, all inside the array; none when no entry fits |
| FrameState.Applied | src/mm/frame/state.rs:55-105 | the array after the memory map has one frame per index below the last usable frame index |
| FrameState.SetupSpec | src/mm/frame/state.rs:38-120 | setup succeeds exactly when the array can be placed |
| FrameState.SetupSpecMarks | src/mm/frame/state.rs:107-116 | setup's last step marks the array's own frames, from its first frame to its last inclusive |
| FrameState.Setup | src/mm/frame/state.rs:38-120 | panics on an initialized state; otherwise succeeds exactly when the array can be placed, and then frames are laid out by address with count 0, free frames are unreferenced, the array's frames are KERNEL and not FREE, and uncovered frames stay POISONED |
| FrameState.Fill | src/mm/frame/state.rs:50-116 | the three loops of setup give a layout with count 0, unreferenced free frames, a KERNEL array and poisoned uncovered frames |
| FrameState.PoisonAll | src/mm/frame/state.rs:55-70 | the first loop poisons every frame and counts each as total and poisoned |
| FrameState.ApplyEntries | src/mm/frame/state.rs:73-105 | the loop over the memory map computes the frames and counts of the entry-by-entry rule |
| FrameState.MarkArray | src/mm/frame/state.rs:109-116 | the loop over the array's frames computes the frames and counts of the marking rule |
| FrameState.SetupLayout | src/mm/frame/state.rs:38-120 | after setup every frame sits at its own address with count 0, and free frames are unreferenced |
| FrameState.SetupArrayKernel | src/mm/frame/state.rs:109-116 | after setup every frame of the array is KERNEL and not FREE |
| FrameState.SetupUncoveredPoisoned | src/mm/frame/state.rs:52-54 | after setup a frame outside the array that no entry covers is still the poisoned initial frame |
| FrameState.AppliedFrames | src/mm/frame/state.rs:55-105 | after the memory map the layout holds, counts are 0, and uncovered frames are the initial ones |
| FrameState.SetupAsWrittenMiscountsReserved | src/mm/frame/state.rs:95-101 | with a reserved entry over a usable page and a poisoned page, the code as written leaves the poisoned page POISONED and re-marks the usable one, while the corrected rule reserves the poisoned page |
| FrameState.GetFrameInfo | src/mm/frame/state.rs:128-130 | a frame is found exactly for indices inside the array, and it is the frame that contains the address |
| Gdt.New | crates/silicium-x86_64/src/gdt.rs:14-19 | a new table has N null entries and a null register |
| Gdt.EntryOf | crates/silicium-x86_64/src/gdt.rs:32-36 | a segment fills the low word of an entry; a system descriptor fills both words |
| Gdt.Set | crates/silicium-x86_64/src/gdt.rs:30-37 | `set` panics exactly on an index out of bounds; otherwise it writes that entry only |
| Gdt.SetOverwrites | crates/silicium-x86_64/src/gdt.rs:30-37 | a second `set` at the same index hides the first |
| Gdt.SetCommutes | crates/silicium-x86_64/src/gdt.rs:30-37 | `set` at two different indices may be done in either order |
| Gdt.Flush | crates/silicium-x86_64/src/gdt.rs:40-44 | the register points at the table; its 16-bit limit is the table's size minus one, truncated to 16 bits, and panics on an empty table |
| Gdt.FlushLimitCoversTable | crates/silicium-x86_64/src/gdt.rs:40-44 | the limit covers the whole table exactly when the table has at most 4096 entries |
| Gdt.KernelTableLimit | src/arch/gdt.rs:5 | the kernel's 256-entry table gets limit 4095 |
| Gdt.Dpl | crates/silicium-x86_64/src/gdt.rs:112 | a descriptor's privilege level is one of 0 to 3 |
| Gdt.UserSegmentsAsWrittenAreRing0 | crates/silicium-x86_64/src/gdt.rs:80-84 | as written, the user code and data descriptors are the kernel descriptors, with privilege level 0 |
| Gdt.UserSegmentsAreRing3 | crates/silicium-x86_64/src/gdt.rs:80-84 | the corrected user descriptors have privilege level 3, the kernel ones 0, and they differ only in the DPL bits |
| Gdt.TssWords | crates/silicium-x86_64/src/gdt.rs:87-102 | the TSS descriptor's words hold the limit (size - 1), the base split into bits 16-39, 56-63 and the high word, type 0b1001 and PRESENT, and zeros elsewhere |
| Gdt.Tss | crates/silicium-x86_64/src/gdt.rs:87-102 | `Descriptor::tss` is a system descriptor |
| Gdt.TssRoundTrip | crates/silicium-x86_64/src/gdt.rs:87-102 | the base read back out of a TSS descriptor's words is the TSS address, and the limit, type and present bits are in place |
| Ids.SetBitSpec | src/sys/thread.rs:329-330 | setting an identifier's bit sets it and keeps every other identifier's bit |
| Ids.ClearBitSpec | src/sys/thread.rs:337-342 | clearing an identifier's bit clears it and keeps every other identifier's bit |
| Ids.PopulationSet | src/sys/thread.rs:329-330 | claiming a free identifier adds one to the number of set identifiers |
| Ids.PopulationClear | src/sys/thread.rs:337-342 | releasing an identifier removes one from the number of set identifiers when it was set |
| Ids.FreeBelow | src/sys/thread.rs:324-333 | fewer set identifiers than slots means some identifier is clear |
| Ids.Empty | src/sys/thread.rs:27-34 | the initial bitmap has no identifier set, a zero offset and a zero used count |
| Ids.New | src/sys/thread.rs:306-311 | `Tid::new` and `Pid::new` accept exactly the raw values below 32768 and keep them |
| Ids.Probe | src/sys/thread.rs:325 | the probed identifier is always below 32768 |
| Ids.ProbeIgnoresWrap | src/sys/thread.rs:325 | the 64-bit wrap of the offset does not change the identifier probed, because 32768 divides 2^64 |
| Ids.FirstClear | src/sys/thread.rs:324-333 | finds the first probe position whose identifier is clear, or reports that every later probe is set |
| Ids.ProbeReaches | src/sys/thread.rs:325 | every identifier is probed within 32768 steps of any offset |
| Ids.FreeIsFound | src/sys/thread.rs:324-333 | when some identifier is clear, the probing loop finds one |
| Ids.InvHasFree | src/sys/thread.rs:317-320 | when the used counter is an upper bound and passes the limit check, some identifier is clear, so the loop ends |
| Ids.Generate | src/sys/thread.rs:315-334 | fails exactly when the used counter is full; otherwise returns the first clear identifier along the probe sequence, sets its bit and no other, counts it as used and advances the offset past it |
| Ids.Claim | src/sys/thread.rs:329-330 | claiming a clear identifier sets it alone and adds one to the population |
| Ids.GenerateAsWritten | src/sys/thread.rs:315-334 | as written, the returned value is the whole bitmap word after the bit is set, not the identifier |
| Ids.ReleaseAsWritten | src/sys/thread.rs:337-342 | as written, `release` clears the identifier's bit but leaves the used counter alone, and panics on identifiers past the bitmap |
| Ids.Unclaim | src/sys/thread.rs:337-342 | clearing an identifier clears it alone and lowers the population when it was set |
| Ids.Release | src/sys/thread.rs:337-342 | releasing clears the identifier's bit, lowers the used counter when it was set, and keeps an exact counter exact |
| Ids.GenerateKeepsInv | src/sys/thread.rs:315-334 | `generate` keeps the used counter an upper bound (or exact) on the set identifiers |
| Ids.GenerateUnique | src/sys/thread.rs:315-334 | with an exact counter, `generate` never returns an identifier still in use, and fails exactly when all but one of the 32768 identifiers are in use |
| Ids.GenerateReleaseRoundTrip | src/sys/thread.rs:315-342 | releasing a freshly generated identifier restores the bitmap and the counter; only the offset has moved |
| Ids.ReleaseAsWrittenDrifts | src/sys/thread.rs:337-342 | as written, generate then release leaves the bitmap as it was but the used counter one higher |
| Ids.ReleaseAsWrittenExhausts | src/sys/thread.rs:315-342 | as written, a bitmap can end up with no identifier set and still refuse to generate one |
| Ids.ValueOfLow8 | src/sys/thread.rs:331 | a word with its eight low bits set is worth 255 |
| Ids.GenerateAsWrittenRepeats | src/sys/thread.rs:331 | as written, two successive generations return the same value 255 for two different identifiers, 0 and 8 |
| Ids.FirstClaim | src/sys/thread.rs:315-334 | on the example bitmap the first generation claims identifier 0 while the code as written returns 255 |
| Ids.SecondClaim | src/sys/thread.rs:315-334 | on the example bitmap the second generation claims identifier 8 while the code as written again returns 255 |
| Ids.FirstEight | src/sys/thread.rs:324-333 | with the first word's low bits all set, probing from offset 1 first meets a clear bit at step 7 |
| Threads.UserStackLayout | src/sys/thread.rs:98-103 | the user stack's aligned top is 16-byte aligned and the stack lies 8 MiB below the top of the lower half |
| Threads.NewBuilder | src/sys/thread.rs:205-222 | a new builder describes a created user thread with tid 0, no stack, no address space, entry point 0 and stack size 0 |
| Threads.BuildAsWritten | src/sys/thread.rs:255-286 | as written, `build` never produces a thread; without a free tid it frees tid 0; when the stack allocation fails nothing is allocated |
| Threads.BuildAsWrittenNeverBuilds | src/sys/thread.rs:260-264 | as written, the ATOMIC flag reaches `unimplemented!` in the vmalloc allocator, so `build` panics whenever a tid and a large enough area exist |
| Threads.BuildAsWrittenFreesTidZero | src/sys/thread.rs:255-257 | as written, a failed tid allocation drops the builder's thread, which clears tid 0's bit even though tid 0 is in use |
| Threads.Build | src/sys/thread.rs:255-286 | building a kernel thread never panics; no free tid is reported without change; a failed stack allocation gives the tid back; a built thread has a fresh tid, a kernel stack recorded in vmalloc and its CPU state set to the entry point, kernel code selector, null stack selector and the stack's end |
| Threads.Zombify | src/sys/thread.rs:118-127 | panics without a kernel stack or when the stack is not a live allocation; otherwise records exit code and signal, makes the thread a zombie, drops its address space and removes its stack's record |
| Threads.SetNeedRescheduling | src/sys/thread.rs:145-147 | sets the rescheduling flag and changes nothing else |
| Threads.ClearNeedRescheduling | src/sys/schedule/mod.rs:22 | clears the rescheduling flag and changes nothing else |
| Threads.RescheduleFlagRoundTrip | src/sys/thread.rs:145-153 | the flag reads back as set after setting, and clearing after setting is clearing |
| Threads.Drop | src/sys/thread.rs:180-187 | with the corrected release, dropping a thread clears its tid's bit, lowers the used counter, and deallocates its kernel stack if it still has one |
| Threads.DropAsWritten | src/sys/thread.rs:180-187 | as written, dropping a thread clears its tid's bit but leaves the used counter as it was, and deallocates its kernel stack if it still has one |
| Threads.DropAsWrittenAgrees | src/sys/thread.rs:180-187 | the drop as written and the corrected drop succeed together and agree on everything except the used counter, which the as-written drop leaves one higher when the tid's bit was set |
| Threads.KernelThreadLifecycle | src/sys/thread.rs:118-187 | building a kernel thread, zombifying it and dropping it with the corrected release restores the tid bitmap and counter, the used vmalloc records and the free vmalloc addresses; dropped as written, the bitmap is restored but the counter is one higher |
| Threads.ZombieDropped | src/sys/thread.rs:180-187 | with the corrected release, dropping a zombie gives back exactly the tid it was built with and restores the used counter |
| Threads.ZombieDroppedAsWritten | src/sys/thread.rs:180-187 | as written, dropping a zombie gives back its tid's bit but leaves the used counter one higher than before the tid was generated |
| Threads.StackTaken | src/sys/thread.rs:264-268 | the kernel stack comes out of free vmalloc space and is recorded, under its start, as a MAP and ZEROED area |
| Threads.StackGivenBack | src/sys/thread.rs:118-127 | zombifying removes the stack's record and gives its addresses back to the free space |
| Threads.StackRecorded | src/sys/thread.rs:260-268 | the stack's area is recorded with exactly the flags asked for, since the allocator drops only ATOMIC and the corrected flags do not carry it |
| Threads.StackFreeSpace | src/sys/thread.rs:264-268 | the stack's addresses leave the free space and no other free address changes |
| Threads.StackDeallocated | src/sys/thread.rs:124 | deallocating a MAP stack none of whose pages was mapped leaves the page tables and frame allocator alone and gives the stack's addresses back |
| Threads.StackRoundTrip | src/sys/thread.rs:118-127 | a kernel stack allocated by `build` and given back by `zombify` before any page of it was mapped leaves every used vmalloc record and the free addresses as they were, and the zombie keeps the tid |
| Threads.BuiltZombieDropped | src/sys/thread.rs:180-187 | the zombie of a built kernel thread, dropped with the corrected release, restores the tid bitmap and counter; dropped as written, it restores the bitmap and leaves the counter one higher |
| Processes.NewBuilder | src/sys/process.rs:127-137 | panics exactly when the used counter has reached 32767; otherwise the new process gets a fresh pid, the given address space, no threads, no parent and no children |
| Processes.NewBuilderAsWritten | src/sys/process.rs:195-214 | as written, the pid bitmap changes as in the corrected code, claiming a clear pid, but the process's pid is the value of the bitmap word holding that bit |
| Processes.NewBuilderAsWrittenRepeatsPid | src/sys/process.rs:211 | as written, two processes built in a row both get pid 255, and the second takes the first's place in the table (the replaced process's `Drop` would then run under the table's write lock, see Left out) |
| Processes.SamePidOverwrites | src/sys/process.rs:161-166 | building a second process under a pid in use replaces the first one |
| Processes.AppendThreads | src/sys/process.rs:141-151 | the process's thread list grows by the given threads, in order, and nothing else changes |
| Processes.Find | src/sys/process.rs:238-241 | a pid is found exactly when the table holds it, and the process found is the one filed under it |
| Processes.Build | src/sys/process.rs:161-166 | the process is filed under its pid, which is returned; every other pid is unchanged |
| Processes.Delete | src/sys/process.rs:250-253 | after `delete` the pid no longer exists and every other pid is unchanged |
| Processes.BuildKeepsConsistent | src/sys/process.rs:127-166 | a fresh pid is not yet in the table, and building keeps each process filed under its own pid with its bit set |
| Processes.DeleteKeepsConsistent | src/sys/process.rs:250-253 | `delete` keeps the table consistent with the pid bitmap |
| Processes.AddChild | src/sys/process.rs:48-50 | `add_child` panics when the child does not exist, and otherwise appends the child's pid and changes nothing else |
| Processes.Without | src/sys/process.rs:53-55 | `retain` removes every occurrence of the pid and keeps the others with their counts |
| Processes.WithoutConcat | src/sys/process.rs:53-55 | removing a pid from a concatenation removes it from each part |
| Processes.WithoutAbsent | src/sys/process.rs:53-55 | removing a pid that is not there changes nothing |
| Processes.RemoveChild | src/sys/process.rs:53-55 | `remove_child` removes every occurrence of the child, keeps the other children and changes nothing else |
| Processes.FirstIndex | src/sys/process.rs:76-82 | finds the first position of a pid in a list, or none exactly when it is absent |
| Processes.Child | src/sys/process.rs:76-82 | `child` finds the first child with the pid, and none exactly when the pid is not a child |
| Processes.AddChildThenChild | src/sys/process.rs:48-82 | after `add_child` the child is found: at the end of the list when it is new, or where it already was |
| Processes.RemoveChildThenChild | src/sys/process.rs:53-82 | after `remove_child` the removed child is not found and every other child still is |
| Processes.AdoptOne | src/sys/process.rs:113-116 | init gets the orphan appended to its children and the orphan's parent becomes init; nothing else changes |
| Processes.Adopt | src/sys/process.rs:112-116 | with init present, panics exactly when an orphan is missing; otherwise init gets all orphans in order and each orphan's parent becomes init |
| Processes.Drop | src/sys/process.rs:107-118 | panics exactly when init or a child is missing or the pid is out of range; otherwise hands the children to init, changes no other process, and clears the pid's bit alone, keeping the counter a bound |
| Processes.DropKeepsConsistent | src/sys/process.rs:107-118 | dropping a process keeps the table consistent with the pid bitmap |
| Processes.DropAsWritten | src/sys/process.rs:107-118 | as written, the children go to init and the pid's bit is cleared, but the used counter is not lowered |
| Processes.DropAsWrittenLeaksPid | src/sys/process.rs:117 | as written, building a process from the example bitmap and dropping it leaves pid 0's bit set, though no process holds it, and the used counter one higher |
| RoundRobin.FirstEligible | src/sys/schedule/round_robin.rs:52-64 | finds the first thread with quantum left, not idle and ready, or none |
| RoundRobin.FirstIdle | src/sys/schedule/round_robin.rs:33-44 | finds the first idle thread that is ready, or none |
| RoundRobin.Run | src/sys/schedule/round_robin.rs:58-61 | the chosen thread becomes running and nothing else changes |
| RoundRobin.PickNext | src/sys/schedule/round_robin.rs:50-67 | picks the first eligible thread in list order and makes it running; none exactly when no thread is eligible, with nothing changed |
| RoundRobin.PickIdle | src/sys/schedule/round_robin.rs:31-48 | picks the first ready idle thread and makes it running; panics exactly when there is none |
| RoundRobin.AddThread | src/sys/schedule/round_robin.rs:71-80 | appends the thread with a full quantum and makes it ready |
| RoundRobin.Without | src/sys/schedule/round_robin.rs:89-95 | `retain` drops every entry of the thread and keeps all other entries with their counts |
| RoundRobin.WithoutConcat | src/sys/schedule/round_robin.rs:89-95 | removing a thread from a concatenation removes it from each part |
| RoundRobin.RemoveThread | src/sys/schedule/round_robin.rs:87-97 | panics exactly when the thread is listed and running; otherwise removes its entries and keeps all others |
| RoundRobin.WithoutAbsent | src/sys/schedule/round_robin.rs:87-97 | removing a thread that is not listed changes nothing |
| RoundRobin.Redistribute | src/sys/schedule/round_robin.rs:99-107 | every thread that is not idle gets a full quantum; idle threads and the order are kept |
| RoundRobin.RedistributeBounded | src/sys/schedule/round_robin.rs:99-107 | no quantum exceeds the full quantum after redistribution |
| RoundRobin.RedistributeThenPickNext | src/sys/schedule/round_robin.rs:99-107 | after redistribution a thread is picked exactly when some thread that is not idle is ready |
| RoundRobin.Find | src/sys/schedule/round_robin.rs:113-116 | finds the first entry of the thread, or none exactly when it is not listed |
| RoundRobin.TimerTick | src/sys/schedule/round_robin.rs:109-122 | panics when the current thread is not listed; otherwise a spent quantum sets the rescheduling flag and a quantum left is lowered by one |
| RoundRobin.TotalDecrement | src/sys/schedule/round_robin.rs:119 | lowering one quantum lowers the sum of all quanta by one |
| RoundRobin.TimerTickUsesQuantum | src/sys/schedule/round_robin.rs:109-122 | every tick either asks for rescheduling or uses up one unit of quantum |
| Schedule.PickOrRedistribute | src/sys/schedule/mod.rs:24-30 | picks like `pick_next`, redistributing first when nothing is eligible; none exactly when no thread that is not idle is ready |
| Schedule.Reschedule | src/sys/schedule/mod.rs:20-50 | panics exactly when no thread that is not idle is ready; otherwise the current thread's flag is cleared and the quanta stay bounded |
| Schedule.RescheduleSwitches | src/sys/schedule/mod.rs:20-50 | the next thread is a listed, ready, non-idle thread, now running; a switch makes a running current thread ready and activates the next thread's page table; staying changes nothing else |
| Schedule.StepPicksFirstEligible | src/sys/schedule/mod.rs:24-30 | while some thread is eligible, the step switches to the first one in list order without redistributing |
| Paging.Path | src/arch/paging.rs:330 | the walk of an address ends in a page-table entry with a PML4 index in range |
| Paging.Up | src/arch/paging.rs:329-341 | the slot the walk reaches at a given depth |
| Paging.FetchFrom | src/arch/paging.rs:329-341 | walking down from a present level finds the entry exactly when every level is present |
| Paging.FetchPte | src/arch/paging.rs:329-341 | `fetch_pte` returns the last-level entry exactly when all four levels are present |
| Paging.Translate | src/arch/paging.rs:230-243 | an address translates exactly when its whole walk is present, to the entry's frame plus the offset in the page |
| Paging.Protection | src/arch/paging.rs:184-192 | the flags of a mapped page, which include PRESENT, and none exactly when the page does not translate |
| Paging.Unmap | src/arch/paging.rs:159-180 | returns the old translation; afterwards the page does not translate; an unmapped page is left alone |
| Paging.ChangeProtection | src/arch/paging.rs:201-225 | returns the old flags; a mapped page gets the new flags and keeps its frame; flags without PRESENT unmap it; an unmapped page is left alone |
| Paging.UnmapOnlyRemoves | src/arch/paging.rs:159-180 | whatever still translates after `unmap` translates as it did before |
| Paging.SamePageSamePath | src/arch/paging.rs:329-341 | addresses in the same page walk to the same entry |
| Paging.ChangeProtectionRoundTrip | src/arch/paging.rs:201-225 | changing the flags and then changing them back restores the table |
| Paging.Install | src/arch/paging.rs:293-320 | writing a table entry sets that entry and zeroes the fresh table below it; nothing else changes |
| Paging.InstallKeepsLookups | src/arch/paging.rs:293-320 | installing a new table under a non-present entry changes no translation |
| Paging.Create | src/arch/paging.rs:293-320 | creates the missing tables of a walk, failing only with no free frame left; no other address's lookup changes, and an existing walk is left alone |
| Paging.CreateAllocatesTables | src/arch/paging.rs:293-320 | creating the tables of a walk leaves the frame allocator as one KERNEL, ZEROED request per table from the first missing entry down would leave it |
| Paging.MissingTablesCounts | src/arch/paging.rs:299-311 | the tables created on a walk are those from its first entry that is not present down to the last level; every entry before it is present |
| Paging.Grow | src/arch/paging.rs:300-316 | installing one missing table uses up free frames and fails exactly when there is none; the new table is zeroed and no translation changes |
| Paging.Map | src/arch/paging.rs:115-148 | `AlreadyMapped` exactly when the page translates, with nothing changed; `OutOfMemory` only when no frame is free; on success the entry holds the flags and the given frame, or for a null frame the frame a KERNEL, ZEROED request hands out after one such request per missing table (`Paging.FilledLeaf`); a given frame leaves the allocator as those requests left it; no other page's translation changes |
| Paging.FillLeaf | src/arch/paging.rs:127-147 | writes the frame and flags into a non-present entry whose tables exist, leaving the allocator alone; a null frame is replaced by the frame a KERNEL, ZEROED request hands out, and fails with `OutOfMemory` exactly when that request does |
| Paging.PresentLeafTranslates | src/arch/paging.rs:230-243 | a present entry under present tables translates to its frame plus the offset |
| Paging.LookupsDecideOtherTranslations | src/arch/paging.rs:230-243 | two tables that agree on every other entry translate every other page the same way |
| Paging.SetLeafKeepsOthers | src/arch/paging.rs:115-148 | writing a last-level entry leaves the upper tables and every other entry's lookup unchanged |
| Paging.ClearLeafKeepsOthers | src/arch/paging.rs:159-180 | clearing a last-level entry leaves every other entry's lookup unchanged |
| Paging.UnmapUndoesMap | src/arch/paging.rs:115-180 | unmapping a page that a map made present gives back every translation of the table before the map |
| Paging.MissingDependsOnTop | src/arch/paging.rs:78-92 | the number of kernel PML4 entries still to allocate depends only on their presence |
| Paging.StepKeepsCount | src/arch/paging.rs:78-92 | one iteration of the setup loop keeps the comparison between free frames and missing entries |
| Paging.PreallocateAsWritten | src/arch/paging.rs:79-91 | as written, a missing PML4 entry becomes present at the cost of one free frame, but the frame is not zeroed, so every entry below it keeps its stale value |
| Paging.SetupFromAsWritten | src/arch/paging.rs:78-92 | as written, the loop panics exactly when fewer frames are free than entries are missing, and otherwise makes every kernel entry present |
| Paging.SetupAsWrittenExposesStaleEntries | src/arch/paging.rs:82-89 | as written, a non-zeroed frame reused as a PML4 table makes an unmapped kernel address translate to a stale frame |
| Paging.Preallocate | src/arch/paging.rs:79-91 | a missing PML4 entry gets a zeroed table, costing one free frame, and no translation changes |
| Paging.SetupFrom | src/arch/paging.rs:78-92 | the loop panics exactly when fewer frames are free than entries are missing, and otherwise makes every kernel entry present without changing a lookup |
| Paging.Setup | src/arch/paging.rs:72-99 | panics exactly when frames run out; otherwise every kernel PML4 entry is present and every translation is as before |
| Paging.LookupsDecideTranslations | src/arch/paging.rs:230-243 | tables with the same last-level lookups translate every address the same way |
| PageFault.HandleDemandPaging | src/arch/paging.rs:440-471 | addresses outside the heap and vmalloc are `UNKNOWN` with nothing changed; success maps the page PRESENT and WRITABLE, and a heap page into the frame just allocated; a heap failure is OUT_OF_MEMORY with no frame free; only an already mapped page panics; no other page changes |
| PageFault.ViolationReason | src/arch/paging.rs:409-423 | the reason is WRITE_PROTECTED exactly for a write to a read-only page; NOT_EXECUTABLE only for an instruction fetch from a no-execute page; PROTECTION_VIOLATION otherwise |
| PageFault.HandlePageFault | src/arch/paging.rs:371-430 | never panics; a present page without a protection violation is a lazy TLB invalidation; demand paging leaves the address mapped PRESENT and WRITABLE; a protection violation reports its reason and changes nothing; other failures include MISSING_PAGE |
| PageFault.FaultTwice | src/arch/paging.rs:386-399 | a fault served by demand paging, if it recurs, is a lazy TLB invalidation that changes nothing |
| SortedMap.Insert | src/mm/vmm.rs:184-201 | `BTreeMap::insert` keeps the map ordered, files the value under the key and keeps every other key |
| SortedMap.Remove | src/mm/vmm.rs:108-112 | `BTreeMap::remove` keeps the map ordered, drops the key and keeps every other key |
| Vmm.SpanCount | src/mm/vmm.rs:55-58 | an area covers each address inside it once and nothing else |
| Vmm.SpanSplit | src/mm/vmm.rs:221-227 | an area split at an offset is its head followed by its tail |
| Vmm.AlignUp | src/mm/vmm.rs:88 | `(size + 0xFFF) & !0xFFF` on 64 bits is the next multiple of 4096, or 0 when the addition wraps |
| Vmm.AlignDown | src/mm/vmm.rs:140 | `page_align_down` gives the start of the address's page |
| Vmm.CoveredPush | src/mm/vmm.rs:188 | pushing an area onto a bucket adds exactly its addresses |
| Vmm.InsertFree | src/mm/vmm.rs:184-195 | `insert_free_vma` appends the area to its size's bucket, keeps the other buckets and adds exactly its addresses to the free space |
| Vmm.InsertFreeFacts | src/mm/vmm.rs:184-195 | inserting into a bucket adds exactly the area's addresses and keeps buckets uniform in size |
| Vmm.InsertUsed | src/mm/vmm.rs:198-202 | `insert_used_vma` records the area under its start and keeps every other record |
| Vmm.Setup | src/mm/vmm.rs:70-78 | the allocator starts with one free area covering the whole region, no used area, and the invariant holding |
| Vmm.FitFrom | src/mm/vmm.rs:213-216 | finds the first bucket, in size order, that is large enough and not empty |
| Vmm.FindFreeFirstFit | src/mm/vmm.rs:211-239 | fails exactly when no bucket fits; otherwise pops the last area of the first fitting bucket and cuts it to the requested size |
| Vmm.TakeFrom | src/mm/vmm.rs:217-236 | popping and splitting leaves the free space plus the returned area equal to the free space before |
| Vmm.FindFreeFirstFitConserves | src/mm/vmm.rs:211-239 | first fit loses no free address, and with uniform buckets returns exactly the size asked for |
| Vmm.PopFacts | src/mm/vmm.rs:217 | popping a bucket's last area removes exactly that area's addresses |
| Vmm.SplitFacts | src/mm/vmm.rs:221-235 | splitting an area and freeing the tail leaves exactly the head's addresses taken |
| Vmm.AllocateAsWritten | src/mm/vmm.rs:86-98 | as written, ATOMIC panics when an area fits; no fitting area is `OutOfMemory` with nothing changed; otherwise the area taken is recorded as used under its start, with every flag but ATOMIC |
| Vmm.Record | src/mm/vmm.rs:95-97 | the taken area is recorded under its start with truncated flags and returned as a range |
| Vmm.AllocateAsWrittenConserves | src/mm/vmm.rs:86-98 | the addresses handed out were free and are no longer free; with uniform buckets the range is the rounded size long |
| Vmm.Allocate | src/mm/vmm.rs:86-98 | a size that rounds to zero is `OutOfMemory`; any other request is served as written |
| Vmm.AllocateKeepsInv | src/mm/vmm.rs:86-98 | `allocate` keeps free and used areas tiling the region, never replaces a live record, and hands out a non-empty range of free addresses |
| Vmm.RecordKeepsInv | src/mm/vmm.rs:95-97 | moving a non-empty area from free to used keeps the tiling, and its start had no record |
| Vmm.FreeStartUnused | src/mm/vmm.rs:198-202 | a free address cannot be the start of a used area |
| Vmm.UsedStartCounts | src/mm/vmm.rs:198-202 | the start of a recorded area is a used address |
| Vmm.AllocateAsWrittenLosesEmptyArea | src/mm/vmm.rs:86-98 | as written, a zero-size allocation records an empty area that the next allocation at the same start replaces, and deallocating the empty range then frees a page still in use |
| Vmm.EmptyRangeReleasesPage | src/mm/vmm.rs:108-130 | deallocating the empty range at 0 removes the page recorded there and returns it to the free bucket |
| Vmm.TwoPagesSetup | src/mm/vmm.rs:70-78 | setup over two pages gives one free area of two pages |
| Vmm.EmptyAllocation | src/mm/vmm.rs:86-98 | as written, a zero-size request returns the empty range at 0 and keeps the two-page area free |
| Vmm.EmptySplit | src/mm/vmm.rs:217-236 | a zero-size first fit returns an empty area at 0 and leaves the free buckets as they were |
| Vmm.TwoPagesRefilled | src/mm/vmm.rs:184-195 | pushing the two-page area back restores the free buckets |
| Vmm.PageAllocation | src/mm/vmm.rs:86-98 | the next page-sized request is served at 0 and replaces the empty record |
| Vmm.PageSplit | src/mm/vmm.rs:221-235 | one page taken from the two-page area leaves the second page free |
| Vmm.SecondPageFreed | src/mm/vmm.rs:229-235 | the freed second page lands in the one-page bucket |
| Vmm.UnmapPages | src/mm/vmm.rs:114-127 | afterwards no page of the area translates and nothing new does; an area with nothing mapped is left alone |
| Vmm.ReleasePage | src/mm/vmm.rs:117-125 | the table is left as `unmap` of that page leaves it; an unmapped page changes nothing |
| Vmm.UntouchedRest | src/mm/vmm.rs:116 | nothing mapped from a page on means nothing mapped from the next page on |
| Vmm.UnmapPagesFacts | src/mm/vmm.rs:116-126 | unmapping the first page and then the rest unmaps them all and adds no translation |
| Vmm.UnmappedFromPage | src/mm/vmm.rs:116-126 | the first page unmapped and the rest unmapped after it leaves every page unmapped |
| Vmm.UnmapKeepsOthers | src/mm/vmm.rs:116-126 | whatever is mapped after the unmapping was mapped the same way before it |
| Vmm.Deallocate | src/mm/vmm.rs:108-130 | panics without a record at the range's start; removes the record, unmaps a MAP area's pages, and returns the whole area, unmerged, to its bucket |
| Vmm.DeallocateKeepsInv | src/mm/vmm.rs:108-130 | `deallocate` keeps free and used areas tiling the region |
| Vmm.AllocateDeallocateRoundTrip | src/mm/vmm.rs:86-130 | deallocating what was just allocated without MAP restores the free addresses and every used record |
| Vmm.FindUsed | src/mm/vmm.rs:142-149 | finds the first used area, in start order, holding the address, or none exactly when no area holds it |
| Vmm.DemandPageMapped | src/mm/vmm.rs:173-174 | a page mapped PRESENT and WRITABLE under present tables has exactly that protection and translates into its frame |
| Vmm.MappedPageTranslates | src/mm/vmm.rs:173-174 | a present last-level entry under present tables makes the address translate into its frame |
| Vmm.DemandRequest | src/mm/vmm.rs:157-161 | the frame is asked ZEROED exactly when the area was allocated ZEROED, and nothing else is asked |
| Vmm.HandleDemandPaging | src/mm/vmm.rs:139-181 | no area is MISSING_PAGE and a non-MAP area is NOT_MAPPABLE, both with nothing changed; no frame is OUT_OF_MEMORY; success maps the page PRESENT and WRITABLE into the allocated frame; a mapped page panics |
| Vmm.MapFreshFrame | src/mm/vmm.rs:155-180 | allocates a frame and maps the page to it; no free frame is OUT_OF_MEMORY; success makes the faulting address translate into that frame |
| Vmm.MapDemandPage | src/mm/vmm.rs:173-179 | maps a page to a given frame; an already mapped page panics with nothing changed; a map failure is OUT_OF_MEMORY |

## Left out

- Physical and virtual addresses are unbounded naturals. The 64-bit width
  of `Physical`, `Virtual` and `usize` is modelled only where the code
  relies on it: the direct-map additions, `AlignUp`'s wrap, the GDT limit
  and the identifier offset.
- FrameState.Setup: the statistics counters are `int`. The `poisoned -= 1`
  decrements in `setup` (state.rs lines 82, 90 and 99) are not checked for
  `usize` underflow, which would panic in a debug build.
- FrameAllocator.Deallocate: the `kernel -= 1` and `allocated -= 1`
  decrements (dummy_allocator.rs lines 165 and 169) are not checked for
  `usize` underflow either.
- Zeroing frame contents through the direct map (`write_bytes`) is not
  modelled, because memory contents are not modelled. The ZEROED request
  is carried as a flag. A freshly created page table counts as zeroed.
- TLB flushes, `change_table`, and the CR0, CR3 and CR4 writes are left
  out. They change no state the model keeps. The active page table is the
  table passed in.
- Spinlocks, atomics, `irq::without` and the ordering of lock acquisition
  are left out. Every operation runs as one atomic step.
- `log`/`trace!` output is left out.
- The thread priority behind `priority()` is not part of this model. Idle
  priority is the parameter set `idle` in `RoundRobin` and `Schedule`.
- The context switch (`cpu::switch`) and `thread::set_current` are left
  out. The scheduling step ends with the identifier of the thread to run
  and the active table.
- User threads reach `todo!()` in `build`; the model panics there. User
  stack allocation is not modelled.
- Ids.Generate: the probing loop is modelled only when some identifier is
  clear once the counter check passes. Every bitmap whose counter bounds
  the set identifiers meets this (`Ids.InvHasFree`). Without a clear
  identifier the loop would spin for ever, which is not modelled.
- Processes: `parent_id`, `borrow`, `exists` and the `Arc`/`Weak`
  reference counting are left out. A parent is a pid, and a process is
  dropped explicitly.
- Gdt.Flush: `lgdt` and segment reloads are left out. The table's address
  is a parameter.
- Gdt.Tss: the size of `TaskStateSegment` and its address are parameters.
  The TSS structure is not part of this model.
- `HEAP_START`, `HEAP_END`, `VMALLOC_START`, `VMALLOC_END` and
  `KERNEL_BASE` are defined outside these files. They are the `Regions`
  parameter.
- Frames.Len has no row. `len` is defined as `count` (mod.rs lines
  210-212), so its contract only says that.
- Threads.KernelThreadLifecycle: the restored used counter holds only
  with the corrected release. As written, `Thread::drop` leaves the
  counter one higher (`Threads.ZombieDroppedAsWritten`).
- Threads.ZombieDropped: likewise states the corrected release; the
  as-written drop is `Threads.DropAsWritten`.
- RoundRobin.PickNext: the run list and the `idle` set are keyed by tid,
  while round_robin.rs (lines 9-12) holds `Arc<Thread>` handles, so two
  listed threads with one tid are two threads there and one record here.
  The model matches round_robin.rs and schedule/mod.rs only while tids are
  unique, which the corrected `Ids.Generate` guarantees and the `generate`
  as written does not (`Ids.GenerateAsWrittenRepeats`).
- Schedule.Reschedule: for the same reason, the case where the next
  thread is another thread with the current thread's tid is not modelled.
  There `current_tid != next_tid` (mod.rs line 35) is false, so the switch
  is skipped and the picked thread stays Running without running, and a
  later `remove_thread` of that tid would panic on it.
- Processes.Build: `insert` (process.rs line 164) runs under
  `PROCESSES.write()`. When it replaces the last reference to a process,
  that process's `Drop` (process.rs line 112) calls `find`, which takes
  `PROCESSES.read()` on the same non-reentrant lock and would spin for
  ever. With locks left out, the model only files the new process.
- Processes.Delete: likewise, `remove` (process.rs line 252) drops the
  last reference under the write lock, so the `Drop` that its doc comment
  promises would hang. The model removes the entry, and `Processes.Drop`
  is a separate explicit step.
- Paging.Map: the `unsafe` raw-pointer walk through the direct map is
  modelled as an index path into one map of entries. Hardware-defined bits
  beyond the flags listed in `PteFlag` are not modelled.
- The `Sub`/`SubAssign` frame operators, `remove_flags`/`add_flags`
  helpers, `get_frame_info_mut`, `statistics` and the accessors are left
  out. They read or write fields directly.

## Findings

| source | as written | input that shows it | evidently intended | confidence | as-written member | corrected member |
|---|---|---|---|---|---|---|
| src/mm/frame/dummy_allocator.rs:104-107 | the returned range ends at `array[i + count]`, one past the run | one free frame, `allocate_range(1)`: `array[1]` is out of bounds and panics | the end is the frame after the run, computed from the start's address | not executed | FrameAllocator.AllocateRangeAsWrittenFailsAtEnd | FrameAllocator.AllocateRange |
| src/mm/frame/state.rs:95-101 | the reserved branch acts only when the frame is NOT poisoned | a reserved entry over one poisoned page and one usable page: the poisoned page stays POISONED, and the usable page is re-marked RESERVED and counted | reserve exactly the frames still poisoned | not executed | FrameState.SetupAsWrittenMiscountsReserved | FrameState.Setup |
| src/arch/paging.rs:82-89 | the frame for a new kernel PML4 entry is allocated without ZEROED | a stale frame whose old contents are present entries: an unmapped kernel address then translates to 0x1000 | allocate the table frame zeroed | not executed | Paging.SetupAsWrittenExposesStaleEntries | Paging.Setup |
| src/mm/vmm.rs:86-98 | a size of 0 (or one that wraps) is served as an empty area | allocate 0, then 4096 from two free pages: both record start 0, and deallocating the empty range frees the live page | refuse empty requests | not executed | Vmm.AllocateAsWrittenLosesEmptyArea | Vmm.Allocate |
| src/sys/thread.rs:331 | `generate` returns `Self(*tid)`, the bitmap word | two generations from an example bitmap claim 0 and 8 but both return 255 | return the identifier probed | not executed | Ids.GenerateAsWrittenRepeats | Ids.Generate |
| src/sys/process.rs:211 | `Pid::generate` returns the bitmap word | two processes built in a row both get pid 255; the second takes the first's place in the table, and the kernel would hang dropping the first under the write lock | return the pid probed | not executed | Processes.NewBuilderAsWrittenRepeatsPid | Processes.NewBuilder |
| src/sys/thread.rs:337-342 | `release` clears the bit but never lowers `TIDS_USED` | generate then release: the bitmap is as before and the counter is one higher; eventually an empty bitmap refuses to generate | lower the used counter | not executed | Ids.ReleaseAsWrittenExhausts | Ids.Release |
| src/sys/thread.rs:182 | `Thread::drop` releases the tid through `release`, which never lowers `TIDS_USED` | generate a tid for a zombie from an exact bitmap and drop it: the bitmap is as before and the counter one higher | lower the used counter on release | not executed | Threads.ZombieDroppedAsWritten | Threads.ZombieDropped |
| src/sys/process.rs:117 | `Drop` releases the pid word and `release` never lowers `PIDS_USED` | a process built from the example bitmap and dropped: bit 0 stays set and the counter grows | release the pid itself and lower the counter | not executed | Processes.DropAsWrittenLeaksPid | Processes.Drop |
| src/sys/thread.rs:260-264 | the kernel stack is allocated with ATOMIC, which `vmm::allocate` rejects with `unimplemented!` | any build with a free tid and a large enough free area panics | allocate the stack without ATOMIC | not executed | Threads.BuildAsWrittenNeverBuilds | Threads.Build |
| src/sys/thread.rs:255-257 | an early return from `build` drops the builder's thread, whose `Drop` releases its tid | no free tid: tid 0's bit is cleared although tid 0 is in use | leave the bitmap alone on failure | not executed | Threads.BuildAsWrittenFreesTidZero | Threads.Build |
| crates/silicium-x86_64/src/gdt.rs:83-84 | `USER_CODE64` and `USER_DATA` carry the kernel words, DPL 0 | the user descriptors' privilege bits read 0 | DPL 3 (0x00affb000000ffff and 0x00cff3000000ffff) | not executed | Gdt.UserSegmentsAsWrittenAreRing0 | Gdt.UserSegmentsAreRing3 |

=== FILE: address.dfy ===
/**
 * The higher-half direct map (src/arch/address.rs): every physical address
 * is visible at a fixed virtual offset.
 */
module Address {
  import opened Base

  const HHDM_OFFSET: nat := 0xFFFF_8000_0000_0000
  /** Exclusive upper bound that `virt_to_phys` accepts. */
  const HHDM_LIMIT: nat := 0xFFFF_8FFF_FFFF_FFFF

  /** `phys_to_virt`: adds the offset; the `u64` addition panics when it overflows. */
  function PhysToVirt(p: nat): (v: Outcome<nat>)
    ensures v.Done? <==> p < U64_MODULUS - HHDM_OFFSET
    ensures v.Done? ==> v.value >= HHDM_OFFSET && v.value - HHDM_OFFSET == p
  {
    if p + HHDM_OFFSET < U64_MODULUS then Done(p + HHDM_OFFSET) else Panic
  }

  /** `virt_to_phys`: asserts the address lies in the direct map, then removes the offset. */
  function VirtToPhys(v: nat): (p: Outcome<nat>)
    ensures p.Done? <==> HHDM_OFFSET <= v < HHDM_LIMIT
    ensures p.Done? ==> p.value + HHDM_OFFSET == v
  {
    if HHDM_OFFSET <= v < HHDM_LIMIT then Done(v - HHDM_OFFSET) else Panic
  }

  /** Going to the direct map and back gives the physical address again, below the map's size. */
  lemma PhysVirtRoundTrip(p: nat)
    requires p < 0x0FFF_FFFF_FFFF
    ensures PhysToVirt(p).Done? && VirtToPhys(PhysToVirt(p).value) == Done(p)
  {
  }

  /** Every address `virt_to_phys` accepts comes back unchanged through `phys_to_virt`. */
  lemma VirtPhysRoundTrip(v: nat)
    requires HHDM_OFFSET <= v < HHDM_LIMIT
    ensures VirtToPhys(v).Done? && PhysToVirt(VirtToPhys(v).value) == Done(v)
  {
  }

  /** The offset is page aligned, so the conversion keeps the offset inside a page and page alignment. */
  lemma PhysToVirtKeepsPageOffset(p: nat)
    requires PhysToVirt(p).Done?
    ensures PhysToVirt(p).value % 4096 == p % 4096
    ensures PhysToVirt(p).value / 4096 == p / 4096 + HHDM_OFFSET / 4096
  {
    assert HHDM_OFFSET % 4096 == 0;
  }
}

=== FILE: base.dfy ===
/**
 * Shared result types.
 *
 * The kernel reports failures in two different ways: recoverable errors are
 * returned as Rust `Option`/`Result` values, while broken preconditions
 * (`assert!`, `unwrap`, `expect`, out-of-bounds indexing, `unimplemented!`)
 * abort with a panic. `Outcome` models the second kind: an operation either
 * completes with a value or panics, and a panic discards whatever it did.
 */
module Base {

  datatype Option<+T> = None | Some(value: T)

  datatype Result<+T, +E> = Ok(value: T) | Err(error: E)

  /** Either the operation completed normally, or the kernel panicked. */
  datatype Outcome<+T> = Done(value: T) | Panic

  /** `Some(x).unwrap()`: the value, or a panic on `None`. */
  function Unwrap<T>(o: Option<T>): (r: Outcome<T>)
    ensures r.Panic? <==> o.None?
    ensures r.Done? ==> o == Some(r.value)
  {
    match o
    case Some(v) => Done(v)
    case None => Panic
  }

  const U16_MODULUS: nat := 0x1_0000
  const U64_MODULUS: nat := 0x1_0000_0000_0000_0000
}

=== FILE: bits.dfy ===
/**
 * 64-bit machine words kept as their bits, least significant first, and
 * the shifts, masks and bit-range updates the kernel applies to them.
 */
module Bits {

  /**
   * A 64-bit word, kept as its bits: bit `i` stands for `1 << i`, so
   * `w & (1 << i) != 0` is `w[i]`, and `w |= 1 << i` and `w &= !(1 << i)`
   * set and clear `w[i]`.
   */
  type Word = w: seq<bool> | |w| == 64 witness ZERO

  const ZERO: seq<bool> := seq(64, i => false)

  /** The unsigned value of a word's bits, least significant first. */
  function Value(bits: seq<bool>): nat {
    if bits == [] then 0 else (if bits[0] then 1 else 0) + 2 * Value(bits[1..])
  }

  /** The low `k` bits of `n`, least significant first. */
  function ToBits(n: nat, k: nat): (r: seq<bool>)
    ensures |r| == k
  {
    if k == 0 then [] else [n % 2 == 1] + ToBits(n / 2, k - 1)
  }

  lemma {:induction false} ValueOfZeros(bits: seq<bool>)
    requires forall j :: 0 <= j < |bits| ==> !bits[j]
    ensures Value(bits) == 0
  {
    if bits != [] {
      ValueOfZeros(bits[1..]);
    }
  }

  /** Bits read as a number and written back come out as they were. */
  lemma {:induction false} ToBitsOfValue(bits: seq<bool>)
    ensures ToBits(Value(bits), |bits|) == bits
  {
    if bits != [] {
      ToBitsOfValue(bits[1..]);
      var b := if bits[0] then 1 else 0;
      assert (b + 2 * Value(bits[1..])) / 2 == Value(bits[1..]);
      assert bits == [bits[0]] + bits[1..];
    }
  }

  /** The word with only bit `i` set: `1 << i`. */
  function Bit(i: nat): Word {
    seq(64, j => j == i)
  }

  /** `w >> k`. */
  function Shr(w: Word, k: nat): (r: Word)
    ensures forall i :: 0 <= i < 64 ==> r[i] == (i + k < 64 && w[i + k])
  {
    seq(64, i requires 0 <= i < 64 => i + k < 64 && w[i + k])
  }

  /** `w & (2^k - 1)`: the low `k` bits of `w`. */
  function Low(w: Word, k: nat): (r: Word)
    ensures forall i :: 0 <= i < 64 ==> r[i] == (i < k && w[i])
  {
    seq(64, i requires 0 <= i < 64 => i < k && w[i])
  }

  /**
   * `set_bit_range(msb, lsb, v)` of the `bitfield` crate: bits `lsb`
   * through `msb` of `w` become the low bits of `v`; the bits of `v`
   * above the range are masked off and the rest of `w` is kept.
   */
  function SetBitRange(w: Word, msb: nat, lsb: nat, v: Word): (r: Word)
    requires lsb <= msb < 64
    ensures forall i :: 0 <= i < 64 ==> r[i] == if lsb <= i <= msb then v[i - lsb] else w[i]
  {
    seq(64, i requires 0 <= i < 64 => if lsb <= i <= msb then v[i - lsb] else w[i])
  }
}

=== FILE: fault_error.dfy ===
/**
 * The reasons a page fault could not be handled, shared by the page-table
 * code and the vmalloc allocator. `PageFaultError` keeps them as bit flags; a set
 * of reasons stands for the flag word, and the empty set for `UNKNOWN`.
 */
module Faults {

  datatype Reason = MissingPage | ProtectionViolation | WriteProtected | NotExecutable | OutOfMemory | NotMappable

  type PageFaultError = set<Reason>

  /** No reason could be found. */
  const UNKNOWN: PageFaultError := {}
}

=== FILE: frame.dfy ===
/**
 * Physical frame descriptors and half-open frame ranges
 * (src/mm/frame/mod.rs).
 *
 * Physical addresses are unbounded naturals: the model does not track the
 * 64-bit width of `Physical`.
 */
module Frames {
  import opened Base

  const PAGE_SIZE: nat := 4096

  /** The bits of `FrameFlags`; a flag set stands for the bitmask. */
  datatype FrameFlag =
    | Poisoned | Reserved | Free | Zeroed | Dirty | Kernel | Borrowed | Bios | Isa | X86

  type FrameFlags = set<FrameFlag>

  /** A frame descriptor: its page-aligned address, its flags and its reference count. */
  datatype Frame = Frame(address: nat, flags: FrameFlags, count: nat)

  datatype NotAligned = NotAligned(address: nat, alignment: nat)

  /** Statistics kept by the frame state and the frame allocator (`allocated` is spelled `allocatedFrames`, a reserved word in Dafny). */
  datatype Stats = Stats(
    total: int, usable: int, allocatedFrames: int, reserved: int,
    kernel: int, borrowed: int, poisoned: int)

  const EmptyStats: Stats := Stats(0, 0, 0, 0, 0, 0, 0)

  predicate PageAligned(address: nat) {
    address % PAGE_SIZE == 0
  }

  /** The index of the frame holding `address` (`frame::index`). */
  function Index(address: nat): nat {
    address / PAGE_SIZE
  }

  /** `Frame::new`: panics unless the address is page aligned. */
  function New(address: nat, flags: FrameFlags): (r: Outcome<Frame>)
    ensures r.Done? <==> PageAligned(address)
    ensures r.Done? ==> r.value.count == 0 && Index(r.value.address) == Index(address)
    ensures r.Done? ==> Contains(r.value, address)
  {
    if PageAligned(address) then Done(Frame(address, flags, 0)) else Panic
  }

  /** `Frame::try_new`: the error carries the address and the 4096-byte alignment. */
  function TryNew(address: nat, flags: FrameFlags): (r: Result<Frame, NotAligned>)
    ensures r.Ok? <==> PageAligned(address)
    ensures r.Err? ==> r.error == NotAligned(address, PAGE_SIZE)
  {
    if PageAligned(address) then Ok(Frame(address, flags, 0))
    else Err(NotAligned(address, PAGE_SIZE))
  }

  /** `try_new` succeeds exactly when `new` does not panic, and builds the same frame. */
  lemma TryNewAgreesWithNew(address: nat, flags: FrameFlags)
    ensures TryNew(address, flags).Ok? <==> New(address, flags).Done?
    ensures TryNew(address, flags).Ok? ==> TryNew(address, flags).value == New(address, flags).value
    ensures New(address, flags).Done? ==> New(address, flags).value.flags == flags
  {
  }

  /** `Frame::contains`. */
  predicate Contains(f: Frame, address: nat) {
    f.address <= address < f.address + PAGE_SIZE
  }

  /** An aligned frame contains exactly the addresses whose frame index is its own. */
  lemma ContainsIffSameIndex(f: Frame, address: nat)
    requires PageAligned(f.address)
    ensures Contains(f, address) <==> Index(address) == Index(f.address)
  {
    var k := f.address / PAGE_SIZE;
    assert f.address == k * PAGE_SIZE;
    if Contains(f, address) {
      assert address / PAGE_SIZE == k;
    }
    if Index(address) == k {
      assert k * PAGE_SIZE <= address;
      assert address < (k + 1) * PAGE_SIZE;
    }
  }

  function IncrementCount(f: Frame): (r: Frame)
    ensures r.count > 0
  {
    f.(count := f.count + 1)
  }

  /** `decrement_count` on a `usize` counter: subtracting from zero panics. */
  function DecrementCount(f: Frame): (r: Outcome<Frame>)
    ensures r.Panic? <==> f.count == 0
  {
    if f.count == 0 then Panic else Done(f.(count := f.count - 1))
  }

  /** Incrementing then decrementing gives back the same frame; the reverse holds for a referenced frame. */
  lemma CountRoundTrip(f: Frame)
    ensures DecrementCount(IncrementCount(f)) == Done(f)
    ensures f.count > 0 ==> DecrementCount(f).Done? && IncrementCount(DecrementCount(f).value) == f
  {
  }

  /** Incrementing changes the count by exactly one and nothing else. */
  lemma IncrementCountIsSuccessor(f: Frame)
    ensures IncrementCount(f).count == f.count + 1
    ensures IncrementCount(f).(count := f.count) == f
  {
  }

  /** `frame += n`: moves the address by `n` pages and keeps flags and count. */
  function AddAssign(f: Frame, n: nat): (r: Frame)
    ensures Index(r.address) == Index(f.address) + n
    ensures r.flags == f.flags && r.count == f.count
  {
    f.(address := f.address + n * PAGE_SIZE)
  }

  /** `frame + n`: goes through `Frame::new`, so the count starts again at zero. */
  function Add(f: Frame, n: nat): (r: Outcome<Frame>)
    ensures r.Done? <==> PageAligned(f.address)
    ensures r.Done? ==> r.value == AddAssign(f, n).(count := 0)
  {
    New(f.address + n * PAGE_SIZE, f.flags)
  }

  /** A half-open range of frames: `start` is included, `end` is not. */
  datatype Range = Range(start: Frame, end: Frame)

  predicate ContainsAddress(r: Range, address: nat) {
    r.start.address <= address < r.end.address
  }

  predicate RangeContains(r: Range, f: Frame) {
    r.start.address <= f.address < r.end.address
  }

  /** Containment of a frame is containment of its address. */
  lemma RangeContainsIsByAddress(r: Range, f: Frame)
    ensures RangeContains(r, f) <==> ContainsAddress(r, f.address)
    ensures RangeContains(r, f) <==> r.start.address <= f.address && f.address < r.end.address
  {
  }

  predicate IsEmpty(r: Range) {
    r.start.address >= r.end.address
  }

  /**
   * `Range::count`: the `u64` subtraction panics when the end lies before the
   * start; otherwise the address difference divided by the page size.
   */
  function Count(r: Range): (c: Outcome<nat>)
    ensures c.Panic? <==> r.end.address < r.start.address
    ensures c.Done? ==> c.value * PAGE_SIZE <= r.end.address - r.start.address < (c.value + 1) * PAGE_SIZE
  {
    if r.end.address < r.start.address then Panic
    else Done((r.end.address - r.start.address) / PAGE_SIZE)
  }

  /** `Range::len` is `count`. */
  function Len(r: Range): (c: Outcome<nat>)
    ensures c == Count(r)
  {
    Count(r)
  }

  /** `Iterator::next`: `None` on an empty range, else the start frame and a range advanced by one page. */
  function Next(r: Range): (p: Option<(Frame, Range)>)
    ensures p.None? <==> IsEmpty(r)
    ensures p.Some? ==> p.value.0 == r.start && p.value.1.end == r.end
    ensures p.Some? ==> p.value.1.start.address == r.start.address + PAGE_SIZE
  {
    if IsEmpty(r) then None else Some((r.start, r.(start := AddAssign(r.start, 1))))
  }

  /** Everything the iterator yields, in order, until it returns `None`. */
  function Items(r: Range): (fs: seq<Frame>)
    decreases r.end.address - r.start.address
  {
    match Next(r)
    case None => []
    case Some((f, rest)) => [f] + Items(rest)
  }

  /**
   * The iterator yields start, start + 4096, ... while below the end; every
   * item lies in the range and keeps the start frame's flags and count.
   */
  lemma {:induction false} FramesAreSteps(r: Range)
    ensures forall k :: 0 <= k < |Items(r)| ==>
      Items(r)[k] == AddAssign(r.start, k) && RangeContains(r, Items(r)[k])
    decreases r.end.address - r.start.address
  {
    if !IsEmpty(r) {
      var rest := r.(start := AddAssign(r.start, 1));
      FramesAreSteps(rest);
      forall k | 0 <= k < |Items(r)|
        ensures Items(r)[k] == AddAssign(r.start, k) && RangeContains(r, Items(r)[k])
      {
        if k > 0 {
          assert Items(r)[k] == Items(rest)[k - 1];
        }
      }
    }
  }

  /** For an aligned, non-inverted range the iterator yields exactly `count` frames. */
  lemma {:induction false} FramesLengthIsCount(r: Range)
    requires PageAligned(r.start.address) && PageAligned(r.end.address)
    requires r.start.address <= r.end.address
    ensures Count(r).Done? && |Items(r)| == Count(r).value
    decreases r.end.address - r.start.address
  {
    if !IsEmpty(r) {
      var rest := r.(start := AddAssign(r.start, 1));
      FramesLengthIsCount(rest);
      var d := r.end.address - r.start.address;
      assert d % PAGE_SIZE == 0;
      assert d >= PAGE_SIZE;
      assert (d - PAGE_SIZE) / PAGE_SIZE == d / PAGE_SIZE - 1;
    }
  }
}

=== FILE: frame_allocator.dfy ===
/**
 * The first-fit frame allocator over the frame-state array
 * (src/mm/frame/dummy_allocator.rs).
 *
 * The array and the allocator's statistics are one value; the spinlock and
 * the interrupt masking around every operation are plain sequential access
 * here, and zeroing a frame through the direct map is not modelled.
 */
module FrameAllocator {
  import opened Base
  import opened Frames

  datatype Allocator = Allocator(frames: seq<Frame>, stats: Stats)

  predicate IsFree(f: Frame) {
    Free in f.flags
  }

  /** The allocator's invariant: a frame marked FREE is referenced by nobody. */
  predicate FreeFramesUnreferenced(frames: seq<Frame>) {
    forall i :: 0 <= i < |frames| ==> IsFree(frames[i]) ==> frames[i].count == 0
  }

  /** The array built by the frame state: frame `i` describes physical address `i * 4096`. */
  predicate Layout(frames: seq<Frame>) {
    forall i :: 0 <= i < |frames| ==> frames[i].address == i * PAGE_SIZE
  }

  /** `i` is the lowest index of a FREE frame. */
  predicate LowestFree(frames: seq<Frame>, i: int) {
    && 0 <= i < |frames|
    && IsFree(frames[i])
    && forall j :: 0 <= j < i ==> !IsFree(frames[j])
  }

  /** The first FREE frame at or after `from`, scanning upwards like `iter().find`. */
  function FirstFree(frames: seq<Frame>, from: nat): (r: Option<nat>)
    requires from <= |frames|
    ensures r.Some? ==> from <= r.value < |frames| && IsFree(frames[r.value])
    ensures r.Some? ==> forall j :: from <= j < r.value ==> !IsFree(frames[j])
    ensures r.None? ==> forall j :: from <= j < |frames| ==> !IsFree(frames[j])
    decreases |frames| - from
  {
    if from == |frames| then None
    else if IsFree(frames[from]) then Some(from)
    else FirstFree(frames, from + 1)
  }

  /** What allocation does to one frame: FREE goes, KERNEL comes if asked for, one reference is taken. */
  function Take(f: Frame, request: FrameFlags): Frame {
    Frame(f.address, f.flags - {Free} + (if Kernel in request then {Kernel} else {}), f.count + 1)
  }

  /** What the last release does to one frame: the count drops, and at zero the frame is FREE again without KERNEL. */
  function Release(f: Frame): Frame
    requires f.count > 0
  {
    if f.count == 1 then Frame(f.address, f.flags - {Kernel} + {Free}, 0)
    else f.(count := f.count - 1)
  }

  /** The allocator's statistics after `n` frames were taken. */
  function StatsAfterTaking(s: Stats, n: nat, request: FrameFlags): Stats {
    s.(allocatedFrames := s.allocatedFrames + n,
       kernel := s.kernel + (if Kernel in request then n else 0))
  }

  /**
   * `allocate`: takes the lowest FREE frame and returns its updated
   * descriptor; `None` (and no change at all) when no frame is FREE.
   */
  function Allocate(a: Allocator, request: FrameFlags): (r: (Allocator, Option<Frame>))
    ensures r.1.None? <==> forall j :: 0 <= j < |a.frames| ==> !IsFree(a.frames[j])
    ensures r.1.None? ==> r.0 == a
    ensures r.1.Some? ==> exists i :: (
      && LowestFree(a.frames, i)
      && r.0.frames == a.frames[i := Take(a.frames[i], request)]
      && r.1.value == r.0.frames[i])
    ensures r.1.Some? ==> r.0.stats == StatsAfterTaking(a.stats, 1, request)
    ensures r.1.Some? ==> !IsFree(r.1.value) && r.1.value.count > 0
    ensures r.1.Some? ==> (Kernel in request ==> Kernel in r.1.value.flags)
  {
    match FirstFree(a.frames, 0)
    case None => (a, None)
    case Some(i) =>
      var f := Take(a.frames[i], request);
      (Allocator(a.frames[i := f], StatsAfterTaking(a.stats, 1, request)), Some(f))
  }

  /** How many frames are FREE. */
  function FreeCount(frames: seq<Frame>): (n: nat)
    ensures n == 0 <==> forall j :: 0 <= j < |frames| ==> !IsFree(frames[j])
    ensures n <= |frames|
  {
    if frames == [] then 0
    else
      var rest := FreeCount(frames[1..]);
      assert forall j :: 1 <= j < |frames| ==> frames[j] == frames[1..][j - 1];
      (if IsFree(frames[0]) then 1 else 0) + rest
  }

  /** Replacing a FREE frame by a non-FREE one removes exactly one FREE frame. */
  lemma {:induction false} FreeCountTake(frames: seq<Frame>, i: nat, f: Frame)
    requires i < |frames| && IsFree(frames[i]) && !IsFree(f)
    ensures FreeCount(frames[i := f]) == FreeCount(frames) - 1
    decreases |frames|
  {
    if i > 0 {
      FreeCountTake(frames[1..], i - 1, f);
      assert frames[i := f][1..] == frames[1..][i - 1 := f];
    } else {
      assert frames[i := f][1..] == frames[1..];
    }
  }

  /** Every successful `allocate` uses up one FREE frame; a failed one means none was left. */
  lemma AllocateUsesOneFree(a: Allocator, request: FrameFlags)
    ensures Allocate(a, request).1.None? <==> FreeCount(a.frames) == 0
    ensures Allocate(a, request).1.Some? ==> FreeCount(Allocate(a, request).0.frames) == FreeCount(a.frames) - 1
  {
    var (a', f) := Allocate(a, request);
    if f.Some? {
      var i :| LowestFree(a.frames, i) && a'.frames == a.frames[i := Take(a.frames[i], request)]
        && f.value == a'.frames[i];
      FreeCountTake(a.frames, i, Take(a.frames[i], request));
    }
  }

  /** Allocation keeps FREE frames unreferenced. */
  lemma AllocatePreservesInvariant(a: Allocator, request: FrameFlags)
    requires FreeFramesUnreferenced(a.frames)
    ensures FreeFramesUnreferenced(Allocate(a, request).0.frames)
    ensures Layout(a.frames) ==> Layout(Allocate(a, request).0.frames)
  {
  }

  /** A lowest FREE frame that is not KERNEL: allocating it and deallocating it restores the allocator exactly. */
  lemma AllocateDeallocateRoundTrip(a: Allocator, request: FrameFlags)
    requires Layout(a.frames) && FreeFramesUnreferenced(a.frames)
    requires forall j :: 0 <= j < |a.frames| ==> IsFree(a.frames[j]) ==> Kernel !in a.frames[j].flags
    requires Allocate(a, request).1.Some?
    ensures Deallocate(Allocate(a, request).0, Allocate(a, request).1.value) == Done(a)
  {
    var (a', f) := Allocate(a, request);
    var i :| LowestFree(a.frames, i) && a'.frames == a.frames[i := Take(a.frames[i], request)]
      && f.value == a'.frames[i];
    assert Index(f.value.address) == i;
    var g := a.frames[i];
    assert Release(Take(g, request)) == g by {
      assert g.flags - {Free} + (if Kernel in request then {Kernel} else {}) - {Kernel} + {Free} == g.flags;
    }
    assert a'.frames[i := Release(a'.frames[i])] == a.frames;
  }

  /**
   * `reference`: the frame is looked up by its address (`unwrap` panics
   * past the end of the array) and must already be allocated.
   */
  function Reference(a: Allocator, frame: Frame): (r: Outcome<Allocator>)
    ensures r.Done? <==> Index(frame.address) < |a.frames| && a.frames[Index(frame.address)].count > 0
    ensures r.Done? ==> r.value.stats == a.stats
    ensures r.Done? ==> r.value.frames == a.frames[Index(frame.address) := IncrementCount(a.frames[Index(frame.address)])]
  {
    var i := Index(frame.address);
    if i >= |a.frames| then Panic
    else if a.frames[i].count == 0 then Panic
    else Done(a.(frames := a.frames[i := IncrementCount(a.frames[i])]))
  }

  /**
   * `deallocate`: panics on an address past the array and on a frame nobody
   * references; the last release makes the frame FREE and not KERNEL again.
   */
  function Deallocate(a: Allocator, frame: Frame): (r: Outcome<Allocator>)
    ensures r.Done? <==> Index(frame.address) < |a.frames| && a.frames[Index(frame.address)].count > 0
    ensures r.Done? ==> r.value.frames == a.frames[Index(frame.address) := Release(a.frames[Index(frame.address)])]
    ensures r.Done? ==>
      var f := a.frames[Index(frame.address)];
      && r.value.stats.allocatedFrames == a.stats.allocatedFrames - (if f.count == 1 then 1 else 0)
      && r.value.stats.kernel == a.stats.kernel - (if f.count == 1 && Kernel in f.flags then 1 else 0)
      && r.value.stats == a.stats.(allocatedFrames := r.value.stats.allocatedFrames, kernel := r.value.stats.kernel)
  {
    var i := Index(frame.address);
    if i >= |a.frames| then Panic
    else
      var f := a.frames[i];
      if f.count == 0 then Panic
      else if f.count > 1 then Done(a.(frames := a.frames[i := f.(count := f.count - 1)]))
      else
        var kernel := if Kernel in f.flags then a.stats.kernel - 1 else a.stats.kernel;
        var f' := Frame(f.address, f.flags - {Kernel} + {Free}, 0);
        Done(Allocator(a.frames[i := f'],
                       a.stats.(allocatedFrames := a.stats.allocatedFrames - 1, kernel := kernel)))
  }

  /** Referencing a frame and deallocating it once gives back the same allocator. */
  lemma ReferenceDeallocateRoundTrip(a: Allocator, frame: Frame)
    requires Reference(a, frame).Done?
    ensures Deallocate(Reference(a, frame).value, frame) == Done(a)
  {
    var i := Index(frame.address);
    assert Reference(a, frame).value.frames[i := Release(Reference(a, frame).value.frames[i])] == a.frames;
  }

  /** `reference` and `deallocate` keep FREE frames unreferenced. */
  lemma ReferenceDeallocatePreserveInvariant(a: Allocator, frame: Frame)
    requires FreeFramesUnreferenced(a.frames)
    ensures Reference(a, frame).Done? ==> FreeFramesUnreferenced(Reference(a, frame).value.frames)
    ensures Deallocate(a, frame).Done? ==> FreeFramesUnreferenced(Deallocate(a, frame).value.frames)
  {
  }

  /** `deallocate_range`: deallocates each frame the range's iterator yields, in order. */
  function DeallocateRange(a: Allocator, r: Range): Outcome<Allocator>
    decreases r.end.address - r.start.address
  {
    match Next(r)
    case None => Done(a)
    case Some((f, rest)) =>
      match Deallocate(a, f)
      case Panic => Panic
      case Done(a') => DeallocateRange(a', rest)
  }

  /** Deallocating a sequence of frames one after the other, stopping at the first panic. */
  function DeallocateEach(a: Allocator, fs: seq<Frame>): Outcome<Allocator>
    decreases |fs|
  {
    if fs == [] then Done(a)
    else match Deallocate(a, fs[0])
      case Panic => Panic
      case Done(a') => DeallocateEach(a', fs[1..])
  }

  /** `deallocate_range` equals `deallocate` applied to every frame of the range, in order. */
  lemma {:induction false} DeallocateRangeIsEach(a: Allocator, r: Range)
    ensures DeallocateRange(a, r) == DeallocateEach(a, Items(r))
    decreases r.end.address - r.start.address
  {
    match Next(r)
    case None =>
    case Some((f, rest)) =>
      assert Items(r) == [f] + Items(rest);
      assert Items(r)[1..] == Items(rest);
      match Deallocate(a, f)
      case Panic =>
      case Done(a') => DeallocateRangeIsEach(a', rest);
  }

  /**
   * Over the frame-state layout, deallocating an aligned range whose frames
   * are all referenced releases each of them once and touches no other frame.
   */
  lemma {:induction false} DeallocateRangeReleasesEach(a: Allocator, r: Range)
    requires Layout(a.frames)
    requires PageAligned(r.start.address) && PageAligned(r.end.address)
    requires r.start.address <= r.end.address && Index(r.end.address) <= |a.frames|
    requires forall j :: Index(r.start.address) <= j < Index(r.end.address) ==> a.frames[j].count > 0
    ensures DeallocateRange(a, r).Done?
    ensures |DeallocateRange(a, r).value.frames| == |a.frames|
    ensures forall j :: 0 <= j < |a.frames| ==>
      DeallocateRange(a, r).value.frames[j] ==
        if Index(r.start.address) <= j < Index(r.end.address) then Release(a.frames[j]) else a.frames[j]
    decreases r.end.address - r.start.address
  {
    if !IsEmpty(r) {
      var rest := r.(start := AddAssign(r.start, 1));
      var i := Index(r.start.address);
      assert Index(rest.start.address) == i + 1;
      var a' := Deallocate(a, r.start).value;
      assert Layout(a'.frames);
      DeallocateRangeReleasesEach(a', rest);
    }
  }

  /** `i..i + count` is a run of FREE frames inside the array. */
  predicate RunFree(frames: seq<Frame>, i: int, count: nat) {
    0 <= i && i + count <= |frames| && forall j :: i <= j < i + count ==> IsFree(frames[j])
  }

  /** The lowest `i` at or after `from` starting a FREE run of `count` frames, as the `while i + count <= len` loop finds it. */
  function FirstRun(frames: seq<Frame>, count: nat, from: nat): (r: Option<nat>)
    ensures r.Some? ==> from <= r.value && RunFree(frames, r.value, count)
    ensures r.Some? ==> forall j :: from <= j < r.value ==> !RunFree(frames, j, count)
    ensures r.None? ==> forall j :: from <= j ==> !RunFree(frames, j, count)
    decreases |frames| + 1 - from
  {
    if from + count > |frames| then None
    else if forall j :: from <= j < from + count ==> IsFree(frames[j]) then Some(from)
    else FirstRun(frames, count, from + 1)
  }

  /** Every frame of `i..i + count` taken as `allocate` takes one. */
  function TakeRun(frames: seq<Frame>, i: nat, count: nat, request: FrameFlags): (fs: seq<Frame>)
    ensures |fs| == |frames|
    ensures forall j :: 0 <= j < |frames| && !(i <= j < i + count) ==> fs[j] == frames[j]
  {
    seq(|frames|, j requires 0 <= j < |frames| => if i <= j < i + count then Take(frames[j], request) else frames[j])
  }

  /**
   * `allocate_range` as written: after marking the run it reads
   * `array[i + count]` for the end of the range, which is out of bounds
   * (a panic) whenever the run ends at the last frame.
   */
  function AllocateRangeAsWritten(a: Allocator, count: nat, request: FrameFlags): (r: Outcome<(Allocator, Option<Range>)>)
    ensures r.Panic? <==> exists i :: FirstRun(a.frames, count, 0) == Some(i) && i + count == |a.frames|
    ensures r.Done? && r.value.1.None? ==> r.value.0 == a && forall i :: !RunFree(a.frames, i, count)
    ensures r.Done? && r.value.1.Some? <==> exists i :: FirstRun(a.frames, count, 0) == Some(i) && i + count < |a.frames|
  {
    match FirstRun(a.frames, count, 0)
    case None => Done((a, None))
    case Some(i) =>
      var frames := TakeRun(a.frames, i, count, request);
      if i + count < |frames| then
        Done((Allocator(frames, StatsAfterTaking(a.stats, count, request)), Some(Range(frames[i], frames[i + count]))))
      else Panic
  }

  /** A single FREE frame: the run ends at the last frame, so `allocate_range(1)` panics instead of returning it. */
  lemma AllocateRangeAsWrittenFailsAtEnd()
    ensures AllocateRangeAsWritten(Allocator([Frame(0, {Free}, 0)], EmptyStats), 1, {}).Panic?
    ensures AllocateRange(Allocator([Frame(0, {Free}, 0)], EmptyStats), 1, {}).Done?
  {
    assert RunFree([Frame(0, {Free}, 0)], 0, 1);
  }

  /**
   * `allocate_range` with the end of the range computed as `start + count`
   * pages instead of read from the array. It takes the lowest FREE run,
   * and only an empty array can make it panic.
   */
  function AllocateRange(a: Allocator, count: nat, request: FrameFlags): (r: Outcome<(Allocator, Option<Range>)>)
    ensures r.Panic? <==> |a.frames| == 0 && count == 0
    ensures r.Done? && r.value.1.None? <==> forall i :: !RunFree(a.frames, i, count)
    ensures r.Done? && r.value.1.None? ==> r.value.0 == a
    ensures r.Done? && r.value.1.Some? ==> exists i :: (
      && 0 <= i < |a.frames|
      && RunFree(a.frames, i, count)
      && (forall j :: 0 <= j < i ==> !RunFree(a.frames, j, count))
      && r.value.0.frames == TakeRun(a.frames, i, count, request)
      && r.value.1.value.start == r.value.0.frames[i]
      && r.value.1.value.end.address == r.value.1.value.start.address + count * PAGE_SIZE)
    ensures r.Done? && r.value.1.Some? ==> r.value.0.stats == StatsAfterTaking(a.stats, count, request)
  {
    match FirstRun(a.frames, count, 0)
    case None => Done((a, None))
    case Some(i) =>
      var frames := TakeRun(a.frames, i, count, request);
      if i < |frames| then
        Done((Allocator(frames, StatsAfterTaking(a.stats, count, request)), Some(Range(frames[i], AddAssign(frames[i], count)))))
      else Panic
  }

  /** Over the frame-state layout, the range returned by `allocate_range` counts `count` frames and contains exactly the frames taken. */
  lemma AllocateRangeCoversRun(a: Allocator, count: nat, request: FrameFlags)
    requires Layout(a.frames)
    requires AllocateRange(a, count, request).Done? && AllocateRange(a, count, request).value.1.Some?
    ensures Count(AllocateRange(a, count, request).value.1.value) == Done(count)
    ensures forall j :: 0 <= j < |a.frames| ==> (
      RangeContains(AllocateRange(a, count, request).value.1.value, AllocateRange(a, count, request).value.0.frames[j]) <==>
      AllocateRange(a, count, request).value.0.frames[j] != a.frames[j])
  {
    var a' := AllocateRange(a, count, request).value.0;
    var rg := AllocateRange(a, count, request).value.1.value;
    var i := FirstRun(a.frames, count, 0).value;
    assert a'.frames == TakeRun(a.frames, i, count, request);
    assert rg.start == a'.frames[i];
    assert rg.start.address == i * PAGE_SIZE;
    assert rg.end.address == (i + count) * PAGE_SIZE;
    forall j | 0 <= j < |a.frames|
      ensures RangeContains(rg, a'.frames[j]) <==> a'.frames[j] != a.frames[j]
    {
      assert a'.frames[j].address == j * PAGE_SIZE;
      PagesBetween(i, j, count);
      assert a'.frames[j] != a.frames[j] <==> i <= j < i + count;
    }
  }

  /**
   * When the run ends before the last frame, the code as written does what
   * the corrected code does: the same frames are taken, the range starts at
   * the run's first frame, and over the frame-state layout it ends `count`
   * pages later.
   */
  lemma AllocateRangeAsWrittenAgrees(a: Allocator, count: nat, request: FrameFlags)
    requires AllocateRangeAsWritten(a, count, request).Done? && AllocateRangeAsWritten(a, count, request).value.1.Some?
    ensures AllocateRange(a, count, request).Done? && AllocateRange(a, count, request).value.1.Some?
    ensures AllocateRange(a, count, request).value.0 == AllocateRangeAsWritten(a, count, request).value.0
    ensures AllocateRange(a, count, request).value.1.value.start == AllocateRangeAsWritten(a, count, request).value.1.value.start
    ensures Layout(a.frames) ==>
      AllocateRangeAsWritten(a, count, request).value.1.value.end.address ==
      AllocateRangeAsWritten(a, count, request).value.1.value.start.address + count * PAGE_SIZE
  {
    var i := FirstRun(a.frames, count, 0).value;
    var frames := TakeRun(a.frames, i, count, request);
    if Layout(a.frames) {
      assert frames[i].address == i * PAGE_SIZE;
      assert frames[i + count].address == (i + count) * PAGE_SIZE;
    }
  }

  /** Page addresses are ordered like page indices. */
  lemma PagesBetween(i: nat, j: nat, count: nat)
    ensures i * PAGE_SIZE <= j * PAGE_SIZE < (i + count) * PAGE_SIZE <==> i <= j < i + count
  {
    if i <= j {
      assert i * PAGE_SIZE <= j * PAGE_SIZE;
    } else {
      assert j * PAGE_SIZE < i * PAGE_SIZE;
    }
    if j < i + count {
      assert j * PAGE_SIZE < (i + count) * PAGE_SIZE;
    } else {
      assert (i + count) * PAGE_SIZE <= j * PAGE_SIZE;
    }
  }

  /** Both range allocators keep FREE frames unreferenced. */
  lemma AllocateRangePreservesInvariant(a: Allocator, count: nat, request: FrameFlags)
    requires FreeFramesUnreferenced(a.frames)
    ensures AllocateRange(a, count, request).Done? ==> FreeFramesUnreferenced(AllocateRange(a, count, request).value.0.frames)
    ensures AllocateRangeAsWritten(a, count, request).Done? ==> FreeFramesUnreferenced(AllocateRangeAsWritten(a, count, request).value.0.frames)
  {
  }
}

=== FILE: frame_state.dfy ===
/**
 * Building the frame-state array from the bootloader's memory map
 * (src/mm/frame/state.rs).
 *
 * The array is a sequence of frame descriptors; where the real array lives
 * in memory only matters through the frames it occupies, which `Setup`
 * marks as used by the kernel.
 */
module FrameState {
  import opened Base
  import opened Frames
  import Address
  import FrameAllocator

  /** The memory-map entry types of the Limine boot protocol. */
  datatype EntryType =
    | Usable | ReservedRegion | AcpiReclaimable | AcpiNvs | BadMemory
    | BootloaderReclaimable | KernelAndModules | Framebuffer

  datatype MemmapEntry = MemmapEntry(base: nat, len: nat, typ: EntryType)

  /** The frame state; an empty array means "not initialised yet". */
  datatype State = State(frames: seq<Frame>)

  /** `size_of::<Frame>()`: a 64-bit address, 64-bit flags and a 64-bit count. */
  const FRAME_DESCRIPTOR_SIZE: nat := 24

  const BIOS_LIMIT: nat := 0x10_0000
  const ISA_LIMIT: nat := 0x100_0000
  const X86_LIMIT: nat := 0x1000_0000

  /** Entries whose memory is regular RAM and so sizes the array. */
  predicate IsRegular(typ: EntryType) {
    typ == Usable || typ == KernelAndModules || typ == BootloaderReclaimable
  }

  function EntryEnd(e: MemmapEntry): nat {
    e.base + e.len
  }

  /** The highest end address among the regular entries, if there is one. */
  function MaxRegularEnd(mmap: seq<MemmapEntry>): (r: Option<nat>)
    ensures r.None? <==> forall k :: 0 <= k < |mmap| ==> !IsRegular(mmap[k].typ)
    ensures r.Some? ==> exists k :: 0 <= k < |mmap| && IsRegular(mmap[k].typ) && EntryEnd(mmap[k]) == r.value
    ensures r.Some? ==> forall k :: 0 <= k < |mmap| && IsRegular(mmap[k].typ) ==> EntryEnd(mmap[k]) <= r.value
  {
    if mmap == [] then None
    else
      var rest := MaxRegularEnd(mmap[1..]);
      assert forall k :: 1 <= k < |mmap| ==> mmap[k] == mmap[1..][k - 1];
      if !IsRegular(mmap[0].typ) then rest
      else if rest.Some? && rest.value >= EntryEnd(mmap[0]) then rest
      else Some(EntryEnd(mmap[0]))
  }

  /** `find_last_usable_frame_index`: the frame index of the highest regular end, 0 without regular entries. */
  function FindLastUsableFrameIndex(mmap: seq<MemmapEntry>): (last: nat)
    ensures (forall k :: 0 <= k < |mmap| ==> !IsRegular(mmap[k].typ)) ==> last == 0
    ensures forall k :: 0 <= k < |mmap| && IsRegular(mmap[k].typ) ==> Index(EntryEnd(mmap[k])) <= last
    ensures last > 0 ==> exists k :: 0 <= k < |mmap| && IsRegular(mmap[k].typ) && Index(EntryEnd(mmap[k])) == last
  {
    match MaxRegularEnd(mmap)
    case None => 0
    case Some(m) =>
      assert forall k :: 0 <= k < |mmap| && IsRegular(mmap[k].typ) ==> Index(EntryEnd(mmap[k])) <= Index(m) by {
        forall k | 0 <= k < |mmap| && IsRegular(mmap[k].typ)
          ensures Index(EntryEnd(mmap[k])) <= Index(m)
        {
          IndexMonotone(EntryEnd(mmap[k]), m);
        }
      }
      Index(m)
  }

  lemma IndexMonotone(a: nat, b: nat)
    requires a <= b
    ensures Index(a) <= Index(b)
  {
  }

  /** An entry can hold the array of `last` descriptors. */
  predicate Fits(e: MemmapEntry, last: nat) {
    e.typ == Usable && e.len >= last * FRAME_DESCRIPTOR_SIZE
  }

  /** The first entry, from `from` on, that can hold the array. */
  function FirstFitting(mmap: seq<MemmapEntry>, last: nat, from: nat): (r: Option<nat>)
    requires from <= |mmap|
    ensures r.Some? ==> from <= r.value < |mmap| && Fits(mmap[r.value], last)
    ensures r.Some? ==> forall k :: from <= k < r.value ==> !Fits(mmap[k], last)
    ensures r.None? ==> forall k :: from <= k < |mmap| ==> !Fits(mmap[k], last)
    decreases |mmap| - from
  {
    if from == |mmap| then None
    else if Fits(mmap[from], last) then Some(from)
    else FirstFitting(mmap, last, from + 1)
  }

  /**
   * `find_array_location`: the direct-map address of the first Usable entry
   * large enough for the array, or the null address 0 when there is none.
   */
  function FindArrayLocation(mmap: seq<MemmapEntry>, last: nat): (r: Outcome<nat>)
    ensures r.Done? && r.value == 0 <==> forall k :: 0 <= k < |mmap| ==> !Fits(mmap[k], last)
    ensures r.Done? && r.value != 0 ==> exists k :: (
      && 0 <= k < |mmap| && Fits(mmap[k], last)
      && (forall j :: 0 <= j < k ==> !Fits(mmap[j], last))
      && r.value == mmap[k].base + Address.HHDM_OFFSET)
  {
    match FirstFitting(mmap, last, 0)
    case None => Done(0)
    case Some(k) => Address.PhysToVirt(mmap[k].base)
  }

  /** The descriptor of frame `i` before the memory map is applied: poisoned, plus its low-memory zones. */
  function InitialFrame(i: nat): Frame {
    var address := i * PAGE_SIZE;
    Frame(address,
          {Poisoned}
          + (if address < BIOS_LIMIT then {Bios} else {})
          + (if address < ISA_LIMIT then {Isa} else {})
          + (if address < X86_LIMIT then {X86} else {}),
          0)
  }

  /**
   * Every initial descriptor describes its own page, is poisoned and
   * unreferenced, and the zones nest: BIOS memory is ISA memory is X86 memory.
   */
  lemma InitialFrameZones(i: nat)
    ensures InitialFrame(i).address == i * PAGE_SIZE && InitialFrame(i).count == 0
    ensures Poisoned in InitialFrame(i).flags && Free !in InitialFrame(i).flags
    ensures Bios in InitialFrame(i).flags ==> Isa in InitialFrame(i).flags
    ensures Isa in InitialFrame(i).flags ==> X86 in InitialFrame(i).flags
    ensures X86 in InitialFrame(i).flags <==> i < 0x1_0000
    ensures Isa in InitialFrame(i).flags <==> i < 0x1000
    ensures Bios in InitialFrame(i).flags <==> i < 0x100
  {
  }

  /** The reservation rule as written: only frames that are already NOT poisoned become reserved. */
  function ReserveAsWritten(f: Frame, s: Stats): (Frame, Stats) {
    if Poisoned !in f.flags then
      (f.(flags := f.flags - {Poisoned} + {Reserved}),
       s.(poisoned := s.poisoned - 1, reserved := s.reserved + 1))
    else (f, s)
  }

  /** The reservation rule with the test the counter update presupposes: poisoned frames become reserved. */
  function Reserve(f: Frame, s: Stats): (Frame, Stats) {
    if Poisoned in f.flags then
      (f.(flags := f.flags - {Poisoned} + {Reserved}),
       s.(poisoned := s.poisoned - 1, reserved := s.reserved + 1))
    else (f, s)
  }

  /**
   * A freshly poisoned frame under a reserved entry: as written it stays
   * poisoned and is never counted as reserved; with the corrected test it
   * becomes reserved, and the poisoned counter follows the flag.
   */
  lemma ReserveAsWrittenSkipsPoisoned(i: nat, s: Stats)
    ensures ReserveAsWritten(InitialFrame(i), s) == (InitialFrame(i), s)
    ensures Poisoned in ReserveAsWritten(InitialFrame(i), s).0.flags
    ensures Reserved !in ReserveAsWritten(InitialFrame(i), s).0.flags
    ensures Reserved in Reserve(InitialFrame(i), s).0.flags && Poisoned !in Reserve(InitialFrame(i), s).0.flags
  {
  }

  /** The corrected rule moves a frame from poisoned to reserved exactly when it was poisoned, and the counters track the move. */
  lemma ReserveTracksPoison(f: Frame, s: Stats)
    requires Reserved !in f.flags
    ensures Reserved in Reserve(f, s).0.flags <==> Poisoned in f.flags
    ensures Poisoned !in Reserve(f, s).0.flags
    ensures Reserve(f, s).1.poisoned - s.poisoned == s.reserved - Reserve(f, s).1.reserved
    ensures Reserve(f, s).1.poisoned == s.poisoned - (if Poisoned in f.flags then 1 else 0)
  {
  }

  /** Which reservation rule a setup follows: the test as written, or the corrected one. */
  datatype Rule = AsWritten | Corrected

  /** What one memory-map entry does to one frame it covers, and to the statistics. */
  function Step(f: Frame, s: Stats, typ: EntryType, rule: Rule): (Frame, Stats) {
    match typ
    case Usable =>
      (f.(flags := f.flags - {Poisoned} + {Free}),
       s.(poisoned := s.poisoned - 1, usable := s.usable + 1))
    case KernelAndModules =>
      (f.(flags := f.flags - {Poisoned} + {Kernel}),
       s.(allocatedFrames := s.allocatedFrames + 1, poisoned := s.poisoned - 1,
          kernel := s.kernel + 1, usable := s.usable + 1))
    case BootloaderReclaimable =>
      (f.(flags := f.flags - {Poisoned} + {Kernel}),
       s.(allocatedFrames := s.allocatedFrames + 1, poisoned := s.poisoned - 1,
          kernel := s.kernel + 1, usable := s.usable + 1))
    case BadMemory => (f, s)
    case _ => if rule == AsWritten then ReserveAsWritten(f, s) else Reserve(f, s)
  }

  /** Entry types act on flags as the boot protocol intends, and never touch address or count. */
  lemma StepByType(f: Frame, s: Stats, typ: EntryType)
    ensures Step(f, s, typ, Corrected).0.address == f.address && Step(f, s, typ, Corrected).0.count == f.count
    ensures typ == Usable ==> Poisoned !in Step(f, s, typ, Corrected).0.flags && Free in Step(f, s, typ, Corrected).0.flags
    ensures typ == KernelAndModules || typ == BootloaderReclaimable ==>
      Poisoned !in Step(f, s, typ, Corrected).0.flags && Kernel in Step(f, s, typ, Corrected).0.flags
      && Free !in Step(f, s, typ, Corrected).0.flags - f.flags
    ensures typ == BadMemory ==> Step(f, s, typ, Corrected) == (f, s)
    ensures !IsRegular(typ) && typ != BadMemory ==> (Poisoned in f.flags ==> Reserved in Step(f, s, typ, Corrected).0.flags)
    ensures !IsRegular(typ) && typ != BadMemory ==> (Poisoned !in f.flags ==> Step(f, s, typ, Corrected) == (f, s))
  {
  }

  /** Applying `Step` with type `typ` to frames `lo..hi`, in increasing order. */
  function ApplyRange(frames: seq<Frame>, s: Stats, typ: EntryType, rule: Rule, lo: nat, hi: nat): (r: (seq<Frame>, Stats))
    requires hi <= |frames|
    ensures |r.0| == |frames|
    decreases hi - lo
  {
    if lo >= hi then (frames, s)
    else
      var (f, s') := Step(frames[lo], s, typ, rule);
      ApplyRange(frames[lo := f], s', typ, rule, lo + 1, hi)
  }

  /** The frame range of an entry, clamped to the array: `[min(index(base), last), min(index(end), last))`. */
  function Clamp(e: MemmapEntry, last: nat): (r: (nat, nat))
    ensures r.0 <= r.1 <= last
  {
    var lo := Index(e.base);
    var hi := Index(EntryEnd(e));
    IndexMonotone(e.base, EntryEnd(e));
    (if lo < last then lo else last, if hi < last then hi else last)
  }

  /** One entry changes exactly the frames of its clamped range, each by `Step`. */
  lemma {:induction false} ApplyRangeFrames(frames: seq<Frame>, s: Stats, typ: EntryType, rule: Rule, lo: nat, hi: nat)
    requires hi <= |frames|
    ensures forall j :: 0 <= j < |frames| ==> (ApplyRange(frames, s, typ, rule, lo, hi).0[j] ==
      if lo <= j < hi then Step(frames[j], EmptyStats, typ, rule).0 else frames[j])
    decreases hi - lo
  {
    if lo < hi {
      var (f, s') := Step(frames[lo], s, typ, rule);
      assert f == Step(frames[lo], EmptyStats, typ, rule).0;
      ApplyRangeFrames(frames[lo := f], s', typ, rule, lo + 1, hi);
    }
  }

  /** Applying the entries `mmap[k..]` in order. */
  function ApplyMap(frames: seq<Frame>, s: Stats, mmap: seq<MemmapEntry>, rule: Rule, k: nat): (r: (seq<Frame>, Stats))
    requires k <= |mmap|
    ensures |r.0| == |frames|
    decreases |mmap| - k
  {
    if k == |mmap| then (frames, s)
    else
      var (lo, hi) := Clamp(mmap[k], |frames|);
      var (frames', s') := ApplyRange(frames, s, mmap[k].typ, rule, lo, hi);
      ApplyMap(frames', s', mmap, rule, k + 1)
  }

  /** Whether some entry from `k` on, of a type that changes frames, covers frame `j`. */
  predicate CoveredFrom(mmap: seq<MemmapEntry>, k: nat, j: nat, last: nat) {
    exists m :: k <= m < |mmap| && mmap[m].typ != BadMemory && Clamp(mmap[m], last).0 <= j < Clamp(mmap[m], last).1
  }

  /** A frame that no entry (other than bad memory) covers keeps its descriptor. */
  lemma {:induction false} UncoveredFramesUntouched(frames: seq<Frame>, s: Stats, mmap: seq<MemmapEntry>, rule: Rule, k: nat, j: nat)
    requires k <= |mmap| && j < |frames|
    requires !CoveredFrom(mmap, k, j, |frames|)
    ensures ApplyMap(frames, s, mmap, rule, k).0[j] == frames[j]
    decreases |mmap| - k
  {
    if k < |mmap| {
      var (lo, hi) := Clamp(mmap[k], |frames|);
      var (frames', s') := ApplyRange(frames, s, mmap[k].typ, rule, lo, hi);
      ApplyRangeFrames(frames, s, mmap[k].typ, rule, lo, hi);
      assert frames'[j] == frames[j] by {
        if lo <= j < hi {
          assert mmap[k].typ == BadMemory;
        }
      }
      assert |frames'| == |frames|;
      UncoveredFramesUntouched(frames', s', mmap, rule, k + 1, j);
    }
  }

  /** Marking the frames `lo..hi` that hold the array itself: they are used by the kernel. */
  function MarkKernel(frames: seq<Frame>, s: Stats, lo: nat, hi: nat): (r: (seq<Frame>, Stats))
    requires hi <= |frames|
    ensures |r.0| == |frames|
    decreases hi - lo
  {
    if lo >= hi then (frames, s)
    else
      var f := frames[lo].(flags := frames[lo].flags - {Free} + {Kernel});
      MarkKernel(frames[lo := f], s.(allocatedFrames := s.allocatedFrames + 1, kernel := s.kernel + 1), lo + 1, hi)
  }

  /** Steps never change the address or the count, so the layout and the invariant survive. */
  lemma {:induction false} ApplyMapKeepsLayout(frames: seq<Frame>, s: Stats, mmap: seq<MemmapEntry>, rule: Rule, k: nat)
    requires k <= |mmap|
    requires FrameAllocator.Layout(frames) && forall j :: 0 <= j < |frames| ==> frames[j].count == 0
    ensures FrameAllocator.Layout(ApplyMap(frames, s, mmap, rule, k).0)
    ensures forall j :: 0 <= j < |frames| ==> ApplyMap(frames, s, mmap, rule, k).0[j].count == 0
    decreases |mmap| - k
  {
    if k < |mmap| {
      var (lo, hi) := Clamp(mmap[k], |frames|);
      var (frames', s') := ApplyRange(frames, s, mmap[k].typ, rule, lo, hi);
      ApplyRangeFrames(frames, s, mmap[k].typ, rule, lo, hi);
      ApplyMapKeepsLayout(frames', s', mmap, rule, k + 1);
    }
  }

  /** Marking changes exactly the frames `lo..hi`: not FREE, KERNEL, same address and count. */
  lemma {:induction false} MarkKernelFrames(frames: seq<Frame>, s: Stats, lo: nat, hi: nat)
    requires hi <= |frames|
    ensures forall j :: 0 <= j < |frames| ==> (MarkKernel(frames, s, lo, hi).0[j] ==
      if lo <= j < hi then frames[j].(flags := frames[j].flags - {Free} + {Kernel}) else frames[j])
    decreases hi - lo
  {
    if lo < hi {
      var f := frames[lo].(flags := frames[lo].flags - {Free} + {Kernel});
      MarkKernelFrames(frames[lo := f], s.(allocatedFrames := s.allocatedFrames + 1, kernel := s.kernel + 1), lo + 1, hi);
    }
  }

  /** The descriptors of the first loop: frame `i` of `last` is `InitialFrame(i)`. */
  function Initial(last: nat): (r: seq<Frame>)
    ensures |r| == last && forall i :: 0 <= i < last ==> r[i] == InitialFrame(i)
  {
    seq(last, i requires 0 <= i < last => InitialFrame(i))
  }

  /**
   * The inclusive range `lo..=hi` of frames that hold the array, or `None`
   * when `setup` panics: no Usable entry can hold the array, the address
   * is not in the direct map, or the range reaches past the array's end.
   * It starts at the frame of the first Usable entry that fits.
   */
  function ArrayRange(mmap: seq<MemmapEntry>): (r: Option<(nat, nat)>)
    ensures r.Some? ==> r.value.0 <= r.value.1 < FindLastUsableFrameIndex(mmap)
    ensures r.Some? ==> r.value.1 == r.value.0 + FindLastUsableFrameIndex(mmap) * FRAME_DESCRIPTOR_SIZE / PAGE_SIZE
    ensures r.Some? ==> exists k :: (
      && 0 <= k < |mmap| && Fits(mmap[k], FindLastUsableFrameIndex(mmap))
      && (forall j :: 0 <= j < k ==> !Fits(mmap[j], FindLastUsableFrameIndex(mmap)))
      && r.value.0 == Index(mmap[k].base))
    ensures (forall k :: 0 <= k < |mmap| ==> !Fits(mmap[k], FindLastUsableFrameIndex(mmap))) ==> r.None?
  {
    var last := FindLastUsableFrameIndex(mmap);
    var loc := FindArrayLocation(mmap, last);
    if loc.Panic? || loc.value == 0 then None
    else
      match Address.VirtToPhys(loc.value)
      case Panic => None
      case Done(phys) =>
        var lo := Index(phys);
        var hi := lo + last * FRAME_DESCRIPTOR_SIZE / PAGE_SIZE;
        if hi >= last then None else Some((lo, hi))
  }

  /** The frames and statistics after the first two loops, under the given reservation rule. */
  function Applied(mmap: seq<MemmapEntry>, rule: Rule): (r: (seq<Frame>, Stats))
    ensures |r.0| == FindLastUsableFrameIndex(mmap)
  {
    var last := FindLastUsableFrameIndex(mmap);
    ApplyMap(Initial(last), EmptyStats.(total := last, poisoned := last), mmap, rule, 0)
  }

  /** The array `setup` builds under the given reservation rule: `None` when `setup` panics. */
  function SetupSpec(mmap: seq<MemmapEntry>, rule: Rule): (r: Option<(seq<Frame>, Stats)>)
    ensures r.Some? <==> ArrayRange(mmap).Some?
  {
    match ArrayRange(mmap)
    case None => None
    case Some((lo, hi)) =>
      var (frames, s) := Applied(mmap, rule);
      Some(MarkKernel(frames, s, lo, hi + 1))
  }

  /** Where setup does not panic, it is the first two loops followed by the marking of the array's frames. */
  lemma SetupSpecMarks(mmap: seq<MemmapEntry>, rule: Rule, lo: nat, hi: nat)
    requires ArrayRange(mmap) == Some((lo, hi))
    ensures SetupSpec(mmap, rule) == Some(MarkKernel(Applied(mmap, rule).0, Applied(mmap, rule).1, lo, hi + 1))
  {
  }

  /**
   * `State::setup`. Panics when the state is already initialised, when no
   * Usable entry can hold the array, and when the inclusive range of frames
   * holding the array reaches past its end. What it builds: one descriptor
   * per frame below the last regular end, each describing its own page and
   * unreferenced; the frames holding the array used by the kernel and not
   * FREE; and a frame that no entry covers left poisoned with its zones.
   */
  method Setup(st: State, mmap: seq<MemmapEntry>) returns (r: Outcome<(State, Stats)>)
    ensures |st.frames| > 0 ==> r.Panic?
    ensures |st.frames| == 0 ==> (r.Done? <==> ArrayRange(mmap).Some?)
    ensures r.Done? ==> (r.value.0.frames, r.value.1) == SetupSpec(mmap, Corrected).value
    ensures r.Done? ==>
      var frames := r.value.0.frames;
      && |frames| == FindLastUsableFrameIndex(mmap)
      && FrameAllocator.Layout(frames)
      && (forall j :: 0 <= j < |frames| ==> frames[j].count == 0)
      && FrameAllocator.FreeFramesUnreferenced(frames)
    ensures r.Done? ==>
      var frames := r.value.0.frames;
      var (lo, hi) := ArrayRange(mmap).value;
      forall j :: lo <= j <= hi ==> Kernel in frames[j].flags && Free !in frames[j].flags
    ensures r.Done? ==>
      var frames := r.value.0.frames;
      var (lo, hi) := ArrayRange(mmap).value;
      forall j :: 0 <= j < |frames| && !(lo <= j <= hi) && !CoveredFrom(mmap, 0, j, |frames|) ==>
        frames[j] == InitialFrame(j) && Poisoned in frames[j].flags
  {
    if |st.frames| > 0 {
      return Panic;
    }
    var last := FindLastUsableFrameIndex(mmap);
    var loc := FindArrayLocation(mmap, last);
    if loc.Panic? || loc.value == 0 {
      assert ArrayRange(mmap).None?;
      return Panic;
    }
    var phys := Address.VirtToPhys(loc.value);
    if phys.Panic? {
      assert ArrayRange(mmap).None?;
      return Panic;
    }
    var lo := Index(phys.value);
    var hi := lo + last * FRAME_DESCRIPTOR_SIZE / PAGE_SIZE;
    if hi >= last {
      assert ArrayRange(mmap).None?;
      return Panic;
    }
    assert ArrayRange(mmap) == Some((lo, hi));
    var frames, stats := Fill(mmap, lo, hi);
    r := Done((State(frames), stats));
  }

  /**
   * The three loops of `setup`, once the array's place is known: the
   * frames start poisoned, the memory map is applied, and the frames
   * holding the array are marked.
   */
  method Fill(mmap: seq<MemmapEntry>, lo: nat, hi: nat) returns (frames: seq<Frame>, stats: Stats)
    requires ArrayRange(mmap) == Some((lo, hi))
    ensures SetupSpec(mmap, Corrected) == Some((frames, stats))
    ensures |frames| == FindLastUsableFrameIndex(mmap)
    ensures FrameAllocator.Layout(frames) && (forall j :: 0 <= j < |frames| ==> frames[j].count == 0)
    ensures FrameAllocator.FreeFramesUnreferenced(frames)
    ensures forall j :: lo <= j <= hi ==> Kernel in frames[j].flags && Free !in frames[j].flags
    ensures forall j :: 0 <= j < |frames| && !(lo <= j <= hi) && !CoveredFrom(mmap, 0, j, |frames|) ==>
      frames[j] == InitialFrame(j) && Poisoned in frames[j].flags
  {
    var last := FindLastUsableFrameIndex(mmap);
    frames, stats := PoisonAll(last);
    frames, stats := ApplyEntries(frames, stats, mmap);
    assert (frames, stats) == Applied(mmap, Corrected);
    frames, stats := MarkArray(frames, stats, lo, hi);
    SetupSpecMarks(mmap, Corrected, lo, hi);
    SetupLayout(mmap, Corrected, lo, hi, frames, stats);
    SetupArrayKernel(mmap, Corrected, lo, hi, frames, stats);
    SetupUncoveredPoisoned(mmap, Corrected, lo, hi, frames, stats);
  }

  /** The first loop of `setup`: every frame starts poisoned, with its low-memory zones. */
  method PoisonAll(last: nat) returns (frames: seq<Frame>, stats: Stats)
    ensures frames == Initial(last)
    ensures stats == EmptyStats.(total := last, poisoned := last)
  {
    frames := [];
    stats := EmptyStats;
    var i := 0;
    while i < last
      invariant 0 <= i <= last
      invariant frames == Initial(i)
      invariant stats == EmptyStats.(total := i, poisoned := i)
    {
      frames := frames + [InitialFrame(i)];
      stats := stats.(poisoned := stats.poisoned + 1, total := stats.total + 1);
      i := i + 1;
    }
  }

  /** The second loop of `setup`: every entry updates the frames of its clamped range. */
  method ApplyEntries(frames0: seq<Frame>, stats0: Stats, mmap: seq<MemmapEntry>) returns (frames: seq<Frame>, stats: Stats)
    ensures (frames, stats) == ApplyMap(frames0, stats0, mmap, Corrected, 0)
  {
    frames, stats := frames0, stats0;
    var k := 0;
    while k < |mmap|
      invariant 0 <= k <= |mmap|
      invariant |frames| == |frames0|
      invariant ApplyMap(frames, stats, mmap, Corrected, k) == ApplyMap(frames0, stats0, mmap, Corrected, 0)
    {
      var (lo, hi) := Clamp(mmap[k], |frames|);
      var typ := mmap[k].typ;
      ghost var before := (frames, stats);
      var j := lo;
      while j < hi
        invariant lo <= j <= hi
        invariant |frames| == |frames0|
        invariant ApplyRange(frames, stats, typ, Corrected, j, hi) == ApplyRange(before.0, before.1, typ, Corrected, lo, hi)
      {
        var (f, s') := Step(frames[j], stats, typ, Corrected);
        frames := frames[j := f];
        stats := s';
        j := j + 1;
      }
      k := k + 1;
    }
  }

  /** The last loop of `setup`: the frames `lo..=hi` holding the array belong to the kernel. */
  method MarkArray(frames0: seq<Frame>, stats0: Stats, lo: nat, hi: nat) returns (frames: seq<Frame>, stats: Stats)
    requires hi < |frames0|
    ensures (frames, stats) == MarkKernel(frames0, stats0, lo, hi + 1)
  {
    frames, stats := frames0, stats0;
    var j := lo;
    if j > hi + 1 {
      return;
    }
    while j <= hi
      invariant lo <= j <= hi + 1
      invariant |frames| == |frames0|
      invariant MarkKernel(frames, stats, j, hi + 1) == MarkKernel(frames0, stats0, lo, hi + 1)
    {
      frames := frames[j := frames[j].(flags := frames[j].flags - {Free} + {Kernel})];
      stats := stats.(allocatedFrames := stats.allocatedFrames + 1, kernel := stats.kernel + 1);
      j := j + 1;
    }
  }

  /**
   * What a successful setup leaves under either rule: one descriptor per
   * frame below the last regular end, each describing its own page and
   * unreferenced.
   */
  lemma SetupLayout(mmap: seq<MemmapEntry>, rule: Rule, lo: nat, hi: nat, frames: seq<Frame>, s: Stats)
    requires hi < FindLastUsableFrameIndex(mmap) && (frames, s) == MarkKernel(Applied(mmap, rule).0, Applied(mmap, rule).1, lo, hi + 1)
    ensures |frames| == FindLastUsableFrameIndex(mmap)
    ensures FrameAllocator.Layout(frames) && forall j :: 0 <= j < |frames| ==> frames[j].count == 0
    ensures FrameAllocator.FreeFramesUnreferenced(frames)
  {
    var (applied, s1) := Applied(mmap, rule);
    AppliedFrames(mmap, rule);
    MarkKernelFrames(applied, s1, lo, hi + 1);
  }

  /** The frames holding the array are used by the kernel and not FREE, under either rule. */
  lemma SetupArrayKernel(mmap: seq<MemmapEntry>, rule: Rule, lo: nat, hi: nat, frames: seq<Frame>, s: Stats)
    requires hi < FindLastUsableFrameIndex(mmap) && (frames, s) == MarkKernel(Applied(mmap, rule).0, Applied(mmap, rule).1, lo, hi + 1)
    ensures forall j :: lo <= j <= hi ==> Kernel in frames[j].flags && Free !in frames[j].flags
  {
    var (applied, s1) := Applied(mmap, rule);
    MarkKernelFrames(applied, s1, lo, hi + 1);
  }

  /**
   * A frame outside the array that no entry covers keeps its initial
   * descriptor, poisoned, under either rule: memory the map does not
   * mention is never handed out.
   */
  lemma SetupUncoveredPoisoned(mmap: seq<MemmapEntry>, rule: Rule, lo: nat, hi: nat, frames: seq<Frame>, s: Stats)
    requires hi < FindLastUsableFrameIndex(mmap) && (frames, s) == MarkKernel(Applied(mmap, rule).0, Applied(mmap, rule).1, lo, hi + 1)
    ensures forall j :: 0 <= j < |frames| && !(lo <= j <= hi) && !CoveredFrom(mmap, 0, j, |frames|) ==>
      frames[j] == InitialFrame(j) && Poisoned in frames[j].flags
  {
    var (applied, s1) := Applied(mmap, rule);
    AppliedFrames(mmap, rule);
    MarkKernelFrames(applied, s1, lo, hi + 1);
    forall j | 0 <= j < |frames| && !(lo <= j <= hi) && !CoveredFrom(mmap, 0, j, |frames|)
      ensures frames[j] == InitialFrame(j) && Poisoned in frames[j].flags
    {
      assert frames[j] == applied[j];
      InitialFrameZones(j);
    }
  }

  /** After the first two loops: the layout holds, no frame is referenced, and uncovered frames are as they started. */
  lemma AppliedFrames(mmap: seq<MemmapEntry>, rule: Rule)
    ensures var frames := Applied(mmap, rule).0;
      && FrameAllocator.Layout(frames) && (forall j :: 0 <= j < |frames| ==> frames[j].count == 0)
      && forall j :: 0 <= j < |frames| && !CoveredFrom(mmap, 0, j, |frames|) ==> frames[j] == InitialFrame(j)
  {
    var last := FindLastUsableFrameIndex(mmap);
    var s0 := EmptyStats.(total := last, poisoned := last);
    ApplyMapKeepsLayout(Initial(last), s0, mmap, rule, 0);
    forall j | 0 <= j < last && !CoveredFrom(mmap, 0, j, last)
      ensures Applied(mmap, rule).0[j] == InitialFrame(j)
    {
      UncoveredFramesUntouched(Initial(last), s0, mmap, rule, 0, j);
    }
  }

  /** The memory map of the example below: one usable page at 0x1000, and a reserved region over the first two pages. */
  function ReservedOverUsable(): seq<MemmapEntry> {
    [MemmapEntry(0x1000, 0x1000, Usable), MemmapEntry(0, 0x2000, ReservedRegion)]
  }

  /**
   * A reserved region over a poisoned frame and a usable one. As written,
   * frame 0 stays poisoned while the poisoned counter says no frame is, and
   * the usable frame 1 is made RESERVED and counted both as usable and as
   * reserved. With the corrected test frame 0 is the reserved one and the
   * usable frame is left alone.
   */
  lemma SetupAsWrittenMiscountsReserved()
    ensures ArrayRange(ReservedOverUsable()) == Some((1, 1))
    ensures var (w, ws) := SetupSpec(ReservedOverUsable(), AsWritten).value;
      && Poisoned in w[0].flags && ws.poisoned == 0
      && Reserved in w[1].flags && ws.usable == 1 && ws.reserved == 1
    ensures var (c, cs) := SetupSpec(ReservedOverUsable(), Corrected).value;
      && Poisoned !in c[0].flags && Reserved in c[0].flags && cs.poisoned == 0
      && Reserved !in c[1].flags && cs.usable == 1 && cs.reserved == 1
  {
    var mmap := ReservedOverUsable();
    assert MaxRegularEnd(mmap[1..]) == None;
    assert FindLastUsableFrameIndex(mmap) == 2;
    assert FirstFitting(mmap, 2, 0) == Some(0);
    assert ArrayRange(mmap) == Some((1, 1));
    var s0 := EmptyStats.(total := 2, poisoned := 2);
    var i := Initial(2);
    assert Clamp(mmap[0], 2) == (1, 2) && Clamp(mmap[1], 2) == (0, 2);
    var u := i[1 := i[1].(flags := i[1].flags - {Poisoned} + {Free})];
    assert ApplyRange(i, s0, Usable, AsWritten, 1, 2) == (u, s0.(poisoned := 1, usable := 1));
    assert ApplyRange(i, s0, Usable, Corrected, 1, 2) == (u, s0.(poisoned := 1, usable := 1));
  }

  /** `get_frame_info`: the descriptor of the frame holding `address`, `None` past the end of the array. */
  function GetFrameInfo(st: State, address: nat): (r: Option<Frame>)
    ensures r.Some? <==> Index(address) < |st.frames|
    ensures FrameAllocator.Layout(st.frames) && r.Some? ==> Contains(r.value, address)
  {
    if Index(address) < |st.frames| then Some(st.frames[Index(address)]) else None
  }
}

=== FILE: gdt.dfy ===
/**
 * The global descriptor table of crates/silicium-x86_64/src/gdt.rs: a
 * table of N two-word entries, the register that points the CPU at it,
 * the segment descriptors the kernel installs and the 64-bit TSS
 * descriptor (Intel SDM Vol. 3A, section 7.2.3, "TSS Descriptor in 64-bit
 * Mode"). Loading the register into the CPU is left out.
 */
module Gdt {
  import opened Base
  import opened Bits

  /** A descriptor as handed to `set`: one word for a segment, two for a system descriptor. */
  datatype Descriptor = System(low: nat, high: nat) | Segment(value: nat)

  /** A table slot: two 64-bit words. */
  datatype Entry = Entry(low: nat, high: nat)

  /** The bytes of an entry. */
  const ENTRY_SIZE: nat := 16

  datatype Register = Register(limit: nat, base: nat)

  datatype Table = Table(entries: seq<Entry>, register: Register)

  /** `Table::new`: every one of the `n` entries is the null entry and the register points nowhere. */
  function New(n: nat): (t: Table)
    ensures |t.entries| == n
    ensures forall i :: 0 <= i < n ==> t.entries[i] == Entry(0, 0)
    ensures t.register == Register(0, 0)
  {
    Table(seq(n, i => Entry(0, 0)), Register(0, 0))
  }

  /** The entry a descriptor is stored as: a segment takes the low word and leaves the high one zero. */
  function EntryOf(d: Descriptor): (e: Entry)
    ensures d.Segment? ==> e == Entry(d.value, 0)
    ensures d.System? ==> e == Entry(d.low, d.high)
  {
    match d
    case Segment(x) => Entry(x, 0)
    case System(x, y) => Entry(x, y)
  }

  /** `set`: the `assert!` panics on an index past the table; otherwise only that entry changes. */
  function Set(t: Table, index: nat, d: Descriptor): (r: Outcome<Table>)
    ensures r.Panic? <==> index >= |t.entries|
    ensures r.Done? ==>
      && |r.value.entries| == |t.entries| && r.value.register == t.register
      && r.value.entries[index] == EntryOf(d)
      && (forall i :: 0 <= i < |t.entries| && i != index ==> r.value.entries[i] == t.entries[i])
  {
    if index >= |t.entries| then Panic
    else Done(t.(entries := t.entries[index := EntryOf(d)]))
  }

  /** Setting the same entry twice is setting it once; the last descriptor wins. */
  lemma SetOverwrites(t: Table, index: nat, d: Descriptor, d': Descriptor)
    requires index < |t.entries|
    ensures Set(Set(t, index, d).value, index, d') == Set(t, index, d')
  {
    assert Set(t, index, d).value.entries[index := EntryOf(d')] == t.entries[index := EntryOf(d')];
  }

  /** Setting two different entries gives the same table in either order. */
  lemma SetCommutes(t: Table, i: nat, j: nat, d: Descriptor, e: Descriptor)
    requires i < |t.entries| && j < |t.entries| && i != j
    ensures Set(Set(t, i, d).value, j, e) == Set(Set(t, j, e).value, i, d)
  {
    assert t.entries[i := EntryOf(d)][j := EntryOf(e)] == t.entries[j := EntryOf(e)][i := EntryOf(d)];
  }

  /**
   * `flush`: the limit is the table's size in bytes minus one, cut to 16
   * bits, and the base is the table's address. The subtraction underflows
   * on an empty table, which panics.
   */
  function Flush(t: Table, address: nat): (r: Outcome<Table>)
    requires address < U64_MODULUS
    ensures r.Panic? <==> |t.entries| == 0
    ensures r.Done? ==> r.value.entries == t.entries && r.value.register.base == address
    ensures r.Done? ==> r.value.register.limit < U16_MODULUS
    ensures r.Done? ==> (r.value.register.limit + 1) % U16_MODULUS == ENTRY_SIZE * |t.entries| % U16_MODULUS
  {
    if |t.entries| == 0 then Panic
    else Done(t.(register := Register((ENTRY_SIZE * |t.entries| - 1) % U16_MODULUS, address)))
  }

  /** The limit spans the whole table exactly when the table has at most 4096 entries. */
  lemma FlushLimitCoversTable(t: Table, address: nat)
    requires address < U64_MODULUS && |t.entries| > 0
    ensures Flush(t, address).value.register.limit + 1 == ENTRY_SIZE * |t.entries| <==> |t.entries| <= 4096
  {
    var n := |t.entries|;
    if n > 4096 {
      assert ENTRY_SIZE * n - 1 >= U16_MODULUS;
    }
  }

  /** The kernel's table has 256 entries, so its limit is 4095. */
  lemma KernelTableLimit(address: nat)
    requires address < U64_MODULUS
    ensures Flush(New(256), address).value.register.limit == 4095
  {
  }

  /** Bits 46 and 45 of a segment descriptor: its privilege level. */
  function Dpl(x: nat): (r: nat)
    ensures r < 4
  {
    (x / 0x2000_0000_0000) % 4
  }

  const KERNEL_CODE64: Descriptor := Segment(0x00af9b000000ffff)
  const KERNEL_DATA: Descriptor := Segment(0x00cf93000000ffff)

  /** The user segments as written: the very words of the kernel segments. */
  const USER_CODE64_AS_WRITTEN: Descriptor := Segment(0x00af9b000000ffff)
  const USER_DATA_AS_WRITTEN: Descriptor := Segment(0x00cf93000000ffff)

  /** The user segments with privilege level 3, as code running in ring 3 needs. */
  const USER_CODE64: Descriptor := Segment(0x00affb000000ffff)
  const USER_DATA: Descriptor := Segment(0x00cff3000000ffff)

  /** As written, the user segments are the kernel segments, with privilege level 0. */
  lemma UserSegmentsAsWrittenAreRing0()
    ensures USER_CODE64_AS_WRITTEN == KERNEL_CODE64 && USER_DATA_AS_WRITTEN == KERNEL_DATA
    ensures Dpl(USER_CODE64_AS_WRITTEN.value) == 0 && Dpl(USER_DATA_AS_WRITTEN.value) == 0
  {
  }

  /** The corrected user segments differ from the kernel ones in the privilege level alone, which is 3. */
  lemma UserSegmentsAreRing3()
    ensures Dpl(USER_CODE64.value) == 3 && Dpl(USER_DATA.value) == 3
    ensures Dpl(KERNEL_CODE64.value) == 0 && Dpl(KERNEL_DATA.value) == 0
    ensures USER_CODE64.value == KERNEL_CODE64.value + 3 * 0x2000_0000_0000
    ensures USER_DATA.value == KERNEL_DATA.value + 3 * 0x2000_0000_0000
  {
  }

  /** `DescriptorFlags::PRESENT`. */
  const PRESENT: Word := Bit(47)

  /** The type 0b1001, an available 64-bit TSS, as a word. */
  function AvailableTss(): Word {
    seq(64, i => i == 0 || i == 3)
  }

  /**
   * The two words of `Descriptor::tss` for a TSS of `size` bytes at
   * address `ptr`: the limit `size - 1` in bits 15..0, the base split
   * over bits 39..16 and 63..56 of the low word and the whole high word,
   * the type in bits 43..40 and the present bit.
   */
  function TssWords(size: nat, ptr: Word): (r: (Word, Word))
    requires size > 0
    ensures r.0[..16] == ToBits(size - 1, 64)[..16]
    ensures r.0[16..40] == ptr[..24] && r.0[56..] == ptr[24..32]
    ensures r.1[..32] == ptr[32..] && forall i :: 32 <= i < 64 ==> !r.1[i]
    ensures r.0[40..44] == [true, false, false, true]
    ensures r.0[47] && forall i :: 44 <= i < 47 || 48 <= i < 56 ==> !r.0[i]
  {
    (TssLow(size, ptr), Low(Shr(ptr, 32), 32))
  }

  /** The low word of `Descriptor::tss`, built up field by field. */
  function TssLow(size: nat, ptr: Word): Word
    requires size > 0
  {
    var limit: Word := ToBits(size - 1, 64);
    var w1 := SetBitRange(PRESENT, 15, 0, limit);
    var w2 := SetBitRange(w1, 39, 16, Low(ptr, 24));
    var w3 := SetBitRange(w2, 63, 56, Low(Shr(ptr, 24), 8));
    SetBitRange(w3, 43, 40, AvailableTss())
  }

  /** `Descriptor::tss`: the system descriptor for a TSS of `size` bytes at address `ptr`. */
  function Tss(size: nat, ptr: Word): (d: Descriptor)
    requires size > 0
    ensures d.System?
  {
    var words := TssWords(size, ptr);
    System(Value(words.0), Value(words.1))
  }

  /** The base address a 64-bit TSS descriptor holds, reassembled from its three pieces. */
  function TssBase(d: Descriptor): (base: Word)
    requires d.System?
  {
    ToBits(d.low, 64)[16..40] + ToBits(d.low, 64)[56..64] + ToBits(d.high, 64)[..32]
  }

  /**
   * The base round trip: the address reassembled from a TSS descriptor is
   * the address it was made from, and the limit, type and flags are where
   * the descriptor format puts them.
   */
  lemma TssRoundTrip(size: nat, ptr: Word)
    requires size > 0
    ensures TssBase(Tss(size, ptr)) == ptr
    ensures var low := ToBits(Tss(size, ptr).low, 64);
      && low[..16] == ToBits(size - 1, 64)[..16]
      && low[40..44] == [true, false, false, true] && low[47]
      && forall i :: 44 <= i < 47 || 48 <= i < 56 ==> !low[i]
    ensures forall i :: 32 <= i < 64 ==> !ToBits(Tss(size, ptr).high, 64)[i]
  {
    var (low, high) := TssWords(size, ptr);
    ToBitsOfValue(low);
    ToBitsOfValue(high);
    assert ptr == ptr[..24] + ptr[24..32] + ptr[32..];
  }
}

=== FILE: ids.dfy ===
/**
 * The identifier bitmaps behind thread ids (src/sys/thread.rs) and process
 * ids (src/sys/process.rs); both files carry the same code.
 *
 * The bitmap is an array of 4096 64-bit words. Identifier `id` lives in
 * word `id / 8` at bit `id % 8`, because the code divides by
 * `size_of::<u64>()` (8) rather than by 64; only the low eight bits of a
 * word are ever used. Next to the bitmap are a 64-bit probe offset that
 * grows by one on every probe and wraps around, and a counter of used
 * identifiers that lets `generate` give up without scanning.
 */
module Ids {
  import opened Base
  import opened Bits

  /** `Tid::MAX` and `Pid::MAX`. */
  const MAX: nat := 32768

  /** `MAX / size_of::<u64>()` words. */
  const WORDS: nat := 4096

  datatype Bitmap = Bitmap(words: seq<Word>, offset: nat, used: nat)

  predicate WellFormed(b: Bitmap) {
    |b.words| == WORDS && b.offset < U64_MODULUS
  }

  predicate IsSet(words: seq<Word>, id: nat)
    requires id / 8 < |words|
  {
    words[id / 8][id % 8]
  }

  function SetBit(words: seq<Word>, id: nat): seq<Word>
    requires id / 8 < |words|
  {
    words[id / 8 := words[id / 8][id % 8 := true]]
  }

  function ClearBit(words: seq<Word>, id: nat): seq<Word>
    requires id / 8 < |words|
  {
    words[id / 8 := words[id / 8][id % 8 := false]]
  }

  /** An identifier is its word index and its bit offset. */
  lemma SameSlot(id: nat, u: nat)
    ensures u == id <==> u / 8 == id / 8 && u % 8 == id % 8
  {
  }

  lemma SetBitSpec(words: seq<Word>, id: nat, u: nat)
    requires id / 8 < |words| && u / 8 < |words|
    ensures IsSet(SetBit(words, id), u) <==> u == id || IsSet(words, u)
  {
    SameSlot(id, u);
  }

  lemma ClearBitSpec(words: seq<Word>, id: nat, u: nat)
    requires id / 8 < |words| && u / 8 < |words|
    ensures IsSet(ClearBit(words, id), u) <==> u != id && IsSet(words, u)
  {
    SameSlot(id, u);
  }

  /** The number of identifiers below `n` whose bit is set. */
  function Population(words: seq<Word>, n: nat): nat
    requires n <= 8 * |words|
  {
    if n == 0 then 0 else Population(words, n - 1) + (if IsSet(words, n - 1) then 1 else 0)
  }

  /** The number of identifiers in use according to the bitmap. */
  function InUse(b: Bitmap): nat
    requires WellFormed(b)
  {
    Population(b.words, MAX)
  }

  lemma {:induction false} PopulationSet(words: seq<Word>, id: nat, n: nat)
    requires |words| == WORDS && id < MAX && n <= MAX && !IsSet(words, id)
    ensures Population(SetBit(words, id), n) == Population(words, n) + (if id < n then 1 else 0)
  {
    if n > 0 {
      PopulationSet(words, id, n - 1);
      SetBitSpec(words, id, n - 1);
    }
  }

  lemma {:induction false} PopulationClear(words: seq<Word>, id: nat, n: nat)
    requires |words| == WORDS && id < MAX && n <= MAX
    ensures Population(ClearBit(words, id), n) == Population(words, n) - (if id < n && IsSet(words, id) then 1 else 0)
  {
    if n > 0 {
      PopulationClear(words, id, n - 1);
      ClearBitSpec(words, id, n - 1);
    }
  }

  /** Fewer than `n` set bits below `n` leave a clear one. */
  lemma {:induction false} FreeBelow(words: seq<Word>, n: nat) returns (u: nat)
    requires n <= 8 * |words| && Population(words, n) < n
    ensures u < n && !IsSet(words, u)
  {
    if IsSet(words, n - 1) {
      u := FreeBelow(words, n - 1);
    } else {
      u := n - 1;
    }
  }

  lemma {:induction false} PopulationOfZeros(words: seq<Word>, n: nat)
    requires n <= 8 * |words| && forall i :: 0 <= i < |words| ==> words[i] == ZERO
    ensures Population(words, n) == 0
  {
    if n > 0 {
      PopulationOfZeros(words, n - 1);
    }
  }

  /**
   * A fresh bitmap: no bit set, offset and counter zero. The bitmap and
   * the counter agree.
   */
  function Empty(): (b: Bitmap)
    ensures WellFormed(b) && InUse(b) == 0 && b.used == 0
    ensures forall u: nat :: u < MAX ==> !IsSet(b.words, u)
  {
    var words: seq<Word> := seq(WORDS, i => ZERO);
    PopulationOfZeros(words, MAX);
    Bitmap(words, 0, 0)
  }

  /** `Tid::new` and `Pid::new`: a raw value names an identifier iff it is below `MAX`. */
  function New(raw: nat): (r: Option<nat>)
    ensures r.Some? <==> raw < MAX
    ensures r.Some? ==> r.value == raw
  {
    if raw >= MAX then None else Some(raw)
  }

  /**
   * The identifier probed `k` steps after the offset. The offset is a
   * 64-bit counter that wraps around, but 2^64 is a multiple of `MAX`, so
   * the wrap does not change which identifier is probed.
   */
  function Probe(offset: nat, k: nat): (r: nat)
    ensures r < MAX
  {
    (offset + k) % 32768
  }

  lemma ProbeIgnoresWrap(offset: nat, k: nat)
    ensures ((offset + k) % U64_MODULUS) % MAX == Probe(offset, k)
  {
    var x := offset + k;
    assert x == (x / U64_MODULUS) * U64_MODULUS + x % U64_MODULUS;
    assert U64_MODULUS == 562949953421312 * 32768;
    assert (x / U64_MODULUS) * U64_MODULUS == ((x / U64_MODULUS) * 562949953421312) * 32768;
  }

  /**
   * The first step from `k` on whose probe finds a clear bit, if one
   * comes before `MAX` steps.
   */
  function FirstClear(words: seq<Word>, offset: nat, k: nat): (r: Option<nat>)
    requires |words| == WORDS && k <= MAX
    ensures r.Some? ==> k <= r.value < MAX && !IsSet(words, Probe(offset, r.value))
    ensures r.Some? ==> forall j :: k <= j < r.value ==> IsSet(words, Probe(offset, j))
    ensures r.None? ==> forall j :: k <= j < MAX ==> IsSet(words, Probe(offset, j))
    decreases MAX - k
  {
    if k == MAX then None
    else if !IsSet(words, Probe(offset, k)) then Some(k)
    else FirstClear(words, offset, k + 1)
  }

  /** Every identifier is probed within `MAX` steps of any offset. */
  lemma ProbeReaches(offset: nat, u: nat)
    requires u < MAX
    ensures (u - offset) % MAX < MAX && Probe(offset, (u - offset) % MAX) == u
  {
    var d := (u - offset) % 32768;
    var q := (u - offset) / 32768;
    assert u - offset == q * 32768 + d;
    assert offset + d == u - q * 32768;
  }

  predicate HasFree(words: seq<Word>)
    requires |words| == WORDS
  {
    exists u: nat :: u < MAX && !IsSet(words, u)
  }

  /** With a clear bit anywhere, the scan from any offset stops within `MAX` probes. */
  lemma FreeIsFound(words: seq<Word>, offset: nat)
    requires |words| == WORDS && HasFree(words)
    ensures FirstClear(words, offset, 0).Some?
  {
    var u: nat :| u < MAX && !IsSet(words, u);
    ProbeReaches(offset, u);
  }

  /**
   * The state of every reachable bitmap: well formed, and the counter is
   * never below the number of set bits (`release` clears a bit without
   * touching the counter).
   */
  predicate Inv(b: Bitmap) {
    WellFormed(b) && InUse(b) <= b.used
  }

  /** The state the corrected code keeps: the counter is the number of set bits. */
  predicate Exact(b: Bitmap) {
    WellFormed(b) && InUse(b) == b.used
  }

  /** The counter guards the scan: below the limit, a clear bit exists. */
  lemma InvHasFree(b: Bitmap)
    requires Inv(b) && b.used + 1 < MAX
    ensures HasFree(b.words)
  {
    var u := FreeBelow(b.words, MAX);
  }

  /**
   * `generate` with the identifier returned instead of the bitmap word. It
   * gives up, changing nothing, once the counter would reach `MAX`;
   * otherwise it probes from the offset, one step at a time, and claims
   * the first identifier whose bit is clear. `generate` loops for ever
   * when every bit is set; the precondition rules that out.
   */
  function Generate(b: Bitmap): (r: (Bitmap, Option<nat>))
    requires WellFormed(b)
    requires b.used + 1 < MAX ==> HasFree(b.words)
    ensures WellFormed(r.0)
    ensures r.1.None? <==> b.used + 1 >= MAX
    ensures r.1.None? ==> r.0 == b
    ensures r.1.Some? ==>
      && r.1.value < MAX
      && !IsSet(b.words, r.1.value)
      && r.0.used == b.used + 1
      && (forall u: nat :: u < MAX ==> (IsSet(r.0.words, u) <==> u == r.1.value || IsSet(b.words, u)))
      && InUse(r.0) == InUse(b) + 1
    ensures r.1.Some? ==> exists k: nat ::
      (&& k < MAX
       && r.1.value == Probe(b.offset, k)
       && r.0.offset == (b.offset + k + 1) % U64_MODULUS
       && (forall j: nat :: j < k ==> IsSet(b.words, Probe(b.offset, j))))
  {
    if b.used + 1 >= MAX then (b, None)
    else
      FreeIsFound(b.words, b.offset);
      var k := FirstClear(b.words, b.offset, 0).value;
      var id := Probe(b.offset, k);
      Claim(b.words, id);
      (Bitmap(SetBit(b.words, id), (b.offset + k + 1) % U64_MODULUS, b.used + 1), Some(id))
  }

  lemma Claim(words: seq<Word>, id: nat)
    requires |words| == WORDS && id < MAX && !IsSet(words, id)
    ensures forall u: nat :: u < MAX ==> (IsSet(SetBit(words, id), u) <==> u == id || IsSet(words, u))
    ensures Population(SetBit(words, id), MAX) == Population(words, MAX) + 1
  {
    forall u: nat | u < MAX
      ensures IsSet(SetBit(words, id), u) <==> u == id || IsSet(words, u)
    {
      SetBitSpec(words, id, u);
    }
    PopulationSet(words, id, MAX);
  }

  /**
   * `generate` as written: the state changes as in `Generate`, but the
   * value handed out is the bitmap word that holds the claimed bit, after
   * the bit was set.
   */
  function GenerateAsWritten(b: Bitmap): (r: (Bitmap, Option<nat>))
    requires WellFormed(b)
    requires b.used + 1 < MAX ==> HasFree(b.words)
    ensures r.0 == Generate(b).0
    ensures r.1.None? <==> b.used + 1 >= MAX
    ensures r.1.Some? ==> r.1.value == Value(r.0.words[Generate(b).1.value / 8])
  {
    var (b', id) := Generate(b);
    match id
    case None => (b', None)
    case Some(id) => (b', Some(Value(b'.words[id / 8])))
  }

  /**
   * `release` as written: the identifier's bit is cleared and the counter
   * is left as it was. An identifier past the bitmap indexes out of
   * bounds and panics.
   */
  function ReleaseAsWritten(b: Bitmap, id: nat): (r: Outcome<Bitmap>)
    requires WellFormed(b)
    ensures r.Panic? <==> id >= MAX
    ensures r.Done? ==> WellFormed(r.value) && r.value.used == b.used && r.value.offset == b.offset
    ensures r.Done? ==> forall u: nat :: u < MAX ==> (IsSet(r.value.words, u) <==> u != id && IsSet(b.words, u))
    ensures r.Done? ==> InUse(r.value) == InUse(b) - (if IsSet(b.words, id) then 1 else 0)
  {
    if id / 8 >= |b.words| then Panic
    else
      Unclaim(b.words, id);
      Done(b.(words := ClearBit(b.words, id)))
  }

  lemma Unclaim(words: seq<Word>, id: nat)
    requires |words| == WORDS && id < MAX
    ensures forall u: nat :: u < MAX ==> (IsSet(ClearBit(words, id), u) <==> u != id && IsSet(words, u))
    ensures Population(ClearBit(words, id), MAX) == Population(words, MAX) - (if IsSet(words, id) then 1 else 0)
  {
    forall u: nat | u < MAX
      ensures IsSet(ClearBit(words, id), u) <==> u != id && IsSet(words, u)
    {
      ClearBitSpec(words, id, u);
    }
    PopulationClear(words, id, MAX);
  }

  /**
   * `release` with the counter given back: clearing a set bit also
   * decrements the counter, so the counter keeps counting the set bits.
   */
  function Release(b: Bitmap, id: nat): (r: Outcome<Bitmap>)
    requires Inv(b)
    ensures r.Panic? <==> id >= MAX
    ensures r.Done? ==> Inv(r.value) && r.value.offset == b.offset
    ensures r.Done? ==> forall u: nat :: u < MAX ==> (IsSet(r.value.words, u) <==> u != id && IsSet(b.words, u))
    ensures r.Done? ==> r.value.used == b.used - (if IsSet(b.words, id) then 1 else 0)
    ensures r.Done? && Exact(b) ==> Exact(r.value)
  {
    match ReleaseAsWritten(b, id)
    case Panic => Panic
    case Done(b') => Done(b'.(used := if IsSet(b.words, id) then b.used - 1 else b.used))
  }

  /** Both versions keep the invariant; the corrected one keeps the counter exact. */
  lemma GenerateKeepsInv(b: Bitmap)
    requires Inv(b)
    ensures b.used + 1 < MAX ==> HasFree(b.words)
    ensures Inv(Generate(b).0)
    ensures Exact(b) ==> Exact(Generate(b).0)
  {
    if b.used + 1 < MAX {
      InvHasFree(b);
    }
  }

  /**
   * With the counter exact, generating fails only when `MAX - 1`
   * identifiers are in use, and an identifier it hands out is none of
   * those in use.
   */
  lemma GenerateUnique(b: Bitmap, live: nat)
    requires Exact(b) && live < MAX && IsSet(b.words, live)
    ensures b.used + 1 < MAX ==> HasFree(b.words)
    ensures Generate(b).1.None? <==> InUse(b) >= MAX - 1
    ensures Generate(b).1 != Some(live)
  {
    GenerateKeepsInv(b);
  }

  /**
   * Releasing the identifier just generated gives back the bitmap and the
   * counter; only the probe offset has moved on.
   */
  lemma GenerateReleaseRoundTrip(b: Bitmap)
    requires Inv(b) && b.used + 1 < MAX
    ensures HasFree(b.words)
    ensures var (b1, id) := Generate(b);
      && id.Some?
      && Release(b1, id.value) == Done(b.(offset := b1.offset))
  {
    GenerateKeepsInv(b);
    var (b1, id) := Generate(b);
    var t := id.value;
    assert b1.words[t / 8][t % 8 := false] == b.words[t / 8];
    assert ClearBit(b1.words, t) == b.words;
  }

  /**
   * The counter drifts under the code as written: a generate followed by
   * the release of the identifier it claimed leaves every bit as it was
   * but the counter one higher.
   */
  lemma ReleaseAsWrittenDrifts(b: Bitmap)
    requires Inv(b) && b.used + 1 < MAX
    ensures HasFree(b.words)
    ensures var (b1, id) := Generate(b);
      && id.Some?
      && ReleaseAsWritten(b1, id.value) == Done(Bitmap(b.words, b1.offset, b.used + 1))
  {
    GenerateReleaseRoundTrip(b);
  }

  /**
   * Once the counter has drifted to `MAX - 2` with no bit set, one
   * generate and release later every generate fails although no
   * identifier is in use.
   */
  lemma ReleaseAsWrittenExhausts()
    ensures var b := Bitmap(Empty().words, 0, MAX - 2);
      && Inv(b)
      && Generate(b).1 == Some(0)
      && ReleaseAsWritten(Generate(b).0, 0) == Done(Bitmap(Empty().words, 1, MAX - 1))
      && InUse(Bitmap(Empty().words, 1, MAX - 1)) == 0
      && Generate(Bitmap(Empty().words, 1, MAX - 1)).1.None?
  {
    var b := Bitmap(Empty().words, 0, MAX - 2);
    ReleaseAsWrittenDrifts(b);
    assert !IsSet(b.words, Probe(0, 0));
  }

  /** Bits 1 to 7 set. */
  const HIGH7: Word := seq(64, j => 1 <= j < 8)

  /** Bits 0 to 7 set: the value 255. */
  const LOW8: Word := seq(64, j => j < 8)

  /** Two words with bits 1 to 7 set, and every other word clear. */
  function TwoWords(): (w: seq<Word>)
    ensures |w| == WORDS
  {
    seq(WORDS, i => if i < 2 then HIGH7 else ZERO)
  }

  lemma ValueOfLow8()
    ensures Value(LOW8) == 255
  {
    var l := LOW8;
    ValueOfZeros(l[8..]);
    assert l[7..][1..] == l[8..] && Value(l[7..]) == 1;
    assert l[6..][1..] == l[7..] && Value(l[6..]) == 3;
    assert l[5..][1..] == l[6..] && Value(l[5..]) == 7;
    assert l[4..][1..] == l[5..] && Value(l[4..]) == 15;
    assert l[3..][1..] == l[4..] && Value(l[3..]) == 31;
    assert l[2..][1..] == l[3..] && Value(l[2..]) == 63;
    assert l[1..][1..] == l[2..] && Value(l[1..]) == 127;
  }

  /**
   * The identifiers handed out by the code as written are not unique:
   * two generates in a row claim identifiers 0 and 8, and both hand out
   * the value 255.
   */
  lemma GenerateAsWrittenRepeats()
    ensures HasFree(TwoWords())
    ensures var b := Bitmap(TwoWords(), 0, 14);
      var b1 := GenerateAsWritten(b).0;
      && Generate(b).1 == Some(0)
      && GenerateAsWritten(b).1 == Some(255)
      && HasFree(b1.words)
      && Generate(b1).1 == Some(8)
      && GenerateAsWritten(b1).1 == Some(255)
  {
    var b := Bitmap(TwoWords(), 0, 14);
    FirstClaim();
    SecondClaim(Generate(b).0);
  }

  /** From `TwoWords`, the first probe finds identifier 0 clear and fills word 0. */
  lemma FirstClaim()
    ensures HasFree(TwoWords())
    ensures var r := Generate(Bitmap(TwoWords(), 0, 14));
      && r.1 == Some(0)
      && r.0 == Bitmap(TwoWords()[0 := LOW8], 1, 15)
      && GenerateAsWritten(Bitmap(TwoWords(), 0, 14)).1 == Some(255)
  {
    var b := Bitmap(TwoWords(), 0, 14);
    assert !IsSet(b.words, 0);
    assert forall j :: 0 <= j < 64 ==> HIGH7[0 := true][j] == LOW8[j];
    assert b.words[0][0 := true] == LOW8;
    ValueOfLow8();
  }

  /** Then identifiers 1 to 7 are taken, and the eighth probe claims 8, filling word 1. */
  lemma SecondClaim(b1: Bitmap)
    requires b1 == Bitmap(TwoWords()[0 := LOW8], 1, 15)
    ensures HasFree(b1.words)
    ensures Generate(b1).1 == Some(8)
    ensures GenerateAsWritten(b1).1 == Some(255)
  {
    assert !IsSet(b1.words, 8);
    FirstEight(b1.words);
    assert SetBit(b1.words, 8)[1] == LOW8;
    ValueOfLow8();
  }

  lemma FirstEight(words: seq<Word>)
    requires |words| == WORDS && words[0] == LOW8 && words[1] == HIGH7
    ensures FirstClear(words, 1, 0) == Some(7)
  {
    assert !IsSet(words, Probe(1, 7));
    assert FirstClear(words, 1, 7) == Some(7);
    assert FirstClear(words, 1, 6) == Some(7);
    assert FirstClear(words, 1, 5) == Some(7);
    assert FirstClear(words, 1, 4) == Some(7);
    assert FirstClear(words, 1, 3) == Some(7);
    assert FirstClear(words, 1, 2) == Some(7);
    assert FirstClear(words, 1, 1) == Some(7);
  }
}

=== FILE: page_fault.dfy ===
/**
 * The page-fault handler of the page-table code: it tells a stale TLB
 * entry from a missing page, serves missing heap and vmalloc pages on
 * demand, and otherwise names the reasons the fault cannot be handled.
 * The TLB flush and the logging are left out.
 */
module PageFault {
  import opened Base
  import opened Frames
  import FrameAllocator
  import opened Regions
  import Paging
  import Faults
  import Vmm

  /** The bits of the page-fault error code (Intel SDM Vol. 3A, section 4.7). */
  datatype CodeBit = ProtectionViolation | WriteAccess | UserMode | ReservedWrite | InstructionFetch
  type ErrorCode = set<CodeBit>

  datatype FaultType = LazyTlbInvalidation | DemandPaging

  /**
   * `handle_demand_paging` of the page-table code: a heap address gets a
   * fresh KERNEL, ZEROED frame mapped PRESENT and WRITABLE; a vmalloc
   * address goes to the vmalloc allocator's handler; anything else is
   * `UNKNOWN`. Mapping over a present page panics.
   */
  method HandleDemandPaging(regions: Regions, v: Vmm.Vmm, pt: Paging.PageTable, fa: FrameAllocator.Allocator, address: nat)
    returns (h: Vmm.Handled<()>)
    ensures !InHeap(regions, address) && !InVmalloc(regions, address) ==> h == Vmm.Handled(pt, fa, Done(Err(Faults.UNKNOWN)))
    ensures h.result.Panic? ==> Paging.Translate(pt, address).Some?
    ensures h.result.Done? && h.result.value.Ok? ==> Paging.Protection(h.table, address) == Some({Paging.Present, Paging.Writable})
    ensures h.result == Done(Ok(())) ==> Paging.Translate(pt, address).None? && Paging.Translate(h.table, address).Some?
    ensures InHeap(regions, address) && h.result == Done(Ok(())) ==>
      var got := FrameAllocator.Allocate(fa, {Kernel, Zeroed}).1;
      && got.Some?
      && (got.value.address != 0 ==> Paging.Translate(h.table, address) == Some(got.value.address + Paging.Offset(address)))
    ensures InHeap(regions, address) && h.result.Done? && h.result.value.Err? ==>
      h.result.value.error == {Faults.OutOfMemory} && FrameAllocator.FreeCount(h.allocator.frames) == 0
    ensures h.result.Done? && h.result.value.Err? ==>
      h.result.value.error in {Faults.UNKNOWN, {Faults.MissingPage}, {Faults.NotMappable}, {Faults.OutOfMemory}}
    ensures forall at :: Paging.Path(at) != Paging.Path(address) ==> Paging.Translate(h.table, at) == Paging.Translate(pt, at)
  {
    if InHeap(regions, address) {
      h := Vmm.MapFreshFrame(pt, fa, {Kernel, Zeroed}, address, address);
    } else if InVmalloc(regions, address) {
      h := Vmm.HandleDemandPaging(v, pt, fa, address);
    } else {
      h := Vmm.Handled(pt, fa, Done(Err(Faults.UNKNOWN)));
    }
  }

  /**
   * Why a fault on a present page with the protection-violation bit could
   * not be served: a write to a read-only page, else an instruction fetch
   * from a no-execute page, else a plain protection violation.
   */
  function ViolationReason(flags: Paging.PteFlags, code: ErrorCode): (r: Faults.Reason)
    ensures r == Faults.WriteProtected <==> Paging.Writable !in flags && WriteAccess in code
    ensures r == Faults.NotExecutable ==> Paging.NoExecute in flags && InstructionFetch in code
    ensures r in {Faults.WriteProtected, Faults.NotExecutable, Faults.ProtectionViolation}
  {
    if Paging.Writable !in flags && WriteAccess in code then Faults.WriteProtected
    else if Paging.NoExecute in flags && InstructionFetch in code then Faults.NotExecutable
    else Faults.ProtectionViolation
  }

  /**
   * `handle_page_fault`: a fault on a present page without the
   * protection-violation bit is a stale TLB entry; a fault on a missing
   * page without it is served by demand paging, and when that fails the
   * error gains `MISSING_PAGE`; a protection violation on a present page
   * is explained by `ViolationReason`, and on a missing page is `UNKNOWN`.
   */
  method HandlePageFault(regions: Regions, v: Vmm.Vmm, pt: Paging.PageTable, fa: FrameAllocator.Allocator, code: ErrorCode, address: nat)
    returns (h: Vmm.Handled<FaultType>)
    ensures h.result.Done?
    ensures Paging.Translate(pt, address).Some? && ProtectionViolation !in code ==>
      h == Vmm.Handled(pt, fa, Done(Ok(LazyTlbInvalidation)))
    ensures h.result == Done(Ok(LazyTlbInvalidation)) ==> Paging.Translate(pt, address).Some?
    ensures h.result == Done(Ok(DemandPaging)) ==>
      && Paging.Translate(pt, address).None?
      && Paging.Translate(h.table, address).Some?
      && Paging.Protection(h.table, address) == Some({Paging.Present, Paging.Writable})
    ensures ProtectionViolation !in code && h.result.value.Err? ==> Faults.MissingPage in h.result.value.error
    ensures ProtectionViolation !in code && Paging.Translate(pt, address).None? && !InHeap(regions, address) && !InVmalloc(regions, address) ==>
      h == Vmm.Handled(pt, fa, Done(Err({Faults.MissingPage})))
    ensures ProtectionViolation in code ==>
      && h.table == pt && h.allocator == fa
      && h.result == Done(Err(
           match Paging.Protection(pt, address)
           case None => Faults.UNKNOWN
           case Some(flags) => {ViolationReason(flags, code)}))
    ensures forall at :: Paging.Path(at) != Paging.Path(address) ==> Paging.Translate(h.table, at) == Paging.Translate(pt, at)
  {
    var present := Paging.FetchPte(pt, address).Some?;
    if present && ProtectionViolation !in code {
      return Vmm.Handled(pt, fa, Done(Ok(LazyTlbInvalidation)));
    }
    var error := Faults.UNKNOWN;
    var table, allocator := pt, fa;
    if !present && ProtectionViolation !in code {
      var d := HandleDemandPaging(regions, v, pt, fa, address);
      if d.result.value.Ok? {
        return Vmm.Handled(d.table, d.allocator, Done(Ok(DemandPaging)));
      }
      error := error + d.result.value.error;
      table, allocator := d.table, d.allocator;
    }
    if ProtectionViolation in code {
      match Paging.FetchPte(table, address)
      case Some(pte) =>
        error := error + {ViolationReason(pte.flags, code)};
        assert error == {ViolationReason(pte.flags, code)};
      case None =>
    } else {
      error := error + {Faults.MissingPage};
      assert !InHeap(regions, address) && !InVmalloc(regions, address) ==> error == {Faults.MissingPage};
    }
    return Vmm.Handled(table, allocator, Done(Err(error)));
  }

  /**
   * A fault served by demand paging is served for good: the same access
   * faulting again on the new table finds the page present and is taken
   * for a stale TLB entry, changing nothing.
   */
  method FaultTwice(regions: Regions, v: Vmm.Vmm, pt: Paging.PageTable, fa: FrameAllocator.Allocator, code: ErrorCode, address: nat)
    returns (first: Vmm.Handled<FaultType>, second: Vmm.Handled<FaultType>)
    requires ProtectionViolation !in code
    ensures first.result == Done(Ok(DemandPaging)) ==> second == Vmm.Handled(first.table, first.allocator, Done(Ok(LazyTlbInvalidation)))
    ensures first.result == Done(Ok(LazyTlbInvalidation)) ==> first == second
  {
    first := HandlePageFault(regions, v, pt, fa, code, address);
    second := HandlePageFault(regions, v, first.table, first.allocator, code, address);
  }
}

=== FILE: paging.dfy ===
/**
 * The four-level x86-64 page table and the operations of
 * src/arch/paging.rs that read and write it.
 *
 * The whole hierarchy of tables is one map from a slot to an entry. A slot
 * names one entry by the depth of its table (1 for the PML4, 2 for a PDPT,
 * 3 for a page directory, 4 for a page table) and the indices of the walk
 * that reaches it. A slot missing from the map holds the zero entry.
 * Following an entry's address through the direct map to the next table is
 * implicit in the slot, and a freshly created table, whose frame was
 * zeroed, is the removal of every slot below it. TLB flushes and
 * control-register writes have no effect on the model.
 */
module Paging {
  import opened Base
  import opened Frames
  import FrameAllocator
  import opened Regions

  datatype PteFlag = Present | Writable | User | WriteThrough | NoCache | Accessed | Dirty | HugePage | Global | NoExecute
  type PteFlags = set<PteFlag>

  datatype Pte = Pte(address: nat, flags: PteFlags)

  /** The entry of a zeroed table. */
  const ZERO: Pte := Pte(0, {})

  /**
   * The entry reached after `depth` steps of a walk with the PML4, PDPT, PD
   * and PT indices `i4`, `i3`, `i2` and `i1`; indices past the depth are 0.
   */
  datatype Slot = Slot(depth: nat, i4: nat, i3: nat, i2: nat, i1: nat)

  datatype PageTable = PageTable(entries: map<Slot, Pte>)

  datatype MapError = OutOfMemory | AlreadyMapped

  /** Entries per table. */
  const COUNT: nat := 512

  /**
   * The slot of the last-level entry for `at`: bits 47..39, 38..30, 29..21
   * and 20..12 of the address, that is nine-bit groups of its page number,
   * index the four tables.
   */
  function Path(at: nat): (p: Slot)
    ensures p.depth == 4 && p.i4 < COUNT
  {
    var page := at / PAGE_SIZE;
    Slot(4, (page / 0x800_0000) % COUNT, (page / 0x4_0000) % COUNT, (page / COUNT) % COUNT, page % COUNT)
  }

  /** The slot `d` steps into the walk of `s`. */
  function Up(s: Slot, d: nat): (r: Slot)
    ensures r.depth == d
  {
    Slot(d, s.i4, if d >= 2 then s.i3 else 0, if d >= 3 then s.i2 else 0, if d >= 4 then s.i1 else 0)
  }

  /** The PML4 entry `i`. */
  function Top(i: nat): Slot {
    Slot(1, i, 0, 0, 0)
  }

  /** The offset of an address inside its page, `at & 0xFFF`. */
  function Offset(at: nat): nat {
    at % PAGE_SIZE
  }

  function Get(pt: PageTable, s: Slot): Pte {
    if s in pt.entries then pt.entries[s] else ZERO
  }

  predicate IsPresent(pt: PageTable, s: Slot) {
    Present in Get(pt, s).flags
  }

  /** The entries the walk to `p` passes before depth `d` are present. */
  predicate PresentAbove(pt: PageTable, p: Slot, d: nat) {
    && (1 < d ==> IsPresent(pt, Up(p, 1)))
    && (2 < d ==> IsPresent(pt, Up(p, 2)))
    && (3 < d ==> IsPresent(pt, Up(p, 3)))
  }

  /** Every entry on the walk to the last-level slot `p` is present. */
  predicate Reachable(pt: PageTable, p: Slot) {
    PresentAbove(pt, p, 4) && IsPresent(pt, p)
  }

  /** The last-level entry at `p` if the walk reaches it and it is present. */
  function Lookup(pt: PageTable, p: Slot): Option<Pte> {
    if Reachable(pt, p) then Some(Get(pt, p)) else None
  }

  /**
   * `fetch_pte` from depth `d` down: stops with `None` at the first entry
   * that is not present, and returns the last-level entry otherwise.
   */
  function FetchFrom(pt: PageTable, p: Slot, d: nat): (r: Option<Pte>)
    requires p.depth == 4 && 1 <= d <= 4
    ensures PresentAbove(pt, p, d) ==> r == Lookup(pt, p)
    decreases 4 - d
  {
    if !IsPresent(pt, Up(p, d)) then
      assert Up(p, 4) == p;
      None
    else if d == 4 then assert Up(p, 4) == p; Some(Get(pt, p))
    else FetchFrom(pt, p, d + 1)
  }

  /** `fetch_pte` from the PML4: the present last-level entry mapping `at`. */
  function FetchPte(pt: PageTable, at: nat): (r: Option<Pte>)
    ensures r == Lookup(pt, Path(at))
  {
    FetchFrom(pt, Path(at), 1)
  }

  /** `translate`: the physical address `at` maps to, if any. */
  function Translate(pt: PageTable, at: nat): (r: Option<nat>)
    ensures r.Some? <==> Reachable(pt, Path(at))
    ensures r.Some? ==> r.value == Get(pt, Path(at)).address + Offset(at)
  {
    match FetchPte(pt, at)
    case None => None
    case Some(pte) => Some(pte.address + Offset(at))
  }

  /** `protection`: the flags of the entry mapping `at`, if it is mapped. */
  function Protection(pt: PageTable, at: nat): (r: Option<PteFlags>)
    ensures r.Some? <==> Translate(pt, at).Some?
    ensures r.Some? ==> r.value == Get(pt, Path(at)).flags && Present in r.value
  {
    match FetchPte(pt, at)
    case None => None
    case Some(pte) => Some(pte.flags)
  }

  /** `unmap`: clears the entry mapping `at` and returns the physical address it translated to. */
  function Unmap(pt: PageTable, at: nat): (r: (PageTable, Option<nat>))
    ensures r.1 == Translate(pt, at)
    ensures Translate(r.0, at).None?
    ensures r.1.None? ==> r.0 == pt
  {
    match FetchPte(pt, at)
    case None => (pt, None)
    case Some(pte) => (PageTable(pt.entries - {Path(at)}), Some(pte.address + Offset(at)))
  }

  /** `change_protection`: replaces the flags of the entry mapping `at` and returns the old ones. */
  function ChangeProtection(pt: PageTable, at: nat, flags: PteFlags): (r: (PageTable, Option<PteFlags>))
    ensures r.1 == Protection(pt, at)
    ensures r.1.Some? ==> Protection(r.0, at) == (if Present in flags then Some(flags) else None)
    ensures r.1.Some? && Present in flags ==> Translate(r.0, at) == Translate(pt, at)
    ensures r.1.None? ==> r.0 == pt
  {
    match FetchPte(pt, at)
    case None => (pt, None)
    case Some(pte) => (PageTable(pt.entries[Path(at) := pte.(flags := flags)]), Some(pte.flags))
  }

  /** `unmap` only takes mappings away: whatever still translates afterwards translated the same before. */
  lemma UnmapOnlyRemoves(pt: PageTable, at: nat, x: nat)
    requires Translate(Unmap(pt, at).0, x).Some?
    ensures Translate(pt, x) == Translate(Unmap(pt, at).0, x)
  {
    var pt' := Unmap(pt, at).0;
    var p := Path(x);
    assert forall d :: 1 <= d <= 3 ==> Get(pt', Up(p, d)) == Get(pt, Up(p, d));
  }

  /** Addresses in the same page use the same last-level entry. */
  lemma SamePageSamePath(at: nat, at': nat)
    requires at / PAGE_SIZE == at' / PAGE_SIZE
    ensures Path(at) == Path(at')
  {
  }

  /** Changing the protection and changing it back to the old flags restores the table. */
  lemma ChangeProtectionRoundTrip(pt: PageTable, at: nat, flags: PteFlags)
    requires Protection(pt, at).Some? && Present in flags
    ensures ChangeProtection(ChangeProtection(pt, at, flags).0, at, Protection(pt, at).value) == (pt, Some(flags))
  {
    var p := Path(at);
    assert p in pt.entries;
    var pt1 := ChangeProtection(pt, at, flags).0;
    assert pt1.entries[p := Get(pt, p)] == pt.entries;
  }

  /** `k` lies strictly below the entry `q`: it belongs to the table `q` points to, or deeper. */
  predicate Below(k: Slot, q: Slot) {
    q.depth < k.depth && Up(k, q.depth) == q
  }

  /**
   * Pointing the entry `q` at a new table held in a fresh zeroed frame: `q`
   * becomes `e` and nothing is left below it.
   */
  function Install(pt: PageTable, q: Slot, e: Pte): (r: PageTable)
    ensures Get(r, q) == e
    ensures forall k: Slot :: k != q && !Below(k, q) ==> Get(r, k) == Get(pt, k)
    ensures forall k: Slot :: Below(k, q) ==> Get(r, k) == ZERO
  {
    var kept := map k | k in pt.entries && !Below(k, q) :: pt.entries[k];
    PageTable(kept[q := e])
  }

  /** The translation of every page other than the one at `p` is the same in `pt` and `pt'`. */
  ghost predicate SameElsewhere(pt: PageTable, pt': PageTable, p: Slot) {
    forall p': Slot :: p'.depth == 4 && p' != p ==> Lookup(pt', p') == Lookup(pt, p')
  }

  /** Installing a table behind a non-present entry changes no lookup. */
  lemma InstallKeepsLookups(pt: PageTable, q: Slot, e: Pte, p: Slot)
    requires 1 <= q.depth <= 3 && !IsPresent(pt, q) && p.depth == 4
    ensures Lookup(Install(pt, q, e), p) == Lookup(pt, p)
  {
    var r := Install(pt, q, e);
    if Up(p, q.depth) == q {
      assert Below(p, q);
    } else {
      assert Up(p, 4) == p;
      forall d | 1 <= d <= 4
        ensures Get(r, Up(p, d)) == Get(pt, Up(p, d))
      {
        if q.depth < d {
          assert Up(Up(p, d), q.depth) == Up(p, q.depth);
        }
      }
    }
  }

  /** What creating a table does to the entry `q`: PRESENT and WRITABLE are added and it points at the frame. */
  function Attach(pt: PageTable, q: Slot, address: nat): Pte {
    Pte(address, Get(pt, q).flags + {Present, Writable})
  }

  /**
   * `creat_and_fetch_pte` from depth `d` down: every missing intermediate
   * entry gets a fresh table from a KERNEL, ZEROED frame; the last-level
   * entry is never created. `false` when the frame allocator runs dry, with
   * the tables created so far kept.
   */
  function Create(pt: PageTable, a: FrameAllocator.Allocator, p: Slot, d: nat): (r: (PageTable, FrameAllocator.Allocator, bool))
    requires p.depth == 4 && 1 <= d <= 4
    requires PresentAbove(pt, p, d)
    ensures r.2 ==> PresentAbove(r.0, p, 4)
    ensures !r.2 ==> FrameAllocator.FreeCount(r.1.frames) == 0
    ensures SameElsewhere(pt, r.0, p)
    ensures Reachable(pt, p) ==> r == (pt, a, true)
    ensures !Reachable(pt, p) && r.2 ==> !IsPresent(r.0, p)
    ensures FrameAllocator.FreeCount(r.1.frames) <= FrameAllocator.FreeCount(a.frames)
    decreases 4 - d
  {
    if d == 4 then (pt, a, true)
    else if IsPresent(pt, Up(p, d)) then Create(pt, a, p, d + 1)
    else
      match Grow(pt, a, Up(p, d))
      case (a', None) => (pt, a', false)
      case (a', Some(pt1)) =>
        assert Below(p, Up(p, d));
        Create(pt1, a', p, d + 1)
  }

  /**
   * How many tables `creat_and_fetch_pte` creates on the walk to `p` from
   * depth `d`: none while the entries are present, and from the first
   * missing one every table below it, since a new table starts zeroed.
   */
  function MissingTables(pt: PageTable, p: Slot, d: nat): nat
    requires 1 <= d <= 4
    decreases 4 - d
  {
    if d == 4 then 0
    else if IsPresent(pt, Up(p, d)) then MissingTables(pt, p, d + 1)
    else 4 - d
  }

  /**
   * The count is of the tables from the first entry on the walk that is
   * not present down to the last level: the entries before it are present.
   */
  lemma {:induction false} MissingTablesCounts(pt: PageTable, p: Slot, d: nat)
    requires 1 <= d <= 4
    ensures MissingTables(pt, p, d) <= 4 - d
    ensures forall e :: d <= e < 4 - MissingTables(pt, p, d) ==> IsPresent(pt, Up(p, e))
    ensures MissingTables(pt, p, d) > 0 ==> !IsPresent(pt, Up(p, 4 - MissingTables(pt, p, d)))
    decreases 4 - d
  {
    if d < 4 && IsPresent(pt, Up(p, d)) {
      MissingTablesCounts(pt, p, d + 1);
    }
  }

  /** The frame allocator after `n` KERNEL, ZEROED requests in a row, stopping at the first that finds no frame. */
  function TablesAllocated(a: FrameAllocator.Allocator, n: nat): FrameAllocator.Allocator
    decreases n
  {
    if n == 0 then a
    else
      match FrameAllocator.Allocate(a, {Kernel, Zeroed})
      case (a', None) => a'
      case (a', Some(_)) => TablesAllocated(a', n - 1)
  }

  /**
   * The frame allocator `creat_and_fetch_pte` leaves is the one after a
   * KERNEL, ZEROED request for each missing table.
   */
  lemma {:induction false} CreateAllocatesTables(pt: PageTable, a: FrameAllocator.Allocator, p: Slot, d: nat)
    requires p.depth == 4 && 1 <= d <= 4
    requires PresentAbove(pt, p, d)
    ensures Create(pt, a, p, d).1 == TablesAllocated(a, MissingTables(pt, p, d))
    decreases 4 - d
  {
    if d == 4 {
    } else if IsPresent(pt, Up(p, d)) {
      CreateAllocatesTables(pt, a, p, d + 1);
    } else {
      match Grow(pt, a, Up(p, d))
      case (a', None) =>
      case (a', Some(pt1)) =>
        assert Below(p, Up(p, d));
        if d + 1 < 4 {
          assert Below(Up(p, d + 1), Up(p, d));
          assert !IsPresent(pt1, Up(p, d + 1));
        }
        CreateAllocatesTables(pt1, a', p, d + 1);
    }
  }

  /**
   * One table created by `creat_and_fetch_pte` behind the entry `q` that is
   * not present: a KERNEL, ZEROED frame, `None` when there is none.
   */
  function Grow(pt: PageTable, a: FrameAllocator.Allocator, q: Slot): (r: (FrameAllocator.Allocator, Option<PageTable>))
    requires 1 <= q.depth <= 3 && !IsPresent(pt, q)
    ensures r.1.None? <==> FrameAllocator.FreeCount(a.frames) == 0
    ensures r.1.None? ==> FrameAllocator.FreeCount(r.0.frames) == 0
    ensures r.1.Some? ==> FrameAllocator.FreeCount(r.0.frames) < FrameAllocator.FreeCount(a.frames)
    ensures r.1.Some? ==> IsPresent(r.1.value, q)
    ensures r.1.Some? ==> forall k: Slot :: k != q && !Below(k, q) ==> Get(r.1.value, k) == Get(pt, k)
    ensures r.1.Some? ==> forall k: Slot :: Below(k, q) ==> Get(r.1.value, k) == ZERO
    ensures r.1.Some? ==> forall p: Slot :: p.depth == 4 ==> Lookup(r.1.value, p) == Lookup(pt, p)
  {
    FrameAllocator.AllocateUsesOneFree(a, {Kernel, Zeroed});
    match FrameAllocator.Allocate(a, {Kernel, Zeroed})
    case (a', None) => (a', None)
    case (a', Some(f)) =>
      var pt1 := Install(pt, q, Attach(pt, q, f.address));
      forall p: Slot | p.depth == 4
        ensures Lookup(pt1, p) == Lookup(pt, p)
      {
        InstallKeepsLookups(pt, q, Attach(pt, q, f.address), p);
      }
      (a', Some(pt1))
  }

  /**
   * The last-level entry for `at` holds the frame a KERNEL, ZEROED request
   * gets from `a`, and `a'` is the allocator that request leaves.
   */
  predicate HoldsFreshFrame(pt: PageTable, at: nat, a: FrameAllocator.Allocator, a': FrameAllocator.Allocator) {
    var g := FrameAllocator.Allocate(a, {Kernel, Zeroed});
    g.1.Some? && Get(pt, Path(at)).address == g.1.value.address && a' == g.0
  }

  /**
   * The frame behind the new entry for `at`, measured against the
   * allocator left by one KERNEL, ZEROED request per missing table: a
   * given frame leaves that allocator alone, a null frame is the one a
   * further KERNEL, ZEROED request gets from it.
   */
  predicate FilledLeaf(pt: PageTable, a: FrameAllocator.Allocator, at: nat, frame: Frame,
                       table: PageTable, allocator: FrameAllocator.Allocator) {
    forall n | n == MissingTables(pt, Path(at), 1) ::
      if frame.address != 0 then allocator == TablesAllocated(a, n)
      else HoldsFreshFrame(table, at, TablesAllocated(a, n), allocator)
  }

  /**
   * What `FilledLeaf` says, spelled out: a given frame leaves the allocator
   * as the table requests left it, and a null frame is the frame the next
   * KERNEL, ZEROED request hands out.
   */
  lemma FilledLeafFrame(pt: PageTable, a: FrameAllocator.Allocator, at: nat, frame: Frame,
                        table: PageTable, allocator: FrameAllocator.Allocator)
    requires FilledLeaf(pt, a, at, frame, table, allocator)
    ensures var a' := TablesAllocated(a, MissingTables(pt, Path(at), 1));
      && (frame.address != 0 ==> allocator == a')
      && (frame.address == 0 ==>
            var g := FrameAllocator.Allocate(a', {Kernel, Zeroed});
            g.1.Some? && Get(table, Path(at)).address == g.1.value.address && allocator == g.0)
  {
  }

  /** What `map` leaves behind: the tables, the frame allocator and the result. */
  datatype Mapped = Mapped(table: PageTable, allocator: FrameAllocator.Allocator, result: Result<(), MapError>)

  /**
   * `map`: makes the entry for `at` point at `frame` with exactly `flags`,
   * creating missing tables on the way. A frame at physical address zero
   * asks for a fresh KERNEL, ZEROED frame instead. Tables created before an
   * allocation failure stay. Whatever the result, no other page's
   * translation changes.
   */
  method Map(pt: PageTable, a: FrameAllocator.Allocator, at: nat, frame: Frame, flags: PteFlags) returns (r: Mapped)
    ensures r.result == Err(AlreadyMapped) <==> Translate(pt, at).Some?
    ensures r.result == Err(AlreadyMapped) ==> r.table == pt && r.allocator == a
    ensures r.result == Err(OutOfMemory) ==> FrameAllocator.FreeCount(r.allocator.frames) == 0
    ensures r.result.Ok? ==> (
      && Get(r.table, Path(at)).flags == flags
      && (frame.address != 0 ==> Get(r.table, Path(at)).address == frame.address)
      && (frame.address == 0 ==> FrameAllocator.FreeCount(r.allocator.frames) < FrameAllocator.FreeCount(a.frames))
      && PresentAbove(r.table, Path(at), 4))
    ensures r.result.Ok? && Present in flags ==> Lookup(r.table, Path(at)) == Some(Get(r.table, Path(at)))
    ensures r.result.Ok? ==> FilledLeaf(pt, a, at, frame, r.table, r.allocator)
    ensures SameElsewhere(pt, r.table, Path(at))
    ensures forall at' :: Path(at') != Path(at) ==> Translate(r.table, at') == Translate(pt, at')
  {
    var p := Path(at);
    var c := Create(pt, a, p, 1);
    if !c.2 {
      r := Mapped(c.0, c.1, Err(OutOfMemory));
    } else if IsPresent(c.0, p) {
      r := Mapped(c.0, c.1, Err(AlreadyMapped));
    } else {
      r := FillLeaf(c.0, c.1, at, frame, flags);
      assert FrameAllocator.FreeCount(c.1.frames) <= FrameAllocator.FreeCount(a.frames);
      CreateAllocatesTables(pt, a, p, 1);
    }
    assert SameElsewhere(pt, r.table, p);
    LookupsDecideOtherTranslations(pt, r.table, at);

  }

  /**
   * The last part of `map`, once the tables on the way exist and the
   * last-level entry is not present: takes a fresh frame if asked to, then
   * writes the entry.
   */
  method FillLeaf(pt: PageTable, a: FrameAllocator.Allocator, at: nat, frame: Frame, flags: PteFlags) returns (r: Mapped)
    requires PresentAbove(pt, Path(at), 4)
    requires !IsPresent(pt, Path(at))
    ensures r.result != Err(AlreadyMapped)
    ensures r.result == Err(OutOfMemory) ==> frame.address == 0 && FrameAllocator.FreeCount(r.allocator.frames) == 0
    ensures r.result.Ok? ==> (
      && Get(r.table, Path(at)).flags == flags
      && (frame.address != 0 ==> Get(r.table, Path(at)).address == frame.address && r.allocator == a)
      && (frame.address == 0 ==> FrameAllocator.FreeCount(r.allocator.frames) < FrameAllocator.FreeCount(a.frames))
      && PresentAbove(r.table, Path(at), 4))
    ensures r.result.Ok? && Present in flags ==> Translate(r.table, at) == Some(Get(r.table, Path(at)).address + Offset(at))
    ensures frame.address == 0 && r.result.Ok? ==> HoldsFreshFrame(r.table, at, a, r.allocator)
    ensures frame.address == 0 && r.result.Err? ==> r.allocator == FrameAllocator.Allocate(a, {Kernel, Zeroed}).0
    ensures frame.address == 0 ==> (r.result.Ok? <==> FrameAllocator.Allocate(a, {Kernel, Zeroed}).1.Some?)
    ensures SameElsewhere(pt, r.table, Path(at))
  {
    var p := Path(at);
    var a2, target := a, Some(frame);
    if frame.address == 0 {
      FrameAllocator.AllocateUsesOneFree(a, {Kernel, Zeroed});
      var got := FrameAllocator.Allocate(a, {Kernel, Zeroed});
      a2, target := got.0, got.1;
    }
    if target.None? {
      r := Mapped(pt, a2, Err(OutOfMemory));
    } else {
      var pt2 := PageTable(pt.entries[p := Pte(target.value.address, flags)]);
      SetLeafKeepsOthers(pt, p, Pte(target.value.address, flags));
      if Present in flags {
        PresentLeafTranslates(pt2, at);
      }
      r := Mapped(pt2, a2, Ok(()));
    }
  }

  /** A present last-level entry under present tables is what `at` translates through. */
  lemma PresentLeafTranslates(pt: PageTable, at: nat)
    requires PresentAbove(pt, Path(at), 4)
    requires IsPresent(pt, Path(at))
    ensures Translate(pt, at) == Some(Get(pt, Path(at)).address + Offset(at))
  {
    var p := Path(at);
    assert IsPresent(pt, Up(p, 1)) && IsPresent(pt, Up(p, 2)) && IsPresent(pt, Up(p, 3));
  }

  /** Tables that agree on every other page's lookup agree on every other page's translation. */
  lemma LookupsDecideOtherTranslations(pt: PageTable, pt': PageTable, at: nat)
    requires SameElsewhere(pt, pt', Path(at))
    ensures forall at' :: Path(at') != Path(at) ==> Translate(pt', at') == Translate(pt, at')
  {
    forall at' | Path(at') != Path(at)
      ensures Translate(pt', at') == Translate(pt, at')
    {
      assert Lookup(pt', Path(at')) == Lookup(pt, Path(at'));
    }
  }

  /** Writing the last-level entry `p` changes no other page's lookup and no intermediate entry. */
  lemma SetLeafKeepsOthers(pt: PageTable, p: Slot, e: Pte)
    requires p.depth == 4
    ensures forall k: Slot :: k.depth < 4 ==> Get(PageTable(pt.entries[p := e]), k) == Get(pt, k)
    ensures SameElsewhere(pt, PageTable(pt.entries[p := e]), p)
  {
  }

  /** Clearing the last-level entry `p` changes no other page's lookup. */
  lemma ClearLeafKeepsOthers(pt: PageTable, p: Slot)
    requires p.depth == 4
    ensures SameElsewhere(pt, PageTable(pt.entries - {p}), p)
  {
  }

  /**
   * `unmap` undoes a mapping of a page that was not mapped: when `pt'`
   * differs from `pt` only in the page of `at`, which it maps and `pt` did
   * not, `unmap` hands back the translation and every translation is as
   * in `pt` again. A successful `map` with PRESENT of an unmapped page
   * produces exactly such a `pt'`.
   */
  lemma UnmapUndoesMap(pt: PageTable, pt': PageTable, at: nat)
    requires SameElsewhere(pt, pt', Path(at))
    requires Translate(pt, at).None? && Translate(pt', at).Some?
    ensures Unmap(pt', at).1 == Translate(pt', at)
    ensures forall at' :: Translate(Unmap(pt', at).0, at') == Translate(pt, at')
  {
    var pt2 := Unmap(pt', at).0;
    assert pt2 == PageTable(pt'.entries - {Path(at)});
    ClearLeafKeepsOthers(pt', Path(at));
    forall at' | true
      ensures Translate(pt2, at') == Translate(pt, at')
    {
      if Path(at') != Path(at) {
        assert Lookup(pt2, Path(at')) == Lookup(pt', Path(at')) == Lookup(pt, Path(at'));
      }
    }
  }

  /** The number of PML4 entries from index `i` up that are not present. */
  function Missing(pt: PageTable, i: nat): nat
    decreases COUNT - i
  {
    if i >= COUNT then 0
    else (if IsPresent(pt, Top(i)) then 0 else 1) + Missing(pt, i + 1)
  }

  /** `Missing` only looks at the PML4 entries from `i` up. */
  lemma {:induction false} MissingDependsOnTop(pt: PageTable, pt': PageTable, i: nat)
    requires forall j :: i <= j < COUNT ==> IsPresent(pt, Top(j)) == IsPresent(pt', Top(j))
    ensures Missing(pt, i) == Missing(pt', i)
    decreases COUNT - i
  {
    if i < COUNT {
      MissingDependsOnTop(pt, pt', i + 1);
    }
  }

  /** One step of either loop of `setup` moves the panic condition from index `i` to `i + 1`. */
  lemma StepKeepsCount(pt: PageTable, a: FrameAllocator.Allocator, pt': PageTable, a': FrameAllocator.Allocator, i: nat)
    requires i < COUNT
    requires forall j :: i < j < COUNT ==> Get(pt', Top(j)) == Get(pt, Top(j))
    requires FrameAllocator.FreeCount(a'.frames) == FrameAllocator.FreeCount(a.frames) - (if IsPresent(pt, Top(i)) then 0 else 1)
    requires !IsPresent(pt, Top(i)) ==> FrameAllocator.FreeCount(a.frames) > 0
    ensures FrameAllocator.FreeCount(a.frames) < Missing(pt, i) <==> FrameAllocator.FreeCount(a'.frames) < Missing(pt', i + 1)
  {
    MissingDependsOnTop(pt, pt', i + 1);
  }

  /**
   * One step of the loop of `setup` as written: a missing PML4 entry `i`
   * gets a KERNEL frame (not ZEROED) with exactly PRESENT and WRITABLE;
   * `None` when no frame is left.
   */
  function PreallocateAsWritten(pt: PageTable, a: FrameAllocator.Allocator, i: nat): (r: Option<(PageTable, FrameAllocator.Allocator)>)
    ensures r.None? <==> !IsPresent(pt, Top(i)) && FrameAllocator.FreeCount(a.frames) == 0
    ensures r.Some? ==> IsPresent(r.value.0, Top(i)) && forall k: Slot :: k != Top(i) ==> Get(r.value.0, k) == Get(pt, k)
    ensures r.Some? ==> FrameAllocator.FreeCount(r.value.1.frames) == FrameAllocator.FreeCount(a.frames) - (if IsPresent(pt, Top(i)) then 0 else 1)
  {
    if IsPresent(pt, Top(i)) then Some((pt, a))
    else
      FrameAllocator.AllocateUsesOneFree(a, {Kernel});
      match FrameAllocator.Allocate(a, {Kernel})
      case (_, None) => None
      case (a', Some(f)) => Some((PageTable(pt.entries[Top(i) := Pte(f.address, {Present, Writable})]), a'))
  }

  /** The loop of `setup` as written, from PML4 index `i`; running out of frames panics. */
  function SetupFromAsWritten(pt: PageTable, a: FrameAllocator.Allocator, i: nat): (r: Outcome<(PageTable, FrameAllocator.Allocator)>)
    ensures r.Panic? <==> FrameAllocator.FreeCount(a.frames) < Missing(pt, i)
    ensures r.Done? ==> forall j :: i <= j < COUNT ==> IsPresent(r.value.0, Top(j))
    ensures r.Done? ==> forall k: Slot :: k.depth != 1 || k.i4 < i ==> Get(r.value.0, k) == Get(pt, k)
    decreases COUNT - i
  {
    if i >= COUNT then Done((pt, a))
    else
      match PreallocateAsWritten(pt, a, i)
      case None => Panic
      case Some((pt', a')) =>
        StepKeepsCount(pt, a, pt', a', i);
        var r := SetupFromAsWritten(pt', a', i + 1);
        assert r.Done? ==> Get(r.value.0, Top(i)) == Get(pt', Top(i));
        r
  }

  /** The index of the PML4 entry covering an address. */
  function Pml4Index(address: nat): nat {
    Path(address).i4
  }

  /** `setup` as written: preallocates every kernel PML4 entry. */
  function SetupAsWritten(pt: PageTable, a: FrameAllocator.Allocator, regions: Regions): Outcome<(PageTable, FrameAllocator.Allocator)> {
    SetupFromAsWritten(pt, a, Pml4Index(regions.kernelBase))
  }

  /**
   * The frame `setup` hands to a missing PML4 entry is not zeroed, so
   * whatever it held is read as a PDPT: here a stale chain of present
   * entries under PML4 index 511 turns into a live mapping of the
   * address 0xFFFF_FF80_0000_0000 that did not translate before.
   */
  lemma SetupAsWrittenExposesStaleEntries()
    ensures var stale := PageTable(map[Slot(2, 511, 0, 0, 0) := Pte(0, {Present}), Slot(3, 511, 0, 0, 0) := Pte(0, {Present}), Slot(4, 511, 0, 0, 0) := Pte(0x1000, {Present})]);
      && Translate(stale, 0xFFFF_FF80_0000_0000).None?
      && var r := SetupAsWritten(stale, FrameAllocator.Allocator([Frame(0, {Free}, 0)], EmptyStats), Regions(0xFFFF_FF80_0000_0000, 0, 0, 0, 0));
         r.Done? && Translate(r.value.0, 0xFFFF_FF80_0000_0000) == Some(0x1000)
  {
    var at := 0xFFFF_FF80_0000_0000;
    var stale := PageTable(map[Slot(2, 511, 0, 0, 0) := Pte(0, {Present}), Slot(3, 511, 0, 0, 0) := Pte(0, {Present}), Slot(4, 511, 0, 0, 0) := Pte(0x1000, {Present})]);
    assert Path(at) == Slot(4, 511, 0, 0, 0);
    var a := FrameAllocator.Allocator([Frame(0, {Free}, 0)], EmptyStats);
    assert FrameAllocator.FreeCount(a.frames) == 1;
    assert Missing(stale, 511) == 1;
  }

  /**
   * One step of the loop of `setup` with the new table asked for as a
   * KERNEL, ZEROED frame, like `creat_and_fetch_pte` asks for it: a fresh
   * table has nothing below it.
   */
  function Preallocate(pt: PageTable, a: FrameAllocator.Allocator, i: nat): (r: Option<(PageTable, FrameAllocator.Allocator)>)
    ensures r.None? <==> !IsPresent(pt, Top(i)) && FrameAllocator.FreeCount(a.frames) == 0
    ensures r.Some? ==> IsPresent(r.value.0, Top(i)) && forall k: Slot :: k != Top(i) && !Below(k, Top(i)) ==> Get(r.value.0, k) == Get(pt, k)
    ensures r.Some? ==> FrameAllocator.FreeCount(r.value.1.frames) == FrameAllocator.FreeCount(a.frames) - (if IsPresent(pt, Top(i)) then 0 else 1)
    ensures r.Some? ==> forall p: Slot :: p.depth == 4 ==> Lookup(r.value.0, p) == Lookup(pt, p)
  {
    if IsPresent(pt, Top(i)) then Some((pt, a))
    else
      FrameAllocator.AllocateUsesOneFree(a, {Kernel, Zeroed});
      match FrameAllocator.Allocate(a, {Kernel, Zeroed})
      case (_, None) => None
      case (a', Some(f)) =>
        var pt' := Install(pt, Top(i), Pte(f.address, {Present, Writable}));
        forall p: Slot | p.depth == 4
          ensures Lookup(pt', p) == Lookup(pt, p)
        {
          InstallKeepsLookups(pt, Top(i), Pte(f.address, {Present, Writable}), p);
        }
        Some((pt', a'))
  }

  /** The loop of `setup` with zeroed tables, from PML4 index `i`. */
  function SetupFrom(pt: PageTable, a: FrameAllocator.Allocator, i: nat): (r: Outcome<(PageTable, FrameAllocator.Allocator)>)
    ensures r.Panic? <==> FrameAllocator.FreeCount(a.frames) < Missing(pt, i)
    ensures r.Done? ==> forall j :: i <= j < COUNT ==> IsPresent(r.value.0, Top(j))
    ensures r.Done? ==> forall j :: 0 <= j < i ==> Get(r.value.0, Top(j)) == Get(pt, Top(j))
    ensures r.Done? ==> forall p: Slot :: p.depth == 4 ==> Lookup(r.value.0, p) == Lookup(pt, p)
    decreases COUNT - i
  {
    if i >= COUNT then Done((pt, a))
    else
      match Preallocate(pt, a, i)
      case None => Panic
      case Some((pt', a')) =>
        StepKeepsCount(pt, a, pt', a', i);
        var r := SetupFrom(pt', a', i + 1);
        assert r.Done? ==> Get(r.value.0, Top(i)) == Get(pt', Top(i));
        r
  }

  /** `setup` with zeroed tables: every kernel PML4 entry is present and no translation changes. */
  function Setup(pt: PageTable, a: FrameAllocator.Allocator, regions: Regions): (r: Outcome<(PageTable, FrameAllocator.Allocator)>)
    ensures r.Panic? <==> FrameAllocator.FreeCount(a.frames) < Missing(pt, Pml4Index(regions.kernelBase))
    ensures r.Done? ==> forall j :: Pml4Index(regions.kernelBase) <= j < COUNT ==> IsPresent(r.value.0, Top(j))
    ensures r.Done? ==> forall at :: Translate(r.value.0, at) == Translate(pt, at)
  {
    var r := SetupFrom(pt, a, Pml4Index(regions.kernelBase));
    if r.Panic? then r
    else
      LookupsDecideTranslations(pt, r.value.0);
      r
  }

  /** Tables with the same last-level lookups translate every address alike. */
  lemma LookupsDecideTranslations(pt: PageTable, pt': PageTable)
    requires forall p: Slot :: p.depth == 4 ==> Lookup(pt', p) == Lookup(pt, p)
    ensures forall at :: Translate(pt', at) == Translate(pt, at)
  {
    forall at | true
      ensures Translate(pt', at) == Translate(pt, at)
    {
      assert Lookup(pt', Path(at)) == Lookup(pt, Path(at));
    }
  }
}

=== FILE: process.dfy ===
/**
 * Processes of src/sys/process.rs: the process table keyed by pid, the
 * builder that takes a fresh pid, the child list of a process and what
 * dropping a process does to its children.
 *
 * Pids come from the same kind of bitmap as thread identifiers and are
 * modelled by the `Ids` module. A process's address space is the number
 * of its root table; a child is kept as its pid and the process itself is
 * found in the table.
 */
module Processes {
  import opened Base
  import Bits
  import Ids
  import Threads

  /** The pid of init, which adopts the children of every process that goes away. */
  const INIT: nat := 1

  datatype Process = Process(pid: nat, mm: nat, threads: seq<Threads.Thread>, parent: Option<nat>, children: seq<nat>)

  /** The table of live processes. */
  type Table = map<nat, Process>

  /** The table agrees with the pid bitmap: each process is filed under its own pid, whose bit is set. */
  predicate Consistent(table: Table, pids: Ids.Bitmap) {
    && Ids.WellFormed(pids)
    && forall p :: p in table ==> table[p].pid == p && p < Ids.MAX && Ids.IsSet(pids.words, p)
  }

  /**
   * `Builder::new`: a process with a fresh pid, the given address space
   * and no thread, parent or child. The `unwrap` on `generate` panics when
   * every pid is taken.
   */
  function NewBuilder(pids: Ids.Bitmap, mm: nat): (r: Outcome<(Ids.Bitmap, Process)>)
    requires Ids.Inv(pids)
    ensures r.Panic? <==> pids.used + 1 >= Ids.MAX
    ensures r.Done? ==>
      var (pids', p) := r.value;
      && Ids.Inv(pids') && p == Process(p.pid, mm, [], None, [])
      && p.pid < Ids.MAX && !Ids.IsSet(pids.words, p.pid) && Ids.IsSet(pids'.words, p.pid)
      && (forall u: nat :: u < Ids.MAX && u != p.pid ==> (Ids.IsSet(pids'.words, u) <==> Ids.IsSet(pids.words, u)))
  {
    Ids.GenerateKeepsInv(pids);
    var (pids', pid) := Ids.Generate(pids);
    if pid.None? then Panic
    else Done((pids', Process(pid.value, mm, [], None, [])))
  }

  /**
   * `Builder::new` as written: `generate` hands out the bitmap word holding
   * the claimed bit instead of the pid, so the process is filed under that
   * word's value. The bitmap changes as with `NewBuilder`.
   */
  function NewBuilderAsWritten(pids: Ids.Bitmap, mm: nat): (r: Outcome<(Ids.Bitmap, Process)>)
    requires Ids.WellFormed(pids) && (pids.used + 1 < Ids.MAX ==> Ids.HasFree(pids.words))
    ensures r.Panic? <==> pids.used + 1 >= Ids.MAX
    ensures r.Done? ==>
      var (pids', p) := r.value;
      && pids' == Ids.Generate(pids).0 && p == Process(p.pid, mm, [], None, [])
      && Ids.IsSet(pids'.words, Ids.Generate(pids).1.value) && !Ids.IsSet(pids.words, Ids.Generate(pids).1.value)
      && p.pid == Bits.Value(pids'.words[Ids.Generate(pids).1.value / 8])
  {
    var (pids', pid) := Ids.GenerateAsWritten(pids);
    if pid.None? then Panic
    else Done((pids', Process(pid.value, mm, [], None, [])))
  }

  /**
   * Pids handed out as written repeat: with bits 1 to 7 of the first two
   * words set, two builders in a row both get pid 255, so building the
   * second files it over the first, which leaves the table.
   */
  lemma NewBuilderAsWrittenRepeatsPid(table: Table, mm1: nat, mm2: nat)
    requires mm1 != mm2 && forall k :: k in table ==> table[k].pid == k
    ensures Ids.HasFree(Ids.TwoWords())
    ensures var b := Ids.Bitmap(Ids.TwoWords(), 0, 14);
      && NewBuilderAsWritten(b, mm1).Done?
      && var (b1, p1) := NewBuilderAsWritten(b, mm1).value;
         && Ids.WellFormed(b1) && Ids.HasFree(b1.words)
         && NewBuilderAsWritten(b1, mm2).Done?
         && var (b2, p2) := NewBuilderAsWritten(b1, mm2).value;
            && p1.pid == 255 && p2.pid == 255
            && Find(Build(Build(table, p1).0, p2).0, 255) == Some(p2)
            && forall q :: q in Build(Build(table, p1).0, p2).0.Values ==> q != p1
  {
    Ids.GenerateAsWrittenRepeats();
    var b := Ids.Bitmap(Ids.TwoWords(), 0, 14);
    var (b1, p1) := NewBuilderAsWritten(b, mm1).value;
    var (b2, p2) := NewBuilderAsWritten(b1, mm2).value;
    SamePidOverwrites(table, p1, p2);
  }

  /** Building a second process under the pid of the first leaves only the second. */
  lemma SamePidOverwrites(table: Table, p1: Process, p2: Process)
    requires p1.pid == p2.pid && p1 != p2 && forall k :: k in table ==> table[k].pid == k
    ensures Find(Build(Build(table, p1).0, p2).0, p1.pid) == Some(p2)
    ensures forall q :: q in Build(Build(table, p1).0, p2).0.Values ==> q != p1
  {
    var t := Build(Build(table, p1).0, p2).0;
    forall q | q in t.Values
      ensures q != p1
    {
      var k :| k in t && t[k] == q;
      if k != p1.pid {
        assert q == table[k];
      }
    }
  }

  /** `add_threads` and `add_thread` of the builder, and `add_thread` of a process: threads go at the end. */
  function AppendThreads(p: Process, ts: seq<Threads.Thread>): (r: Process)
    ensures |r.threads| == |p.threads| + |ts|
    ensures r.threads[..|p.threads|] == p.threads && r.threads[|p.threads|..] == ts
    ensures r.(threads := p.threads) == p
  {
    p.(threads := p.threads + ts)
  }

  /** `find`: the process filed under `pid`, if any. */
  function Find(table: Table, pid: nat): (r: Option<Process>)
    ensures r.Some? <==> pid in table
    ensures r.Some? ==> r.value == table[pid]
  {
    if pid in table then Some(table[pid]) else None
  }

  /** `exists`. */
  predicate Exists(table: Table, pid: nat) {
    Find(table, pid).Some?
  }

  /** `Builder::build`: files the process under its pid and hands the pid back. */
  function Build(table: Table, p: Process): (r: (Table, nat))
    ensures r.1 == p.pid
    ensures Find(r.0, p.pid) == Some(p)
    ensures forall q :: q != p.pid ==> Find(r.0, q) == Find(table, q)
  {
    (table[p.pid := p], p.pid)
  }

  /** `delete`: the process under `pid` leaves the table; nothing happens when there is none. */
  function Delete(table: Table, pid: nat): (r: Table)
    ensures !Exists(r, pid)
    ensures forall q :: q != pid ==> Find(r, q) == Find(table, q)
    ensures !Exists(table, pid) ==> r == table
  {
    table - {pid}
  }

  /**
   * A process built from a fresh builder never takes the place of a live
   * one, and the table stays consistent with the bitmap.
   */
  lemma BuildKeepsConsistent(table: Table, pids: Ids.Bitmap, mm: nat)
    requires Ids.Inv(pids) && Consistent(table, pids)
    requires NewBuilder(pids, mm).Done?
    ensures var (pids', p) := NewBuilder(pids, mm).value;
      && !Exists(table, p.pid)
      && Consistent(Build(table, p).0, pids')
      && Exists(Build(table, p).0, p.pid)
  {
    var (pids', p) := NewBuilder(pids, mm).value;
    if p.pid in table {
      assert false;
    }
  }

  /** Deleting a process keeps the table consistent with the bitmap. */
  lemma DeleteKeepsConsistent(table: Table, pids: Ids.Bitmap, pid: nat)
    requires Consistent(table, pids)
    ensures Consistent(Delete(table, pid), pids)
  {
    forall q | q in Delete(table, pid)
      ensures Delete(table, pid)[q] == table[q]
    {
      assert Find(Delete(table, pid), q) == Find(table, q);
    }
  }

  /** `add_child`: the `unwrap` on `find` panics unless the child is in the table; the child goes last. */
  function AddChild(table: Table, p: Process, child: nat): (r: Outcome<Process>)
    ensures r.Panic? <==> !Exists(table, child)
    ensures r.Done? ==> r.value.children == p.children + [child] && r.value.(children := p.children) == p
  {
    if child !in table then Panic else Done(p.(children := p.children + [child]))
  }

  /** `s` without any occurrence of `x`, the rest in order. */
  function Without(s: seq<nat>, x: nat): (r: seq<nat>)
    ensures x !in r
    ensures forall y :: y != x ==> multiset(r)[y] == multiset(s)[y]
    ensures |r| <= |s|
  {
    if s == [] then []
    else
      assert s == [s[0]] + s[1..];
      if s[0] == x then Without(s[1..], x) else [s[0]] + Without(s[1..], x)
  }

  /** Removing an element keeps the order of the rest: it distributes over concatenation. */
  lemma {:induction false} WithoutConcat(a: seq<nat>, b: seq<nat>, x: nat)
    ensures Without(a + b, x) == Without(a, x) + Without(b, x)
  {
    if a != [] {
      assert (a + b)[1..] == a[1..] + b;
      WithoutConcat(a[1..], b, x);
    } else {
      assert a + b == b;
    }
  }

  /** A list without `x` comes back unchanged. */
  lemma {:induction false} WithoutAbsent(s: seq<nat>, x: nat)
    requires x !in s
    ensures Without(s, x) == s
  {
    if s != [] {
      WithoutAbsent(s[1..], x);
    }
  }

  /** `remove_child`: every child with that pid goes, the others stay in order. */
  function RemoveChild(p: Process, child: nat): (r: Process)
    ensures child !in r.children
    ensures forall c :: c != child ==> multiset(r.children)[c] == multiset(p.children)[c]
    ensures r.(children := p.children) == p
  {
    p.(children := Without(p.children, child))
  }

  /** Where `x` first occurs in `s`. */
  function FirstIndex(s: seq<nat>, x: nat): (r: Option<nat>)
    ensures r.None? <==> x !in s
    ensures r.Some? ==> r.value < |s| && s[r.value] == x && forall j :: 0 <= j < r.value ==> s[j] != x
  {
    if s == [] then None
    else if s[0] == x then Some(0)
    else
      match FirstIndex(s[1..], x)
      case None => None
      case Some(i) => Some(i + 1)
  }

  /** `child`: the position of the first child with that pid, or `None` when there is none. */
  function Child(p: Process, pid: nat): (r: Option<nat>)
    ensures r.None? <==> pid !in p.children
    ensures r.Some? ==> r.value < |p.children| && p.children[r.value] == pid
    ensures r.Some? ==> forall j :: 0 <= j < r.value ==> p.children[j] != pid
  {
    FirstIndex(p.children, pid)
  }

  /** A child that was added is found: first among equals if it was already there, else at the end. */
  lemma AddChildThenChild(table: Table, p: Process, child: nat)
    requires AddChild(table, p, child).Done?
    ensures var q := AddChild(table, p, child).value;
      && Child(q, child).Some?
      && (child !in p.children ==> Child(q, child) == Some(|p.children|))
      && (child in p.children ==> Child(q, child) == Child(p, child))
  {
    var q := AddChild(table, p, child).value;
    var i := Child(q, child).value;
    if child !in p.children {
      assert q.children[|p.children|] == child;
      if i < |p.children| {
        assert false;
      }
    } else {
      var k := Child(p, child).value;
      assert q.children[k] == child;
    }
  }

  /** A removed child is not found any more. */
  lemma RemoveChildThenChild(p: Process, child: nat)
    ensures Child(RemoveChild(p, child), child).None?
    ensures forall c :: c != child && c in p.children ==> Child(RemoveChild(p, child), c).Some?
  {
    forall c | c != child && c in p.children
      ensures c in RemoveChild(p, child).children
    {
      assert multiset(p.children)[c] > 0;
    }
  }

  /** One turn of the loop of `Drop`: init takes `c` as its last child and `c` takes init as its parent. */
  function AdoptOne(table: Table, c: nat): (r: Table)
    requires INIT in table && c in table
    ensures r.Keys == table.Keys
    ensures r[INIT].children == table[INIT].children + [c]
    ensures r[c].parent == Some(INIT)
    ensures forall k :: k in table && k != c && k != INIT ==> r[k] == table[k]
    ensures forall k :: k in table && k != c ==> r[k].parent == table[k].parent
    ensures forall k :: k in table && k != INIT ==> r[k].children == table[k].children
    ensures forall k :: k in table ==> r[k].pid == table[k].pid && r[k].mm == table[k].mm && r[k].threads == table[k].threads
  {
    var init := table[INIT];
    var t1 := table[INIT := init.(children := init.children + [c])];
    t1[c := t1[c].(parent := Some(INIT))]
  }

  /**
   * The loop of `Drop`: each orphan in turn is adopted by init. Adding it
   * to init's children looks it up in the table first, and the `unwrap`
   * panics when it is not there.
   */
  function Adopt(table: Table, orphans: seq<nat>): (r: Outcome<Table>)
    requires INIT in table
    ensures r.Done? <==> forall c :: c in orphans ==> c in table
    ensures r.Done? ==> r.value.Keys == table.Keys && INIT in r.value
    ensures r.Done? ==> r.value[INIT].children == table[INIT].children + orphans
    ensures r.Done? ==> forall c :: c in orphans ==> r.value[c].parent == Some(INIT)
    ensures r.Done? ==> forall k :: k in table && k !in orphans && k != INIT ==> r.value[k] == table[k]
    ensures r.Done? ==> forall k :: k in table && k !in orphans ==> r.value[k].parent == table[k].parent
    ensures r.Done? ==> forall k :: k in table && k != INIT ==> r.value[k].children == table[k].children
    ensures r.Done? ==> forall k :: k in table ==>
      r.value[k].pid == table[k].pid && r.value[k].mm == table[k].mm && r.value[k].threads == table[k].threads
    decreases |orphans|
  {
    if orphans == [] then Done(table)
    else
      var c := orphans[0];
      if c !in table then Panic
      else
        assert orphans == [c] + orphans[1..];
        Adopt(AdoptOne(table, c), orphans[1..])
  }

  /**
   * Dropping a process: init (pid 1) must be in the table, its children
   * are adopted by init, and the pid is given back. `Pid::release` leaves
   * the bitmap's counter as it is; here it is decremented, as the counter
   * is meant to count the pids in use.
   */
  function Drop(table: Table, pids: Ids.Bitmap, p: Process): (r: Outcome<(Table, Ids.Bitmap)>)
    requires Ids.Inv(pids)
    ensures r.Done? <==> INIT in table && (forall c :: c in p.children ==> c in table) && p.pid < Ids.MAX
    ensures r.Done? ==>
      var (t, pids') := r.value;
      && t.Keys == table.Keys
      && t[INIT].children == table[INIT].children + p.children
      && (forall c :: c in p.children ==> t[c].parent == Some(INIT))
      && (forall k :: k in table && k !in p.children && k != INIT ==> t[k] == table[k])
    ensures r.Done? ==>
      var pids' := r.value.1;
      && Ids.Inv(pids') && !Ids.IsSet(pids'.words, p.pid)
      && (forall u: nat :: u < Ids.MAX && u != p.pid ==> (Ids.IsSet(pids'.words, u) <==> Ids.IsSet(pids.words, u)))
  {
    if INIT !in table then Panic
    else
      match Adopt(table, p.children)
      case Panic => Panic
      case Done(t) =>
        match Ids.Release(pids, p.pid)
        case Panic => Panic
        case Done(pids') => Done((t, pids'))
  }

  /** Dropping a process that has left the table keeps the table consistent with the bitmap. */
  lemma DropKeepsConsistent(table: Table, pids: Ids.Bitmap, p: Process)
    requires Ids.Inv(pids) && Consistent(table, pids) && !Exists(table, p.pid)
    requires Drop(table, pids, p).Done?
    ensures Consistent(Drop(table, pids, p).value.0, Drop(table, pids, p).value.1)
  {
    var t := Adopt(table, p.children).value;
    forall k | k in t
      ensures t[k].pid == k && k < Ids.MAX && Ids.IsSet(Drop(table, pids, p).value.1.words, k)
    {
      assert k != p.pid;
    }
  }

  /**
   * `Drop` as written: the children go to init as in `Drop`, and
   * `Pid::release` clears the pid's bit but leaves the counter as it was.
   */
  function DropAsWritten(table: Table, pids: Ids.Bitmap, p: Process): (r: Outcome<(Table, Ids.Bitmap)>)
    requires Ids.WellFormed(pids)
    ensures r.Done? <==> INIT in table && (forall c :: c in p.children ==> c in table) && p.pid < Ids.MAX
    ensures r.Done? ==> r.value.0 == Adopt(table, p.children).value
    ensures r.Done? ==>
      var pids' := r.value.1;
      && Ids.WellFormed(pids') && pids'.used == pids.used && !Ids.IsSet(pids'.words, p.pid)
      && (forall u: nat :: u < Ids.MAX && u != p.pid ==> (Ids.IsSet(pids'.words, u) <==> Ids.IsSet(pids.words, u)))
  {
    if INIT !in table then Panic
    else
      match Adopt(table, p.children)
      case Panic => Panic
      case Done(t) =>
        match Ids.ReleaseAsWritten(pids, p.pid)
        case Panic => Panic
        case Done(pids') => Done((t, pids'))
  }

  /**
   * Building and dropping a process as written loses its pid for good:
   * the process filed under 255 gives back bit 255, never claimed, while
   * the claimed bit 0 stays set and the counter stays one higher.
   */
  lemma DropAsWrittenLeaksPid(table: Table, mm: nat)
    requires INIT in table
    ensures Ids.HasFree(Ids.TwoWords())
    ensures var b := Ids.Bitmap(Ids.TwoWords(), 0, 14);
      && NewBuilderAsWritten(b, mm).Done?
      && var (b1, p) := NewBuilderAsWritten(b, mm).value;
         && DropAsWritten(table, b1, p).Done?
         && var b2 := DropAsWritten(table, b1, p).value.1;
            && !Ids.IsSet(b.words, 0) && Ids.IsSet(b2.words, 0)
            && b2.used == b.used + 1
  {
    Ids.GenerateAsWrittenRepeats();
    assert !Ids.IsSet(Ids.TwoWords(), 0);
  }
}

=== FILE: regions.dfy ===
/**
 * The fixed regions of the kernel's virtual address space. Their values
 * live in files outside this model, so every operation that depends on
 * them takes the regions as a parameter.
 */
module Regions {

  datatype Regions = Regions(
    /** The pml4 entries from the one covering this address upward belong to the kernel. */
    kernelBase: nat,
    heapStart: nat, heapEnd: nat,
    vmallocStart: nat, vmallocEnd: nat)

  predicate InHeap(r: Regions, address: nat) {
    r.heapStart <= address < r.heapEnd
  }

  predicate InVmalloc(r: Regions, address: nat) {
    r.vmallocStart <= address < r.vmallocEnd
  }
}

=== FILE: round_robin.dfy ===
/**
 * The round-robin scheduler of src/sys/schedule/round_robin.rs.
 *
 * The run list holds shared handles to threads, so a state change made
 * through the list is seen by every other holder. The model keeps the
 * threads in a store keyed by thread identifier and the run list as
 * identifiers with their remaining quantum. Whether a thread has the idle
 * priority is given by the set `idle` of identifiers.
 */
module RoundRobin {
  import opened Base
  import Threads

  /** The quantum a thread gets when it is added and when quanta are redistributed. */
  const QUANTUM: nat := 20

  datatype Info = Info(tid: nat, quantum: nat)

  /** Every thread handle of the system, by identifier. */
  type Store = map<nat, Threads.Thread>

  type RunList = seq<Info>

  /** No quantum in the list exceeds `QUANTUM`. */
  predicate Bounded(list: RunList) {
    forall i :: 0 <= i < |list| ==> list[i].quantum <= QUANTUM
  }

  /** `pick_next` may take this entry: quantum left, not idle, and ready. */
  predicate Eligible(store: Store, idle: set<nat>, e: Info) {
    e.quantum > 0 && e.tid !in idle && e.tid in store && store[e.tid].state == Threads.Ready
  }

  /** `pick_idle` may take this entry: idle and ready. */
  predicate IdleReady(store: Store, idle: set<nat>, e: Info) {
    e.tid in idle && e.tid in store && store[e.tid].state == Threads.Ready
  }

  /** The first entry from `from` on that `pick_next` may take. */
  function FirstEligible(list: RunList, store: Store, idle: set<nat>, from: nat): (r: Option<nat>)
    requires from <= |list|
    ensures r.None? ==> forall k :: from <= k < |list| ==> !Eligible(store, idle, list[k])
    ensures r.Some? ==> from <= r.value < |list| && Eligible(store, idle, list[r.value])
    ensures r.Some? ==> forall k :: from <= k < r.value ==> !Eligible(store, idle, list[k])
    decreases |list| - from
  {
    if from == |list| then None
    else if Eligible(store, idle, list[from]) then Some(from)
    else FirstEligible(list, store, idle, from + 1)
  }

  /** The first entry from `from` on that `pick_idle` may take. */
  function FirstIdle(list: RunList, store: Store, idle: set<nat>, from: nat): (r: Option<nat>)
    requires from <= |list|
    ensures r.None? ==> forall k :: from <= k < |list| ==> !IdleReady(store, idle, list[k])
    ensures r.Some? ==> from <= r.value < |list| && IdleReady(store, idle, list[r.value])
    ensures r.Some? ==> forall k :: from <= k < r.value ==> !IdleReady(store, idle, list[k])
    decreases |list| - from
  {
    if from == |list| then None
    else if IdleReady(store, idle, list[from]) then Some(from)
    else FirstIdle(list, store, idle, from + 1)
  }

  /** The thread `tid` made `Running`; every other thread is untouched. */
  function Run(store: Store, tid: nat): (r: Store)
    requires tid in store
    ensures r.Keys == store.Keys && r[tid].state == Threads.Running
    ensures r[tid].(state := store[tid].state) == store[tid]
    ensures forall k :: k in store && k != tid ==> r[k] == store[k]
  {
    store[tid := store[tid].(state := Threads.Running)]
  }

  /**
   * `pick_next`: the first entry in list order with quantum left, not
   * idle and ready becomes `Running`, and its position is returned.
   */
  function PickNext(list: RunList, store: Store, idle: set<nat>): (r: (Store, Option<nat>))
    ensures r.1.None? <==> forall k :: 0 <= k < |list| ==> !Eligible(store, idle, list[k])
    ensures r.1.None? ==> r.0 == store
    ensures r.1.Some? ==>
      var i := r.1.value;
      && i < |list| && Eligible(store, idle, list[i])
      && (forall k :: 0 <= k < i ==> !Eligible(store, idle, list[k]))
      && r.0.Keys == store.Keys && r.0[list[i].tid].state == Threads.Running
      && r.0[list[i].tid].(state := Threads.Ready) == store[list[i].tid]
      && (forall t :: t in store && t != list[i].tid ==> r.0[t] == store[t])
  {
    match FirstEligible(list, store, idle, 0)
    case None => (store, None)
    case Some(i) => (Run(store, list[i].tid), Some(i))
  }

  /** `pick_idle`: the first idle, ready entry becomes `Running`; the `unwrap` panics when there is none. */
  function PickIdle(list: RunList, store: Store, idle: set<nat>): (r: Outcome<(Store, nat)>)
    ensures r.Panic? <==> forall k :: 0 <= k < |list| ==> !IdleReady(store, idle, list[k])
    ensures r.Done? ==>
      var i := r.value.1;
      && i < |list| && IdleReady(store, idle, list[i])
      && (forall k :: 0 <= k < i ==> !IdleReady(store, idle, list[k]))
      && r.value.0.Keys == store.Keys && r.value.0[list[i].tid].state == Threads.Running
      && r.value.0[list[i].tid].(state := Threads.Ready) == store[list[i].tid]
      && (forall t :: t in store && t != list[i].tid ==> r.value.0[t] == store[t])
  {
    match FirstIdle(list, store, idle, 0)
    case None => Panic
    case Some(i) => Done((Run(store, list[i].tid), i))
  }

  /** `add_thread`: the thread is made `Ready` and goes last in the list with a full quantum. */
  function AddThread(list: RunList, store: Store, t: Threads.Thread): (r: (RunList, Store))
    ensures r.0 == list + [Info(t.tid, QUANTUM)]
    ensures r.1.Keys == store.Keys + {t.tid} && r.1[t.tid].state == Threads.Ready
    ensures r.1[t.tid].(state := t.state) == t
    ensures forall k :: k in store && k != t.tid ==> r.1[k] == store[k]
    ensures Bounded(list) ==> Bounded(r.0)
  {
    (list + [Info(t.tid, QUANTUM)], store[t.tid := t.(state := Threads.Ready)])
  }

  /** `list` without the entries of `tid`, the others in order. */
  function Without(list: RunList, tid: nat): (r: RunList)
    ensures forall i :: 0 <= i < |r| ==> r[i].tid != tid
    ensures forall e: Info :: e.tid != tid ==> multiset(r)[e] == multiset(list)[e]
    ensures Bounded(list) ==> Bounded(r)
  {
    if list == [] then []
    else
      assert list == [list[0]] + list[1..];
      if list[0].tid == tid then Without(list[1..], tid) else [list[0]] + Without(list[1..], tid)
  }

  /** Removing entries keeps the order of the rest: it distributes over concatenation. */
  lemma {:induction false} WithoutConcat(a: RunList, b: RunList, tid: nat)
    ensures Without(a + b, tid) == Without(a, tid) + Without(b, tid)
  {
    if a == [] {
      assert a + b == b;
    } else {
      var ab := a + b;
      assert ab[0] == a[0] && ab[1..] == a[1..] + b;
      WithoutConcat(a[1..], b, tid);
      if a[0].tid == tid {
        calc {
          Without(ab, tid);
          Without(a[1..] + b, tid);
          Without(a[1..], tid) + Without(b, tid);
        }
      } else {
        calc {
          Without(ab, tid);
          [a[0]] + Without(a[1..] + b, tid);
          [a[0]] + (Without(a[1..], tid) + Without(b, tid));
          ([a[0]] + Without(a[1..], tid)) + Without(b, tid);
        }
      }
    }
  }

  /** `tid` has an entry in the list. */
  predicate Listed(list: RunList, tid: nat) {
    exists i :: 0 <= i < |list| && list[i].tid == tid
  }

  /**
   * `remove_thread`: every entry of `tid` leaves the list, which panics
   * when that thread is `Running`.
   */
  function RemoveThread(list: RunList, store: Store, tid: nat): (r: Outcome<RunList>)
    ensures r.Panic? <==> Listed(list, tid) && tid in store && store[tid].state == Threads.Running
    ensures r.Done? ==> !Listed(r.value, tid)
    ensures r.Done? ==> forall e: Info :: e.tid != tid ==> multiset(r.value)[e] == multiset(list)[e]
    ensures r.Done? && !Listed(list, tid) ==> r.value == list
  {
    if Listed(list, tid) && tid in store && store[tid].state == Threads.Running then Panic
    else
      if !Listed(list, tid) then WithoutAbsent(list, tid); Done(Without(list, tid))
      else Done(Without(list, tid))
  }

  /** A list without entries of `tid` comes back unchanged. */
  lemma {:induction false} WithoutAbsent(list: RunList, tid: nat)
    requires !Listed(list, tid)
    ensures Without(list, tid) == list
  {
    if list != [] {
      assert !Listed(list[1..], tid) by {
        forall i | 0 <= i < |list[1..]|
          ensures list[1..][i].tid != tid
        {
          assert list[1..][i] == list[i + 1];
        }
      }
      WithoutAbsent(list[1..], tid);
    }
  }

  /** `redistribute`: every entry that is not idle gets a full quantum again; idle entries keep theirs. */
  function Redistribute(list: RunList, idle: set<nat>): (r: RunList)
    ensures |r| == |list|
    ensures forall i :: 0 <= i < |list| ==> r[i].tid == list[i].tid
    ensures forall i :: 0 <= i < |list| ==> r[i].quantum == if list[i].tid in idle then list[i].quantum else QUANTUM
  {
    seq(|list|, i requires 0 <= i < |list| => if list[i].tid in idle then list[i] else list[i].(quantum := QUANTUM))
  }

  /** Redistributing keeps every quantum within bounds. */
  lemma RedistributeBounded(list: RunList, idle: set<nat>)
    requires Bounded(list)
    ensures Bounded(Redistribute(list, idle))
  {
  }

  /** After a redistribution `pick_next` only fails when no thread that is not idle is ready. */
  lemma RedistributeThenPickNext(list: RunList, store: Store, idle: set<nat>)
    ensures PickNext(Redistribute(list, idle), store, idle).1.None? <==>
      forall k :: 0 <= k < |list| ==> !(list[k].tid !in idle && list[k].tid in store && store[list[k].tid].state == Threads.Ready)
  {
    var r := Redistribute(list, idle);
    if PickNext(r, store, idle).1.None? {
      forall k | 0 <= k < |list|
        ensures !(list[k].tid !in idle && list[k].tid in store && store[list[k].tid].state == Threads.Ready)
      {
        assert !Eligible(store, idle, r[k]);
      }
    }
  }

  /** The first entry of `tid`. */
  function Find(list: RunList, tid: nat): (r: Option<nat>)
    ensures r.None? <==> !Listed(list, tid)
    ensures r.Some? ==> r.value < |list| && list[r.value].tid == tid
    ensures r.Some? ==> forall k :: 0 <= k < r.value ==> list[k].tid != tid
  {
    if list == [] then None
    else if list[0].tid == tid then Some(0)
    else
      match Find(list[1..], tid)
      case None =>
        assert forall i :: 1 <= i < |list| ==> list[i] == list[1..][i - 1];
        None
      case Some(i) => Some(i + 1)
  }

  /**
   * `timer_tick`: the first entry of the current thread loses one unit of
   * quantum, or, when it has none left, the thread is asked to
   * reschedule. The `unwrap` panics when the current thread is not in the
   * list.
   */
  function TimerTick(list: RunList, store: Store, current: nat): (r: Outcome<(RunList, Store)>)
    requires current in store
    ensures r.Panic? <==> !Listed(list, current)
    ensures r.Done? ==>
      var (list', store') := r.value;
      var i := Find(list, current).value;
      && |list'| == |list| && store'.Keys == store.Keys
      && (forall k :: 0 <= k < |list| && k != i ==> list'[k] == list[k])
      && list'[i].tid == current
      && (list[i].quantum == 0 ==>
            && list' == list && Threads.NeedRescheduling(store'[current])
            && store'[current].(needRescheduling := store[current].needRescheduling) == store[current])
      && (list[i].quantum > 0 ==> list'[i].quantum + 1 == list[i].quantum && store' == store)
      && (forall k :: k in store && k != current ==> store'[k] == store[k])
    ensures r.Done? && Bounded(list) ==> Bounded(r.value.0)
  {
    match Find(list, current)
    case None => Panic
    case Some(i) =>
      if list[i].quantum == 0 then Done((list, store[current := Threads.SetNeedRescheduling(store[current])]))
      else Done((list[i := list[i].(quantum := list[i].quantum - 1)], store))
  }

  /** Ticks add nothing: the quanta of the list only go down, by one in all per tick. */
  function Total(list: RunList): nat {
    if list == [] then 0 else list[0].quantum + Total(list[1..])
  }

  /** Lowering one quantum by one lowers the total by one. */
  lemma {:induction false} TotalDecrement(list: RunList, i: nat)
    requires i < |list| && list[i].quantum > 0
    ensures Total(list[i := list[i].(quantum := list[i].quantum - 1)]) + 1 == Total(list)
  {
    var l' := list[i := list[i].(quantum := list[i].quantum - 1)];
    if i > 0 {
      assert l'[1..] == list[1..][i - 1 := list[i].(quantum := list[i].quantum - 1)];
      TotalDecrement(list[1..], i - 1);
    } else {
      assert l'[1..] == list[1..];
    }
  }

  /** A tick that does not ask for rescheduling uses up one unit of the list's total quantum. */
  lemma TimerTickUsesQuantum(list: RunList, store: Store, current: nat)
    requires current in store && TimerTick(list, store, current).Done?
    ensures var (list', store') := TimerTick(list, store, current).value;
      Threads.NeedRescheduling(store'[current]) || Total(list') + 1 == Total(list)
  {
    var i := Find(list, current).value;
    if list[i].quantum > 0 {
      TotalDecrement(list, i);
    }
  }
}

=== FILE: schedule.dfy ===
/**
 * The scheduling step of src/sys/schedule/mod.rs: the default `schedule`
 * of the scheduler interface, run on the round-robin scheduler.
 *
 * The current thread is given by its identifier and the active page
 * table by the number of its root. The context switch itself is left
 * out; the step ends with the identifier of the thread to switch to.
 */
module Schedule {
  import opened Base
  import Threads
  import opened RoundRobin

  /** What a scheduling step leaves behind. */
  datatype Step = Step(list: RunList, store: Store, current: nat, table: nat)

  /** `pick_next`, and when that finds nothing, `redistribute` and `pick_next` again. */
  function PickOrRedistribute(list: RunList, store: Store, idle: set<nat>): (r: (RunList, Store, Option<nat>))
    ensures r.2.None? <==>
      forall k :: 0 <= k < |list| ==> !(list[k].tid !in idle && list[k].tid in store && store[list[k].tid].state == Threads.Ready)
    ensures r.0 == list || r.0 == Redistribute(list, idle)
    ensures (exists k :: 0 <= k < |list| && Eligible(store, idle, list[k])) ==> r.0 == list && r == (list, PickNext(list, store, idle).0, PickNext(list, store, idle).1)
    ensures r.2.None? ==> r.1 == store
    ensures r.2.Some? ==>
      var i := r.2.value;
      && i < |r.0| && Eligible(store, idle, r.0[i])
      && r.1.Keys == store.Keys && r.1[r.0[i].tid].state == Threads.Running
      && r.1[r.0[i].tid].(state := Threads.Ready) == store[r.0[i].tid]
      && (forall t :: t in store && t != r.0[i].tid ==> r.1[t] == store[t])
  {
    var (store1, next) := PickNext(list, store, idle);
    if next.Some? then (list, store1, next)
    else
      RedistributeThenPickNext(list, store, idle);
      var list2 := Redistribute(list, idle);
      var (store2, next2) := PickNext(list2, store, idle);
      (list2, store2, next2)
  }

  /**
   * `schedule`: the current thread's rescheduling flag is cleared and the
   * next thread is picked; the `unwrap` panics when there is none even
   * after redistribution. When the next thread is not the current one, a
   * running current thread becomes ready, the page table of the next
   * thread is made active if it has one, and the next thread becomes
   * current.
   */
  function Reschedule(list: RunList, store: Store, idle: set<nat>, current: nat, table: nat): (r: Outcome<Step>)
    requires current in store
    ensures r.Panic? <==>
      forall k :: 0 <= k < |list| ==> !(list[k].tid !in idle && list[k].tid in store && store[list[k].tid].state == Threads.Ready)
    ensures r.Done? ==> r.value.store.Keys == store.Keys && !Threads.NeedRescheduling(r.value.store[current])
    ensures r.Done? ==> r.value.list == list || r.value.list == Redistribute(list, idle)
    ensures r.Done? && Bounded(list) ==> Bounded(r.value.list)
  {
    var store1 := store[current := Threads.ClearNeedRescheduling(store[current])];
    assert forall k :: k in store ==> store1[k].state == store[k].state && store1[k].mm == store[k].mm;
    var (list2, store2, next) := PickOrRedistribute(list, store1, idle);
    match next
    case None => Panic
    case Some(i) =>
      var n := list2[i].tid;
      if n == current then Done(Step(list2, store2, current, table))
      else
        var store3 :=
          if store2[current].state == Threads.Running then store2[current := store2[current].(state := Threads.Ready)]
          else store2;
        Done(Step(list2, store3, n, if store3[n].mm.Some? then store3[n].mm.value else table))
  }

  /**
   * The thread switched to is a ready thread that is not idle, now
   * running. When it is the current thread, the page table and every other
   * thread stay as they were; otherwise a running current thread becomes
   * ready, the next thread's page table, if it has one, becomes active,
   * and no third thread changes.
   */
  lemma RescheduleSwitches(list: RunList, store: Store, idle: set<nat>, current: nat, table: nat)
    requires current in store && Reschedule(list, store, idle, current, table).Done?
    ensures var s := Reschedule(list, store, idle, current, table).value;
      && s.current in store && s.current !in idle && s.store[s.current].state == Threads.Running
      && (s.current != current ==> store[s.current].state == Threads.Ready)
      && (exists k :: 0 <= k < |s.list| && s.list[k].tid == s.current)
    ensures var s := Reschedule(list, store, idle, current, table).value;
      s.current == current ==>
        && s.table == table
        && (forall t :: t in store && t != current ==> s.store[t] == store[t])
    ensures var s := Reschedule(list, store, idle, current, table).value;
      s.current != current ==>
        && s.store[current].state == (if store[current].state == Threads.Running then Threads.Ready else store[current].state)
        && s.table == (if store[s.current].mm.Some? then store[s.current].mm.value else table)
        && (forall t :: t in store && t != current && t != s.current ==> s.store[t] == store[t])
  {
    var store1 := store[current := Threads.ClearNeedRescheduling(store[current])];
    assert forall k :: k in store ==> store1[k].state == store[k].state && store1[k].mm == store[k].mm;
    var (list2, store2, next) := PickOrRedistribute(list, store1, idle);
    var i := next.value;
    assert list2[i].tid in store;
  }

  /**
   * While some thread that is not idle is ready and has quantum left, the
   * step takes the first of them in list order and leaves the quanta as
   * they are.
   */
  lemma StepPicksFirstEligible(list: RunList, store: Store, idle: set<nat>, current: nat, table: nat, i: nat)
    requires current in store
    requires i < |list| && Eligible(store, idle, list[i]) && forall k :: 0 <= k < i ==> !Eligible(store, idle, list[k])
    ensures Reschedule(list, store, idle, current, table).Done?
    ensures Reschedule(list, store, idle, current, table).value.list == list
    ensures Reschedule(list, store, idle, current, table).value.current == list[i].tid
  {
    var store1 := store[current := Threads.ClearNeedRescheduling(store[current])];
    assert forall k :: 0 <= k < |list| ==> (Eligible(store1, idle, list[k]) <==> Eligible(store, idle, list[k]));
    assert Eligible(store1, idle, list[i]);
    var (s, n) := PickNext(list, store1, idle);
    assert n == Some(i) by {
      if n.value < i {
        assert false;
      } else if n.value > i {
        assert false;
      }
    }
  }
}

=== FILE: sorted_map.dfy ===
/**
 * An ordered map with natural keys, as a strictly increasing association
 * list. It stands for the `BTreeMap`s of the vmalloc allocator, whose
 * in-order iteration the allocator relies on.
 */
module SortedMap {
  import opened Base

  type SortedMap<V> = seq<(nat, V)>

  predicate Sorted<V>(m: SortedMap<V>) {
    forall i, j :: 0 <= i < j < |m| ==> m[i].0 < m[j].0
  }

  /** The value stored under `k`, if any. */
  function Get<V>(m: SortedMap<V>, k: nat): Option<V> {
    if m == [] then None
    else if m[0].0 == k then Some(m[0].1)
    else Get(m[1..], k)
  }

  /** `insert`: replaces the value of an existing key, or adds the key in order. */
  function Insert<V>(m: SortedMap<V>, k: nat, v: V): (r: SortedMap<V>)
    requires Sorted(m)
    ensures Sorted(r)
    ensures Get(r, k) == Some(v)
    ensures forall k' :: k' != k ==> Get(r, k') == Get(m, k')
    ensures forall i :: 0 <= i < |r| ==> r[i].0 == k || (m != [] && m[0].0 <= r[i].0)
    decreases |m|
  {
    if m == [] then [(k, v)]
    else if k < m[0].0 then
      assert ([(k, v)] + m)[1..] == m;
      [(k, v)] + m
    else if k == m[0].0 then
      assert ([(k, v)] + m[1..])[1..] == m[1..];
      [(k, v)] + m[1..]
    else
      var rest := Insert(m[1..], k, v);
      assert ([m[0]] + rest)[1..] == rest;
      [m[0]] + rest
  }

  /** `remove`: drops the key if present. */
  function Remove<V>(m: SortedMap<V>, k: nat): (r: SortedMap<V>)
    requires Sorted(m)
    ensures Sorted(r)
    ensures Get(r, k).None?
    ensures forall k' :: k' != k ==> Get(r, k') == Get(m, k')
    ensures forall i :: 0 <= i < |r| ==> m != [] && m[0].0 <= r[i].0
    decreases |m|
  {
    if m == [] then []
    else if m[0].0 == k then
      NotInAbove(m[1..], k);
      m[1..]
    else
      var rest := Remove(m[1..], k);
      assert ([m[0]] + rest)[1..] == rest;
      [m[0]] + rest
  }

  /** The multiset union of `f` over the values, in key order. */
  function Gather<V, A>(m: SortedMap<V>, f: V -> multiset<A>): multiset<A> {
    if m == [] then multiset{} else f(m[0].1) + Gather(m[1..], f)
  }

  /** What a key contributes to `Gather`. */
  function Part<V, A>(m: SortedMap<V>, k: nat, f: V -> multiset<A>): multiset<A> {
    match Get(m, k)
    case None => multiset{}
    case Some(v) => f(v)
  }

  /** Inserting swaps the key's old contribution for the new value's. */
  lemma {:induction false} GatherInsert<V, A>(m: SortedMap<V>, k: nat, v: V, f: V -> multiset<A>)
    requires Sorted(m)
    ensures Gather(Insert(m, k, v), f) + Part(m, k, f) == Gather(m, f) + f(v)
    decreases |m|
  {
    if m == [] {
    } else if k < m[0].0 {
      NotInAbove(m, k);
      GatherCons((k, v), m, f);
    } else if k == m[0].0 {
      GatherCons((k, v), m[1..], f);
    } else {
      var rest := Insert(m[1..], k, v);
      assert Insert(m, k, v) == [m[0]] + rest;
      GatherInsert(m[1..], k, v, f);
      GatherCons(m[0], rest, f);
      PartTail(m, k, f);
      AddFront(f(m[0].1), Gather(rest, f), Part(m[1..], k, f), Gather(m[1..], f), f(v));
    }
  }

  lemma AddFront<A>(a: multiset<A>, x: multiset<A>, p: multiset<A>, y: multiset<A>, q: multiset<A>)
    requires x + p == y + q
    ensures a + x + p == a + y + q
  {
    forall e | true
      ensures (a + x + p)[e] == (a + y + q)[e]
    {
      assert (x + p)[e] == (y + q)[e];
    }
  }

  lemma GatherCons<V, A>(x: (nat, V), m: SortedMap<V>, f: V -> multiset<A>)
    ensures Gather([x] + m, f) == f(x.1) + Gather(m, f)
  {
    assert ([x] + m)[1..] == m;
  }

  /** A key other than the first has the same contribution in the tail. */
  lemma PartTail<V, A>(m: SortedMap<V>, k: nat, f: V -> multiset<A>)
    requires m != [] && m[0].0 != k
    ensures Part(m, k, f) == Part(m[1..], k, f)
  {
  }

  /** Removing takes the key's contribution away. */
  lemma {:induction false} GatherRemove<V, A>(m: SortedMap<V>, k: nat, f: V -> multiset<A>)
    requires Sorted(m)
    ensures Gather(Remove(m, k), f) + Part(m, k, f) == Gather(m, f)
    decreases |m|
  {
    if m == [] {
    } else if m[0].0 == k {
    } else {
      var rest := Remove(m[1..], k);
      GatherRemove(m[1..], k, f);
      GatherCons(m[0], rest, f);
      PartTail(m, k, f);
    }
  }

  /** Keys of a sorted list above `k` do not contain `k`. */
  lemma {:induction false} NotInAbove<V>(m: SortedMap<V>, k: nat)
    requires forall i :: 0 <= i < |m| ==> m[i].0 > k
    ensures Get(m, k).None?
    decreases |m|
  {
    if m != [] {
      NotInAbove(m[1..], k);
    }
  }

  /** A value stored under some key contributes to `Gather`. */
  lemma {:induction false} GatherHas<V, A>(m: SortedMap<V>, i: nat, f: V -> multiset<A>)
    requires i < |m|
    ensures f(m[i].1) <= Gather(m, f)
    decreases |m|
  {
    if i > 0 {
      GatherHas(m[1..], i - 1, f);
    }
  }
  /** `p` holds of every entry. */
  predicate All<V>(m: SortedMap<V>, p: (nat, V) -> bool) {
    forall i :: 0 <= i < |m| ==> p(m[i].0, m[i].1)
  }

  /** A present key's value is stored at some position. */
  lemma {:induction false} GetAt<V>(m: SortedMap<V>, k: nat) returns (i: nat)
    requires Get(m, k).Some?
    ensures i < |m| && m[i] == (k, Get(m, k).value)
    decreases |m|
  {
    if m[0].0 == k {
      i := 0;
    } else {
      var j := GetAt(m[1..], k);
      i := j + 1;
    }
  }

  /** In a sorted map the value at a position is the one stored under its key. */
  lemma {:induction false} GetIndex<V>(m: SortedMap<V>, i: nat)
    requires Sorted(m) && i < |m|
    ensures Get(m, m[i].0) == Some(m[i].1)
    decreases |m|
  {
    if i > 0 {
      GetIndex(m[1..], i - 1);
    }
  }

  /** Inserting an entry that satisfies `p` keeps `p` true of every entry. */
  lemma {:induction false} InsertKeeps<V>(m: SortedMap<V>, k: nat, v: V, p: (nat, V) -> bool)
    requires Sorted(m) && All(m, p) && p(k, v)
    ensures All(Insert(m, k, v), p)
    decreases |m|
  {
    if m != [] && k > m[0].0 {
      InsertKeeps(m[1..], k, v, p);
      var rest := Insert(m[1..], k, v);
      assert Insert(m, k, v) == [m[0]] + rest;
    }
  }

  /** Removing a key keeps `p` true of every entry. */
  lemma {:induction false} RemoveKeeps<V>(m: SortedMap<V>, k: nat, p: (nat, V) -> bool)
    requires Sorted(m) && All(m, p)
    ensures All(Remove(m, k), p)
    decreases |m|
  {
    if m != [] && m[0].0 != k {
      RemoveKeeps(m[1..], k, p);
      var rest := Remove(m[1..], k);
      assert Remove(m, k) == [m[0]] + rest;
    }
  }

  /** The value stored under a key is part of `Gather`. */
  lemma GatherHasKey<V, A>(m: SortedMap<V>, k: nat, f: V -> multiset<A>)
    requires Sorted(m) && Get(m, k).Some?
    ensures f(Get(m, k).value) <= Gather(m, f)
  {
    var i := GetAt(m, k);
    GatherHas(m, i, f);
  }
}

=== FILE: threads.dfy ===
/**
 * Threads of src/sys/thread.rs: the builder that gives a thread its
 * identifier, its kernel stack and its first CPU state, `zombify`, the
 * rescheduling flag and what dropping a thread gives back.
 *
 * A thread's identifier comes from the `Ids` bitmap and its kernel stack
 * from the vmalloc allocator; both are passed in and handed back. The
 * process a thread belongs to and the process whose address space it uses
 * are kept as process ids.
 */
module Threads {
  import opened Base
  import opened Frames
  import opened SortedMap
  import Ids
  import Vmm
  import Paging
  import FrameAllocator

  datatype Kind = User | Kernel

  datatype State = Created | Ready | Running | Blocked | Waiting | Sleeping | Zombie

  /** The registers the builder fills in; the others keep their default, zero. */
  datatype CpuState = CpuState(rip: nat, cs: nat, ss: nat, rsp: nat)

  /** A thread; the flag word has one flag, NEED_SCHEDULING, kept as a boolean. */
  datatype Thread = Thread(
    tid: nat,
    kind: Kind,
    needRescheduling: bool,
    exitCode: Option<int>,
    exitSignal: Option<int>,
    state: State,
    cpu: CpuState,
    kstack: Option<Vmm.VRange>,
    mm: Option<nat>,
    process: Option<nat>)

  datatype Builder = Builder(entryPoint: nat, kstackSize: nat, thread: Thread)

  datatype CreationError = OutOfMemory | NoFreeTid

  const USER_STACK_TOP: nat := 0x0000_7FFF_FFFF_FFFF
  const USER_STACK_SIZE: nat := 8 * 1024 * 1024
  const USER_STACK_BOTTOM: nat := USER_STACK_TOP - USER_STACK_SIZE
  /** `USER_STACK_TOP & !0xF`. */
  const USER_STACK_TOP_ALIGNED: nat := USER_STACK_TOP - USER_STACK_TOP % 16
  const DEFAULT_KSTACK_SIZE: nat := 32 * 1024

  /** `Selector::KERNEL_CODE64` (crates/silicium-x86_64/src/segment.rs). */
  const KERNEL_CODE64: nat := 0x10
  /** The null selector. */
  const NULL_SELECTOR: nat := 0

  /** The user stack is 8 MiB below the top of the lower half, and its aligned top is 16-byte aligned. */
  lemma UserStackLayout()
    ensures USER_STACK_TOP_ALIGNED == 0x7FFF_FFFF_FFF0 && USER_STACK_TOP_ALIGNED % 16 == 0
    ensures USER_STACK_BOTTOM == 0x7FFF_FF7F_FFFF
    ensures USER_STACK_BOTTOM < USER_STACK_TOP_ALIGNED <= USER_STACK_TOP
  {
  }

  /**
   * `Builder::new`: a user thread with the placeholder identifier 0, no
   * flags, no stack and no address space, in state Created; entry point
   * and stack size zero.
   */
  function NewBuilder(): (b: Builder)
    ensures b.thread.tid == 0 && b.thread.kind == Kind.User && b.thread.state == Created
    ensures !b.thread.needRescheduling && b.thread.kstack.None? && b.thread.mm.None? && b.thread.process.None?
    ensures b.thread.exitCode.None? && b.thread.exitSignal.None?
    ensures b.entryPoint == 0 && b.kstackSize == 0
  {
    Builder(0, 0, Thread(0, Kind.User, false, None, None, Created, CpuState(0, 0, 0, 0), None, None, None))
  }

  /** The flags `build` asks the vmalloc allocator for, as written. */
  const KSTACK_FLAGS_AS_WRITTEN: Vmm.AllocationFlags := {Vmm.Atomic, Vmm.Map, Vmm.Zeroed}

  /** The flags without ATOMIC, which the vmalloc allocator does not implement. */
  const KSTACK_FLAGS: Vmm.AllocationFlags := {Vmm.Map, Vmm.Zeroed}

  /** What building a thread changes: the identifier bitmap, the vmalloc allocator, and the result. */
  type Built = (Ids.Bitmap, Vmm.Vmm, Result<Thread, CreationError>)

  /** A kernel thread starts at its entry point on its own kernel stack, with the kernel code selector and a null stack selector. */
  function KernelStart(b: Builder, tid: nat, kstack: Vmm.VRange): Thread {
    b.thread.(tid := tid, kstack := Some(kstack),
              cpu := b.thread.cpu.(rip := b.entryPoint, cs := KERNEL_CODE64, ss := NULL_SELECTOR, rsp := kstack.end))
  }

  /**
   * `Builder::build` as written. The kernel stack is asked for with
   * ATOMIC, which the allocator meets with `unimplemented!` whenever a
   * fit exists. An early return also drops the builder's thread, and
   * dropping a thread releases its identifier: on `NoFreeTid` that is the
   * placeholder 0, on `OutOfMemory` the identifier is released a second
   * time. A user thread reaches `todo!()`.
   */
  function BuildAsWritten(b: Builder, ids: Ids.Bitmap, v: Vmm.Vmm): (r: Outcome<Built>)
    requires Ids.Inv(ids) && Sorted(v.free) && Sorted(v.used) && b.kstackSize < U64_MODULUS
    ensures r.Done? ==> r.value.2.Err?
    ensures ids.used + 1 >= Ids.MAX ==> r == Done((Ids.ReleaseAsWritten(ids, 0).value, v, Err(NoFreeTid)))
    ensures r.Done? && r.value.2 == Err(OutOfMemory) ==> r.value.1 == v
  {
    Ids.GenerateKeepsInv(ids);
    var (ids1, tid) := Ids.GenerateAsWritten(ids);
    match tid
    case None =>
      (match Ids.ReleaseAsWritten(ids1, 0)
       case Panic => Panic
       case Done(ids2) => Done((ids2, v, Err(NoFreeTid))))
    case Some(tid) =>
      match Vmm.AllocateAsWritten(v, b.kstackSize, KSTACK_FLAGS_AS_WRITTEN)
      case Panic => Panic
      case Done((v1, stack)) =>
        match stack
        case Err(_) =>
          (match Ids.ReleaseAsWritten(ids1, tid)
           case Panic => Panic
           case Done(ids2) =>
             match Ids.ReleaseAsWritten(ids2, tid)
             case Panic => Panic
             case Done(ids3) => Done((ids3, v1, Err(OutOfMemory))))
        case Ok(kstack) =>
          match b.thread.kind
          case User => Panic
          case Kernel => Done((ids1, v1, Ok(KernelStart(b, tid, kstack))))
  }

  /**
   * A kernel thread is never built as written: whenever an identifier is
   * free and a fit for the stack exists, the ATOMIC request panics. With
   * the default stack size of zero any free area is a fit.
   */
  lemma BuildAsWrittenNeverBuilds(b: Builder, ids: Ids.Bitmap, v: Vmm.Vmm)
    requires Ids.Inv(ids) && Sorted(v.free) && Sorted(v.used) && b.kstackSize < U64_MODULUS
    requires ids.used + 1 < Ids.MAX
    requires exists j :: 0 <= j < |v.free| && Vmm.Fits(v.free[j], Vmm.AlignUp(b.kstackSize))
    ensures BuildAsWritten(b, ids, v).Panic?
  {
    Ids.GenerateKeepsInv(ids);
  }

  /**
   * When no identifier is left, building a thread as written clears the
   * bit of identifier 0, which may belong to a live thread.
   */
  lemma BuildAsWrittenFreesTidZero(b: Builder, ids: Ids.Bitmap, v: Vmm.Vmm)
    requires Ids.Inv(ids) && Sorted(v.free) && Sorted(v.used) && b.kstackSize < U64_MODULUS
    requires ids.used + 1 >= Ids.MAX && Ids.IsSet(ids.words, 0)
    ensures BuildAsWritten(b, ids, v).Done?
    ensures var ids' := BuildAsWritten(b, ids, v).value.0;
      !Ids.IsSet(ids'.words, 0) && Ids.InUse(ids') == Ids.InUse(ids) - 1
  {
  }

  /**
   * `Builder::build` without ATOMIC and with each identifier released
   * once: `NoFreeTid` changes nothing; when the stack cannot be had the
   * identifier goes back and the error is `OutOfMemory`; a kernel thread
   * is started by `KernelStart`; a user thread reaches `todo!()`.
   */
  function Build(b: Builder, ids: Ids.Bitmap, v: Vmm.Vmm): (r: Outcome<Built>)
    requires Ids.Inv(ids) && Sorted(v.free) && Sorted(v.used) && b.kstackSize < U64_MODULUS
    ensures b.thread.kind == Kind.Kernel ==> r.Done?
    ensures r.Done? && r.value.2 == Err(NoFreeTid) <==> ids.used + 1 >= Ids.MAX
    ensures ids.used + 1 >= Ids.MAX ==> r == Done((ids, v, Err(NoFreeTid)))
    ensures r.Done? && r.value.2 == Err(OutOfMemory) ==>
      && r.value.0.words == ids.words && r.value.0.used == ids.used && r.value.1 == v
    ensures r.Done? ==> Ids.Inv(r.value.0) && (Ids.Exact(ids) ==> Ids.Exact(r.value.0))
    ensures r.Done? && r.value.2.Ok? ==>
      var (ids', v', t) := (r.value.0, r.value.1, r.value.2.value);
      && t.tid < Ids.MAX && !Ids.IsSet(ids.words, t.tid) && Ids.IsSet(ids'.words, t.tid)
      && t.kind == Kind.Kernel && t.state == b.thread.state
      && t.cpu.rip == b.entryPoint && t.cpu.cs == KERNEL_CODE64 && t.cpu.ss == NULL_SELECTOR
      && t.kstack.Some? && t.cpu.rsp == t.kstack.value.end
      && Vmm.Recorded(v.used, v'.used, t.kstack.value, KSTACK_FLAGS)
      && Ids.Generate(ids) == (ids', Some(t.tid))
      && Vmm.Allocate(v, b.kstackSize, KSTACK_FLAGS) == Done((v', Ok(t.kstack.value)))
  {
    Ids.GenerateKeepsInv(ids);
    var (ids1, tid) := Ids.Generate(ids);
    match tid
    case None => Done((ids1, v, Err(NoFreeTid)))
    case Some(tid) =>
      Ids.GenerateReleaseRoundTrip(ids);
      match Vmm.Allocate(v, b.kstackSize, KSTACK_FLAGS)
      case Panic => Panic
      case Done((v1, stack)) =>
        match stack
        case Err(_) =>
          (match Ids.Release(ids1, tid)
           case Panic => Panic
           case Done(ids2) => Done((ids2, v1, Err(OutOfMemory))))
        case Ok(kstack) =>
          match b.thread.kind
          case User => Panic
          case Kernel => Done((ids1, v1, Ok(KernelStart(b, tid, kstack))))
  }

  /**
   * `zombify`: the exit code and signal are recorded, the thread becomes
   * a zombie, and its kernel stack goes back to the vmalloc allocator
   * (`unwrap` panics when it has none) before stack and address space
   * are dropped.
   */
  function Zombify(t: Thread, v: Vmm.Vmm, pt: Paging.PageTable, fa: FrameAllocator.Allocator, exitCode: int, exitSignal: int)
    : (r: Outcome<(Thread, Vmm.Vmm, Paging.PageTable, FrameAllocator.Allocator)>)
    requires Sorted(v.free) && Sorted(v.used)
    ensures t.kstack.None? ==> r.Panic?
    ensures t.kstack.Some? && Get(v.used, t.kstack.value.start).None? ==> r.Panic?
    ensures r.Done? ==>
      var z := r.value.0;
      && z.state == Zombie && z.exitCode == Some(exitCode) && z.exitSignal == Some(exitSignal)
      && z.kstack.None? && z.mm.None?
      && z.tid == t.tid && z.kind == t.kind && z.cpu == t.cpu && z.process == t.process
      && z.needRescheduling == t.needRescheduling
    ensures r.Done? ==>
      var v' := r.value.1;
      && Sorted(v'.free) && Sorted(v'.used)
      && Get(v'.used, t.kstack.value.start).None?
      && (forall k :: k != t.kstack.value.start ==> Get(v'.used, k) == Get(v.used, k))
  {
    match t.kstack
    case None => Panic
    case Some(kstack) =>
      match Vmm.Deallocate(v, pt, fa, kstack)
      case Panic => Panic
      case Done((v', pt', fa')) =>
        Done((t.(exitSignal := Some(exitSignal), exitCode := Some(exitCode), state := Zombie, kstack := None, mm := None), v', pt', fa'))
  }

  /** `set_need_rescheduling`: the flag is raised and nothing else changes. */
  function SetNeedRescheduling(t: Thread): (r: Thread)
    ensures NeedRescheduling(r)
    ensures r.(needRescheduling := t.needRescheduling) == t
  {
    t.(needRescheduling := true)
  }

  /** The flag cleared by the scheduler before it picks the next thread. */
  function ClearNeedRescheduling(t: Thread): (r: Thread)
    ensures !NeedRescheduling(r)
    ensures r.(needRescheduling := t.needRescheduling) == t
  {
    t.(needRescheduling := false)
  }

  predicate NeedRescheduling(t: Thread) {
    t.needRescheduling
  }

  /** Raising the flag and clearing it again gives back a thread without the flag. */
  lemma RescheduleFlagRoundTrip(t: Thread)
    ensures NeedRescheduling(SetNeedRescheduling(t))
    ensures ClearNeedRescheduling(SetNeedRescheduling(t)) == ClearNeedRescheduling(t)
    ensures !NeedRescheduling(t) ==> ClearNeedRescheduling(SetNeedRescheduling(t)) == t
  {
  }

  /**
   * Dropping a thread releases its identifier and gives back its kernel
   * stack, if it still has one.
   */
  function Drop(t: Thread, ids: Ids.Bitmap, v: Vmm.Vmm, pt: Paging.PageTable, fa: FrameAllocator.Allocator)
    : (r: Outcome<(Ids.Bitmap, Vmm.Vmm, Paging.PageTable, FrameAllocator.Allocator)>)
    requires Ids.Inv(ids) && Sorted(v.free) && Sorted(v.used)
    ensures t.tid >= Ids.MAX ==> r.Panic?
    ensures r.Done? ==> Ids.Inv(r.value.0) && !Ids.IsSet(r.value.0.words, t.tid)
    ensures r.Done? && t.kstack.None? ==> r.value.1 == v && r.value.2 == pt && r.value.3 == fa
    ensures r.Done? && t.kstack.Some? ==> Get(r.value.1.used, t.kstack.value.start).None?
  {
    match Ids.Release(ids, t.tid)
    case Panic => Panic
    case Done(ids') =>
      match t.kstack
      case None => Done((ids', v, pt, fa))
      case Some(kstack) =>
        match Vmm.Deallocate(v, pt, fa, kstack)
        case Panic => Panic
        case Done((v', pt', fa')) => Done((ids', v', pt', fa'))
  }

  /**
   * `Drop` as `Thread::drop` is written: the identifier goes back through
   * `Tid::release`, which clears the bit but leaves the used counter as
   * it was.
   */
  function DropAsWritten(t: Thread, ids: Ids.Bitmap, v: Vmm.Vmm, pt: Paging.PageTable, fa: FrameAllocator.Allocator)
    : (r: Outcome<(Ids.Bitmap, Vmm.Vmm, Paging.PageTable, FrameAllocator.Allocator)>)
    requires Ids.WellFormed(ids) && Sorted(v.free) && Sorted(v.used)
    ensures t.tid >= Ids.MAX ==> r.Panic?
    ensures r.Done? ==> Ids.WellFormed(r.value.0) && r.value.0.used == ids.used && !Ids.IsSet(r.value.0.words, t.tid)
    ensures r.Done? && t.kstack.None? ==> r.value.1 == v && r.value.2 == pt && r.value.3 == fa
    ensures r.Done? && t.kstack.Some? ==> Get(r.value.1.used, t.kstack.value.start).None?
  {
    match Ids.ReleaseAsWritten(ids, t.tid)
    case Panic => Panic
    case Done(ids') =>
      match t.kstack
      case None => Done((ids', v, pt, fa))
      case Some(kstack) =>
        match Vmm.Deallocate(v, pt, fa, kstack)
        case Panic => Panic
        case Done((v', pt', fa')) => Done((ids', v', pt', fa'))
  }

  /**
   * The two drops agree on everything but the used counter, which the
   * as-written one leaves one too high whenever the thread's bit was set.
   */
  lemma DropAsWrittenAgrees(t: Thread, ids: Ids.Bitmap, v: Vmm.Vmm, pt: Paging.PageTable, fa: FrameAllocator.Allocator)
    requires Ids.Inv(ids) && Sorted(v.free) && Sorted(v.used)
    ensures DropAsWritten(t, ids, v, pt, fa).Done? <==> Drop(t, ids, v, pt, fa).Done?
    ensures Drop(t, ids, v, pt, fa).Done? ==>
      var (a, v', pt', fa') := DropAsWritten(t, ids, v, pt, fa).value;
      && Drop(t, ids, v, pt, fa).value == (a.(used := ids.used - (if Ids.IsSet(ids.words, t.tid) then 1 else 0)), v', pt', fa')
  {
    match Ids.ReleaseAsWritten(ids, t.tid)
    case Panic =>
    case Done(a) =>
      assert Ids.Release(ids, t.tid) == Done(a.(used := ids.used - (if Ids.IsSet(ids.words, t.tid) then 1 else 0)));
  }

  /**
   * Dropping a zombie as `Thread::drop` is written leaves the bitmap's
   * words as they were before its identifier was generated, but the used
   * counter one higher: the identifier leaks from the count.
   */
  lemma ZombieDroppedAsWritten(ids: Ids.Bitmap, ids1: Ids.Bitmap, z: Thread, v: Vmm.Vmm, pt: Paging.PageTable, fa: FrameAllocator.Allocator)
    requires Ids.Exact(ids) && ids.used + 1 < Ids.MAX && Ids.HasFree(ids.words)
    requires Ids.Generate(ids) == (ids1, Some(z.tid))
    requires z.kstack.None? && Sorted(v.free) && Sorted(v.used)
    ensures Ids.WellFormed(ids1)
    ensures DropAsWritten(z, ids1, v, pt, fa) == Done((ids.(offset := ids1.offset, used := ids.used + 1), v, pt, fa))
  {
    Ids.GenerateKeepsInv(ids);
    Ids.ReleaseAsWrittenDrifts(ids);
  }

  /**
   * A kernel thread's life: built, zombified before any page of its
   * stack was touched, and dropped. Every used record of the vmalloc
   * allocator is as before, its free addresses are as before, and so are
   * the identifier bitmap and counter. Dropped as `Thread::drop` is
   * written, the bitmap is as before but the counter is one higher.
   */
  lemma KernelThreadLifecycle(b: Builder, ids: Ids.Bitmap, v: Vmm.Vmm, lo: nat, hi: nat,
                              pt: Paging.PageTable, fa: FrameAllocator.Allocator, exitCode: int, exitSignal: int,
                              ids1: Ids.Bitmap, v1: Vmm.Vmm, t: Thread)
    requires Ids.Exact(ids) && Vmm.Inv(v, lo, hi) && b.kstackSize < U64_MODULUS
    requires Build(b, ids, v) == Done((ids1, v1, Ok(t)))
    requires t.kstack.Some?
    requires var k := t.kstack.value;
      forall x :: k.start <= x < k.end && (x - k.start) % PAGE_SIZE == 0 ==> Paging.Translate(pt, x).None?
    ensures Vmm.Inv(v1, lo, hi)
    ensures Zombify(t, v1, pt, fa, exitCode, exitSignal).Done?
    ensures var (z, v2, pt2, fa2) := Zombify(t, v1, pt, fa, exitCode, exitSignal).value;
      && pt2 == pt && fa2 == fa
      && (forall k :: Get(v2.used, k) == Get(v.used, k))
      && Vmm.FreeSpace(v2.free) == Vmm.FreeSpace(v.free)
      && Drop(z, ids1, v2, pt2, fa2) == Done((ids.(offset := ids1.offset), v2, pt, fa))
      && DropAsWritten(z, ids1, v2, pt2, fa2) == Done((ids.(offset := ids1.offset, used := ids.used + 1), v2, pt, fa))
  {
    StackRoundTrip(v, lo, hi, b.kstackSize, v1, t, pt, fa, exitCode, exitSignal);
    var (z, v2, pt2, fa2) := Zombify(t, v1, pt, fa, exitCode, exitSignal).value;
    BuiltZombieDropped(b, ids, v, ids1, v1, t, z, v2, pt, fa);
  }

  /**
   * The kernel stack's round trip: allocated, then given back by
   * `zombify` before any of its pages was mapped. The vmalloc allocator's
   * used records and free addresses are as before, and the zombie keeps
   * the thread's identifier.
   */
  lemma StackRoundTrip(v: Vmm.Vmm, lo: nat, hi: nat, size: nat, v1: Vmm.Vmm, t: Thread,
                       pt: Paging.PageTable, fa: FrameAllocator.Allocator, exitCode: int, exitSignal: int)
    requires Vmm.Inv(v, lo, hi) && size < U64_MODULUS
    requires t.kstack.Some? && Vmm.Allocate(v, size, KSTACK_FLAGS) == Done((v1, Ok(t.kstack.value)))
    requires var k := t.kstack.value;
      forall x :: k.start <= x < k.end && (x - k.start) % PAGE_SIZE == 0 ==> Paging.Translate(pt, x).None?
    ensures Vmm.Inv(v1, lo, hi)
    ensures Zombify(t, v1, pt, fa, exitCode, exitSignal).Done?
    ensures var (z, v2, pt2, fa2) := Zombify(t, v1, pt, fa, exitCode, exitSignal).value;
      && pt2 == pt && fa2 == fa && z.tid == t.tid && z.kstack.None?
      && Sorted(v2.free) && Sorted(v2.used)
      && (forall k :: Get(v2.used, k) == Get(v.used, k))
      && Vmm.FreeSpace(v2.free) == Vmm.FreeSpace(v.free)
  {
    var kstack := t.kstack.value;
    StackTaken(v, lo, hi, size, v1, kstack);
    StackGivenBack(t, v1, pt, fa, exitCode, exitSignal);
    var (z, v2, pt2, fa2) := Zombify(t, v1, pt, fa, exitCode, exitSignal).value;
    forall k
      ensures Get(v2.used, k) == Get(v.used, k)
    {
      if k != kstack.start {
        assert Get(v2.used, k) == Get(v1.used, k);
      }
    }
  }

  /** Both drops of the zombie a built kernel thread became: the corrected one restores the bitmap and counter, the as-written one only the bitmap. */
  lemma BuiltZombieDropped(b: Builder, ids: Ids.Bitmap, v: Vmm.Vmm, ids1: Ids.Bitmap, v1: Vmm.Vmm, t: Thread,
                           z: Thread, v2: Vmm.Vmm, pt: Paging.PageTable, fa: FrameAllocator.Allocator)
    requires Ids.Exact(ids) && Sorted(v.free) && Sorted(v.used) && b.kstackSize < U64_MODULUS
    requires Build(b, ids, v) == Done((ids1, v1, Ok(t)))
    requires z.tid == t.tid && z.kstack.None? && Sorted(v2.free) && Sorted(v2.used)
    ensures Ids.Inv(ids1)
    ensures Drop(z, ids1, v2, pt, fa) == Done((ids.(offset := ids1.offset), v2, pt, fa))
    ensures DropAsWritten(z, ids1, v2, pt, fa) == Done((ids.(offset := ids1.offset, used := ids.used + 1), v2, pt, fa))
  {
    assert ids.used + 1 < Ids.MAX;
    Ids.GenerateKeepsInv(ids);
    ZombieDropped(ids, ids1, z, v2, pt, fa);
    ZombieDroppedAsWritten(ids, ids1, z, v2, pt, fa);
  }

  /** Dropping a zombie gives its identifier back, which makes the bitmap what it was before the identifier was generated. */
  lemma ZombieDropped(ids: Ids.Bitmap, ids1: Ids.Bitmap, z: Thread, v: Vmm.Vmm, pt: Paging.PageTable, fa: FrameAllocator.Allocator)
    requires Ids.Exact(ids) && ids.used + 1 < Ids.MAX && Ids.HasFree(ids.words)
    requires Ids.Generate(ids) == (ids1, Some(z.tid))
    requires z.kstack.None? && Sorted(v.free) && Sorted(v.used)
    ensures Ids.Inv(ids1)
    ensures Drop(z, ids1, v, pt, fa) == Done((ids.(offset := ids1.offset), v, pt, fa))
  {
    Ids.GenerateKeepsInv(ids);
    Ids.GenerateReleaseRoundTrip(ids);
  }

  /** What allocating a kernel stack took from the vmalloc allocator. */
  lemma StackTaken(v: Vmm.Vmm, lo: nat, hi: nat, size: nat, v1: Vmm.Vmm, k: Vmm.VRange)
    requires Vmm.Inv(v, lo, hi) && size < U64_MODULUS
    requires Vmm.Allocate(v, size, KSTACK_FLAGS) == Done((v1, Ok(k)))
    ensures Vmm.Inv(v1, lo, hi) && k.start <= k.end
    ensures Get(v.used, k.start).None?
    ensures Get(v1.used, k.start) == Some(Vmm.Area(k.start, k.end - k.start, KSTACK_FLAGS))
    ensures Vmm.FreeSpace(v1.free) + Vmm.Span(k.start, k.end - k.start) == Vmm.FreeSpace(v.free)
  {
    Vmm.AllocateKeepsInv(v, lo, hi, size, KSTACK_FLAGS);
    StackRecorded(v.used, v1.used, k);
    StackFreeSpace(v, size, v1, k);
  }

  /** The kernel stack's area is recorded under its start, with the flags asked for: ATOMIC is not among them. */
  lemma StackRecorded(used: SortedMap<Vmm.Area>, used': SortedMap<Vmm.Area>, k: Vmm.VRange)
    requires Vmm.Recorded(used, used', k, KSTACK_FLAGS)
    ensures k.start <= k.end && Get(used', k.start) == Some(Vmm.Area(k.start, k.end - k.start, KSTACK_FLAGS))
  {
    assert Vmm.Truncate(KSTACK_FLAGS) == KSTACK_FLAGS by {
      assert Vmm.Atomic !in KSTACK_FLAGS;
    }
  }

  /** The kernel stack's addresses are no longer free, and no other address changes. */
  lemma StackFreeSpace(v: Vmm.Vmm, size: nat, v1: Vmm.Vmm, k: Vmm.VRange)
    requires Sorted(v.free) && Sorted(v.used) && size < U64_MODULUS
    requires Vmm.Allocate(v, size, KSTACK_FLAGS) == Done((v1, Ok(k)))
    ensures Vmm.FreeSpace(v1.free) + Vmm.Span(k.start, k.end - k.start) == Vmm.FreeSpace(v.free)
  {
    assert Vmm.AllocateAsWritten(v, size, KSTACK_FLAGS) == Done((v1, Ok(k)));
    Vmm.AllocateAsWrittenConserves(v, size, KSTACK_FLAGS);
  }

  /** Zombifying a thread whose stack pages were never mapped removes just its stack's record and frees the stack. */
  lemma StackGivenBack(t: Thread, v1: Vmm.Vmm, pt: Paging.PageTable, fa: FrameAllocator.Allocator, exitCode: int, exitSignal: int)
    requires Sorted(v1.free) && Sorted(v1.used) && t.kstack.Some?
    requires var k := t.kstack.value;
      k.start <= k.end && Get(v1.used, k.start) == Some(Vmm.Area(k.start, k.end - k.start, KSTACK_FLAGS))
    requires var k := t.kstack.value;
      forall x :: k.start <= x < k.end && (x - k.start) % PAGE_SIZE == 0 ==> Paging.Translate(pt, x).None?
    ensures Zombify(t, v1, pt, fa, exitCode, exitSignal).Done?
    ensures var (z, v2, pt2, fa2) := Zombify(t, v1, pt, fa, exitCode, exitSignal).value;
      var k := t.kstack.value;
      && pt2 == pt && fa2 == fa && z.kstack.None?
      && Get(v2.used, k.start).None?
      && (forall s :: s != k.start ==> Get(v2.used, s) == Get(v1.used, s))
      && Vmm.FreeSpace(v2.free) == Vmm.FreeSpace(v1.free) + Vmm.Span(k.start, k.end - k.start)
  {
    StackDeallocated(v1, pt, fa, t.kstack.value);
  }

  /** Deallocating a kernel stack none of whose pages was mapped frees its addresses and leaves the tables and frames alone. */
  lemma StackDeallocated(v1: Vmm.Vmm, pt: Paging.PageTable, fa: FrameAllocator.Allocator, k: Vmm.VRange)
    requires Sorted(v1.free) && Sorted(v1.used)
    requires k.start <= k.end && Get(v1.used, k.start) == Some(Vmm.Area(k.start, k.end - k.start, KSTACK_FLAGS))
    requires forall x :: k.start <= x < k.end && (x - k.start) % PAGE_SIZE == 0 ==> Paging.Translate(pt, x).None?
    ensures Vmm.Deallocate(v1, pt, fa, k).Done?
    ensures var (v2, pt2, fa2) := Vmm.Deallocate(v1, pt, fa, k).value;
      pt2 == pt && fa2 == fa && Vmm.FreeSpace(v2.free) == Vmm.FreeSpace(v1.free) + Vmm.Span(k.start, k.end - k.start)
  {
    var a := Vmm.Area(k.start, k.end - k.start, KSTACK_FLAGS);
    assert Vmm.End(a) == k.end && Vmm.Map in a.flags;
    assert Vmm.UnmapPages(pt, fa, a.start, Vmm.End(a)) == Done((pt, fa));
    assert Vmm.AreaSpan(a) == Vmm.Span(k.start, k.end - k.start);
  }
}

=== FILE: vmm.dfy ===
/**
 * The vmalloc area allocator of src/mm/vmm.rs. Free areas are kept in
 * buckets keyed by their size, used areas are keyed by their start; both
 * maps are ordered, and first fit means the first bucket in size order.
 *
 * What the allocator promises is captured by `Inv`: the bytes of the free
 * areas and of the used areas together cover the vmalloc region exactly
 * once, as multisets of addresses.
 */
module Vmm {
  import opened Base
  import opened SortedMap
  import opened Frames
  import FrameAllocator
  import Paging
  import Faults

  datatype AllocationFlag = Atomic | Map | Zeroed
  type AllocationFlags = set<AllocationFlag>

  datatype AllocationError = OutOfMemory | WouldBlock

  /** A virtual area: `size` bytes from `start`, with the flags it was allocated with. */
  datatype Area = Area(start: nat, size: nat, flags: AllocationFlags)

  /** A half-open range of virtual addresses. */
  datatype VRange = VRange(start: nat, end: nat)

  /** The free buckets and the used areas. */
  datatype Vmm = Vmm(free: SortedMap<seq<Area>>, used: SortedMap<Area>)

  function End(a: Area): nat {
    a.start + a.size
  }

  function RangeOf(a: Area): VRange {
    VRange(a.start, End(a))
  }

  /** `Flags::from_bits_truncate`: only MAP and ZEROED are kept with an area. */
  function Truncate(flags: AllocationFlags): AllocationFlags {
    flags - {Atomic}
  }

  /** The addresses `start`, `start + 1`, ... below `start + size`, once each. */
  function Span(start: nat, size: nat): multiset<nat> {
    multiset(set x: nat | start <= x < start + size && Inside(start, size, x))
  }

  predicate Inside(start: nat, size: nat, x: nat) {
    start <= x < start + size
  }

  /** Every address of a span occurs once, and only addresses inside it occur. */
  lemma SpanCount(start: nat, size: nat, x: nat)
    ensures Span(start, size)[x] == if start <= x < start + size then 1 else 0
  {
    assert x in (set y: nat | start <= y < start + size && Inside(start, size, y)) <==> Inside(start, size, x);
  }

  /** A span is its first `a` addresses followed by the next `b`. */
  lemma SpanSplit(start: nat, a: nat, b: nat)
    ensures Span(start, a + b) == Span(start, a) + Span(start + a, b)
  {
    var whole, parts := Span(start, a + b), Span(start, a) + Span(start + a, b);
    forall x | true
      ensures whole[x] == parts[x]
    {
      SpanCount(start, a + b, x);
      SpanCount(start, a, x);
      SpanCount(start + a, b, x);
    }
  }

  function AreaSpan(a: Area): multiset<nat> {
    Span(a.start, a.size)
  }

  /** The addresses of a bucket's areas. */
  function Covered(areas: seq<Area>): multiset<nat>
    decreases |areas|
  {
    if areas == [] then multiset{} else Covered(areas[..|areas| - 1]) + AreaSpan(areas[|areas| - 1])
  }

  function FreeSpace(free: SortedMap<seq<Area>>): multiset<nat> {
    Gather(free, Covered)
  }

  function UsedSpace(used: SortedMap<Area>): multiset<nat> {
    Gather(used, AreaSpan)
  }

  /** Every area of a bucket has the bucket's size. */
  predicate BucketOk(size: nat, areas: seq<Area>) {
    forall j :: 0 <= j < |areas| ==> areas[j].size == size
  }

  /** A used area is keyed by its start and is not empty. */
  predicate RecordOk(start: nat, a: Area) {
    a.start == start && a.size > 0
  }

  /**
   * The allocator's invariant for the region [lo, hi): both maps are
   * ordered, buckets and records are keyed correctly, and free and used
   * areas tile the region.
   */
  predicate Inv(v: Vmm, lo: nat, hi: nat) {
    && lo <= hi
    && Sorted(v.free) && Sorted(v.used)
    && All(v.free, BucketOk) && All(v.used, RecordOk)
    && FreeSpace(v.free) + UsedSpace(v.used) == Span(lo, hi - lo)
  }

  /** `size.wrapping_add(0xFFF) & !0xFFF` on a 64-bit size. */
  function AlignUp(size: nat): (r: nat)
    requires size < U64_MODULUS
    ensures r % PAGE_SIZE == 0
    ensures size + 0xFFF < U64_MODULUS ==> size <= r < size + PAGE_SIZE
    ensures size + 0xFFF >= U64_MODULUS ==> r == 0
  {
    var x := if size + 0xFFF >= U64_MODULUS then size + 0xFFF - U64_MODULUS else size + 0xFFF;
    x - x % 4096
  }

  /** `page_align_down`. */
  function AlignDown(address: nat): (r: nat)
    ensures r % PAGE_SIZE == 0 && r <= address < r + PAGE_SIZE
    ensures r / PAGE_SIZE == address / PAGE_SIZE
  {
    address - address % PAGE_SIZE
  }

  lemma CoveredPush(areas: seq<Area>, a: Area)
    ensures Covered(areas + [a]) == Covered(areas) + AreaSpan(a)
  {
    assert (areas + [a])[..|areas|] == areas;
  }

  /** `x + c == y + c` cancels to `x == y`. */
  lemma Cancel(x: multiset<nat>, y: multiset<nat>, c: multiset<nat>)
    requires x + c == y + c
    ensures x == y
  {
    forall e | true
      ensures x[e] == y[e]
    {
      assert (x + c)[e] == (y + c)[e];
    }
  }

  /** The bucket of a size, empty when the map has no such key. */
  function Bucket(free: SortedMap<seq<Area>>, size: nat): seq<Area> {
    match Get(free, size)
    case None => []
    case Some(areas) => areas
  }

  /** `insert_free_vma`: pushes the area onto the end of its size's bucket, creating the bucket if needed. */
  function InsertFree(free: SortedMap<seq<Area>>, a: Area): (r: SortedMap<seq<Area>>)
    requires Sorted(free)
    ensures Sorted(r)
    ensures Bucket(r, a.size) == Bucket(free, a.size) + [a]
    ensures forall k :: k != a.size ==> Get(r, k) == Get(free, k)
    ensures FreeSpace(r) == FreeSpace(free) + AreaSpan(a)
    ensures All(free, BucketOk) ==> All(r, BucketOk)
  {
    InsertFreeFacts(free, a);
    Insert(free, a.size, Bucket(free, a.size) + [a])
  }

  lemma InsertFreeFacts(free: SortedMap<seq<Area>>, a: Area)
    requires Sorted(free)
    ensures FreeSpace(Insert(free, a.size, Bucket(free, a.size) + [a])) == FreeSpace(free) + AreaSpan(a)
    ensures All(free, BucketOk) ==> All(Insert(free, a.size, Bucket(free, a.size) + [a]), BucketOk)
  {
    var b := Bucket(free, a.size);
    var r := Insert(free, a.size, b + [a]);
    GatherInsert(free, a.size, b + [a], Covered);
    CoveredPush(b, a);
    assert Part(free, a.size, Covered) == Covered(b);
    Cancel(FreeSpace(r), FreeSpace(free) + AreaSpan(a), Covered(b));
    if All(free, BucketOk) {
      if Get(free, a.size).Some? {
        var i := GetAt(free, a.size);
        assert BucketOk(free[i].0, free[i].1);
      }
      InsertKeeps(free, a.size, b + [a], BucketOk);
    }
  }

  /** `insert_used_vma`: records the area under its start, replacing any record there. */
  function InsertUsed(used: SortedMap<Area>, a: Area): (r: SortedMap<Area>)
    requires Sorted(used)
    ensures Sorted(r)
    ensures Get(r, a.start) == Some(a)
    ensures forall k :: k != a.start ==> Get(r, k) == Get(used, k)
  {
    Insert(used, a.start, a)
  }

  /** `setup`: one free area covering [lo, hi), no used area. */
  function Setup(lo: nat, hi: nat): (v: Vmm)
    requires lo <= hi
    ensures Inv(v, lo, hi)
    ensures v.used == [] && Bucket(v.free, hi - lo) == [Area(lo, hi - lo, {})]
  {
    var a := Area(lo, hi - lo, {});
    var free := InsertFree([], a);
    assert Covered([a]) == AreaSpan(a) by {
      assert [a][..0] == [];
    }
    Vmm(free, [])
  }

  /** A bucket that first fit can take an area of `size` from. */
  predicate Fits(e: (nat, seq<Area>), size: nat) {
    e.0 >= size && |e.1| > 0
  }

  /** The first bucket from position `i` on, in size order, that fits `size`. */
  function FitFrom(free: SortedMap<seq<Area>>, size: nat, i: nat): (r: Option<nat>)
    requires i <= |free|
    ensures r.None? <==> forall j :: i <= j < |free| ==> !Fits(free[j], size)
    ensures r.Some? ==> i <= r.value < |free| && Fits(free[r.value], size)
    ensures r.Some? ==> forall j :: i <= j < r.value ==> !Fits(free[j], size)
    decreases |free| - i
  {
    if i == |free| then None
    else if Fits(free[i], size) then Some(i)
    else FitFrom(free, size, i + 1)
  }

  /**
   * `find_free_first_fit`: pops the last area of the first bucket at least
   * `size` large and holding an area. A larger area is split: its first
   * `size` bytes are returned, the rest goes back to the free buckets with
   * no flags. The returned area and the free areas left cover exactly what
   * the free areas covered before.
   */
  function FindFreeFirstFit(free: SortedMap<seq<Area>>, size: nat): (r: Option<(SortedMap<seq<Area>>, Area)>)
    requires Sorted(free)
    ensures r.None? <==> forall j :: 0 <= j < |free| ==> !Fits(free[j], size)
    ensures r.Some? ==>
      var i := FitFrom(free, size, 0).value;
      var popped := free[i].1[|free[i].1| - 1];
      && r.value.1.start == popped.start
      && r.value.1.flags == popped.flags
      && r.value.1.size == (if popped.size > size then size else popped.size)
    ensures r.Some? ==> Sorted(r.value.0)
  {
    match FitFrom(free, size, 0)
    case None => None
    case Some(i) => Some(TakeFrom(free, i, size))
  }

  /**
   * Pops the last area of bucket `i` and splits off what `size` does not
   * need; the area taken and the free areas left cover what the free areas
   * covered before.
   */
  function TakeFrom(free: SortedMap<seq<Area>>, i: nat, size: nat): (r: (SortedMap<seq<Area>>, Area))
    requires Sorted(free) && i < |free| && |free[i].1| > 0
    ensures Sorted(r.0)
    ensures var popped := free[i].1[|free[i].1| - 1];
      && r.1.start == popped.start
      && r.1.flags == popped.flags
      && r.1.size == (if popped.size > size then size else popped.size)
    ensures FreeSpace(r.0) + AreaSpan(r.1) == FreeSpace(free)
    ensures All(free, BucketOk) && free[i].0 >= size ==> All(r.0, BucketOk) && r.1.size == size
  {
    var areas := free[i].1;
    var popped := areas[|areas| - 1];
    var free1 := Insert(free, free[i].0, areas[..|areas| - 1]);
    PopFacts(free, i);
    if popped.size > size then
      SplitFacts(free1, popped, size);
      (InsertFree(free1, Area(popped.start + size, popped.size - size, {})), Area(popped.start, size, popped.flags))
    else
      (free1, popped)
  }

  /**
   * First fit loses no free address: the area it returns and the free
   * areas it leaves cover exactly what the free areas covered before, and
   * with well-keyed buckets the area has exactly the size asked for.
   */
  lemma FindFreeFirstFitConserves(free: SortedMap<seq<Area>>, size: nat)
    requires Sorted(free) && FindFreeFirstFit(free, size).Some?
    ensures var (free', a) := FindFreeFirstFit(free, size).value;
      FreeSpace(free') + AreaSpan(a) == FreeSpace(free)
    ensures All(free, BucketOk) ==>
      var (free', a) := FindFreeFirstFit(free, size).value;
      All(free', BucketOk) && a.size == size
  {
  }

  /** Popping the last area of bucket `i` takes exactly that area's addresses away. */
  lemma PopFacts(free: SortedMap<seq<Area>>, i: nat)
    requires Sorted(free) && i < |free| && |free[i].1| > 0
    ensures var areas := free[i].1;
      && FreeSpace(Insert(free, free[i].0, areas[..|areas| - 1])) + AreaSpan(areas[|areas| - 1]) == FreeSpace(free)
      && (All(free, BucketOk) ==> All(Insert(free, free[i].0, areas[..|areas| - 1]), BucketOk) && areas[|areas| - 1].size == free[i].0)
  {
    var (k, areas) := free[i];
    var rest := areas[..|areas| - 1];
    var free1 := Insert(free, k, rest);
    GetIndex(free, i);
    GatherInsert(free, k, rest, Covered);
    assert Covered(areas) == Covered(rest) + AreaSpan(areas[|areas| - 1]);
    Cancel(FreeSpace(free1) + AreaSpan(areas[|areas| - 1]), FreeSpace(free), Covered(rest));
    if All(free, BucketOk) {
      assert BucketOk(k, areas);
      InsertKeeps(free, k, rest, BucketOk);
    }
  }

  /** Splitting an area in two and freeing the tail leaves the head's addresses to account for. */
  lemma SplitFacts(free1: SortedMap<seq<Area>>, popped: Area, size: nat)
    requires Sorted(free1) && popped.size > size
    ensures FreeSpace(InsertFree(free1, Area(popped.start + size, popped.size - size, {}))) + Span(popped.start, size)
      == FreeSpace(free1) + AreaSpan(popped)
  {
    SpanSplit(popped.start, size, popped.size - size);
  }

  /**
   * `allocate` as written: the size is rounded up to whole pages, wrapping
   * around at 2^64, and the first fit is taken; ATOMIC panics after the
   * fit is found. The area is recorded as used under its start with the
   * flags truncated to MAP and ZEROED.
   */
  function AllocateAsWritten(v: Vmm, size: nat, flags: AllocationFlags): (r: Outcome<(Vmm, Result<VRange, AllocationError>)>)
    requires size < U64_MODULUS && Sorted(v.free) && Sorted(v.used)
    ensures r.Panic? <==> Atomic in flags && exists j :: 0 <= j < |v.free| && Fits(v.free[j], AlignUp(size))
    ensures r == Done((v, Err(OutOfMemory))) <==> forall j :: 0 <= j < |v.free| ==> !Fits(v.free[j], AlignUp(size))
    ensures r.Done? && r.value.1.Err? ==> r.value == (v, Err(OutOfMemory))
    ensures r.Done? && r.value.1.Ok? ==> Sorted(r.value.0.free) && Recorded(v.used, r.value.0.used, r.value.1.value, flags)
  {
    match FindFreeFirstFit(v.free, AlignUp(size))
    case None => Done((v, Err(OutOfMemory)))
    case Some((free, a)) =>
      if Atomic in flags then Panic
      else
        var (v', range) := Record(v.used, free, a, flags);
        Done((v', Ok(range)))
  }

  /**
   * `used'` is `used` with the range recorded under its start, flags
   * truncated, and every other record as it was.
   */
  ghost predicate Recorded(used: SortedMap<Area>, used': SortedMap<Area>, range: VRange, flags: AllocationFlags) {
    && range.start <= range.end
    && Sorted(used')
    && Get(used', range.start) == Some(Area(range.start, range.end - range.start, Truncate(flags)))
    && (forall k :: k != range.start ==> Get(used', k) == Get(used, k))
  }

  /** Records the area taken from the free buckets as used, under its start and with truncated flags. */
  function Record(used: SortedMap<Area>, free: SortedMap<seq<Area>>, a: Area, flags: AllocationFlags): (r: (Vmm, VRange))
    requires Sorted(used) && Sorted(free)
    ensures r.1 == RangeOf(a) && r.0.free == free
    ensures Recorded(used, r.0.used, r.1, flags)
  {
    var a' := Area(a.start, a.size, Truncate(flags));
    (Vmm(free, InsertUsed(used, a')), RangeOf(a'))
  }

  /**
   * An allocation hands out addresses that were free and no others, and
   * with well-keyed buckets its range is the rounded-up size long.
   */
  lemma AllocateAsWrittenConserves(v: Vmm, size: nat, flags: AllocationFlags)
    requires size < U64_MODULUS && Sorted(v.free) && Sorted(v.used)
    requires AllocateAsWritten(v, size, flags).Done? && AllocateAsWritten(v, size, flags).value.1.Ok?
    ensures var (v', range) := (AllocateAsWritten(v, size, flags).value.0, AllocateAsWritten(v, size, flags).value.1.value);
      FreeSpace(v'.free) + Span(range.start, range.end - range.start) == FreeSpace(v.free)
    ensures All(v.free, BucketOk) ==>
      var (v', range) := (AllocateAsWritten(v, size, flags).value.0, AllocateAsWritten(v, size, flags).value.1.value);
      range.end - range.start == AlignUp(size) && All(v'.free, BucketOk)
  {
    FindFreeFirstFitConserves(v.free, AlignUp(size));
  }

  /**
   * `allocate` with empty requests refused: a size that rounds to zero
   * pages (zero itself, or one that wraps around) is reported as
   * `OutOfMemory` instead of handing out an empty area.
   */
  function Allocate(v: Vmm, size: nat, flags: AllocationFlags): (r: Outcome<(Vmm, Result<VRange, AllocationError>)>)
    requires size < U64_MODULUS && Sorted(v.free) && Sorted(v.used)
    ensures AlignUp(size) == 0 ==> r == Done((v, Err(OutOfMemory)))
    ensures r.Done? && r.value.1.Ok? ==> AlignUp(size) > 0 && r == AllocateAsWritten(v, size, flags)
    ensures r.Done? && r.value.1.Ok? ==> Recorded(v.used, r.value.0.used, r.value.1.value, flags)
    ensures r.Panic? <==> Atomic in flags && AlignUp(size) > 0 && exists j :: 0 <= j < |v.free| && Fits(v.free[j], AlignUp(size))
  {
    if AlignUp(size) == 0 then Done((v, Err(OutOfMemory)))
    else AllocateAsWritten(v, size, flags)
  }

  /** `allocate` keeps the invariant, never replaces a live record, and hands out addresses that were free. */
  lemma AllocateKeepsInv(v: Vmm, lo: nat, hi: nat, size: nat, flags: AllocationFlags)
    requires Inv(v, lo, hi) && size < U64_MODULUS
    requires Allocate(v, size, flags).Done?
    ensures Inv(Allocate(v, size, flags).value.0, lo, hi)
    ensures Allocate(v, size, flags).value.1.Ok? ==>
      var range := Allocate(v, size, flags).value.1.value;
      && Get(v.used, range.start).None?
      && range.start < range.end
      && Span(range.start, range.end - range.start) <= FreeSpace(v.free)
  {
    var r := Allocate(v, size, flags).value;
    if r.1.Ok? {
      var range := r.1.value;
      var v' := r.0;
      var n := range.end - range.start;
      var s := range.start;
      assert r == AllocateAsWritten(v, size, flags).value;
      AllocateAsWrittenConserves(v, size, flags);
      assert n == AlignUp(size) > 0;
      assert v'.used == Insert(v.used, s, Area(s, n, Truncate(flags)));
      RecordKeepsInv(v, v', lo, hi, Area(s, n, Truncate(flags)));
    }
  }

  /**
   * Taking a non-empty area out of the free ones and recording it as used
   * keeps the invariant, and the area's start was not recorded before.
   */
  lemma RecordKeepsInv(v: Vmm, v': Vmm, lo: nat, hi: nat, a: Area)
    requires Inv(v, lo, hi) && a.size > 0
    requires Sorted(v'.free) && All(v'.free, BucketOk)
    requires FreeSpace(v'.free) + AreaSpan(a) == FreeSpace(v.free)
    requires v'.used == Insert(v.used, a.start, a)
    ensures Inv(v', lo, hi) && Get(v.used, a.start).None?
  {
    FreeStartUnused(v, lo, hi, a.start, a.size);
    GatherInsert(v.used, a.start, a, AreaSpan);
    assert Part(v.used, a.start, AreaSpan) == multiset{};
    Regroup(FreeSpace(v'.free), AreaSpan(a), FreeSpace(v.free), UsedSpace(v.used), UsedSpace(v'.used), Span(lo, hi - lo));
    InsertKeeps(v.used, a.start, a, RecordOk);
  }

  /** A non-empty run of free addresses cannot start where a used area is recorded. */
  lemma FreeStartUnused(v: Vmm, lo: nat, hi: nat, s: nat, n: nat)
    requires Inv(v, lo, hi) && n > 0 && Span(s, n) <= FreeSpace(v.free)
    ensures Get(v.used, s).None?
  {
    if Get(v.used, s).Some? {
      SpanCount(lo, hi - lo, s);
      SpanCount(s, n, s);
      CountOfSum(FreeSpace(v.free), UsedSpace(v.used), Span(lo, hi - lo), s);
      CountOfSub(Span(s, n), FreeSpace(v.free), s);
      UsedStartCounts(v.used, s);
      assert false;
    }
  }

  lemma CountOfSum(x: multiset<nat>, y: multiset<nat>, t: multiset<nat>, e: nat)
    ensures x + y == t ==> x[e] + y[e] == t[e]
  {
  }

  lemma CountOfSub(x: multiset<nat>, y: multiset<nat>, e: nat)
    ensures x <= y ==> x[e] <= y[e]
  {
  }

  /** The start of a recorded used area is among the used addresses. */
  lemma UsedStartCounts(used: SortedMap<Area>, s: nat)
    requires Sorted(used) && All(used, RecordOk) && Get(used, s).Some?
    ensures UsedSpace(used)[s] >= 1
  {
    var u := Get(used, s).value;
    var i := GetAt(used, s);
    assert RecordOk(used[i].0, used[i].1);
    GatherHasKey(used, s, AreaSpan);
    SpanCount(u.start, u.size, s);
  }

  /** Moving `s` from the free addresses to the used ones leaves their sum alone. */
  lemma Regroup(f': multiset<nat>, s: multiset<nat>, f: multiset<nat>, u: multiset<nat>, u': multiset<nat>, t: multiset<nat>)
    requires f' + s == f && u' + multiset{} == u + s && f + u == t
    ensures f' + u' == t
  {
    forall x | true
      ensures (f' + u')[x] == t[x]
    {
      assert (f' + s)[x] == f[x];
      assert (u' + multiset{})[x] == (u + s)[x];
      assert (f + u)[x] == t[x];
    }
  }

  /**
   * `allocate` as written hands out an empty area for a zero size; the
   * next allocation starting at the same address replaces its record, so
   * deallocating the empty range releases the other allocation, which is
   * still in use.
   */
  lemma AllocateAsWrittenLosesEmptyArea(pt: Paging.PageTable, fa: FrameAllocator.Allocator)
    ensures Setup(0, 0x2000) == Vmm(TWO_PAGES, [])
    ensures AllocateAsWritten(Vmm(TWO_PAGES, []), 0, {}) == Done((EMPTY_TAKEN, Ok(VRange(0, 0))))
    ensures Get(EMPTY_TAKEN.used, 0) == Some(Area(0, 0, {}))
    ensures AllocateAsWritten(EMPTY_TAKEN, 0x1000, {}) == Done((PAGE_TAKEN, Ok(VRange(0, 0x1000))))
    ensures Get(PAGE_TAKEN.used, 0) == Some(Area(0, 0x1000, {}))
    ensures Sorted(PAGE_TAKEN.free) && Sorted(PAGE_TAKEN.used)
    ensures var d := Deallocate(PAGE_TAKEN, pt, fa, VRange(0, 0));
      && d.Done?
      && Get(d.value.0.used, 0).None?
      && Bucket(d.value.0.free, 0x1000) == [Area(0x1000, 0x1000, {}), Area(0, 0x1000, {})]
  {
    TwoPagesSetup();
    EmptyAllocation();
    PageAllocation();
    EmptyRangeReleasesPage(pt, fa);
  }

  /** Deallocating the empty range at 0 of `PAGE_TAKEN` frees the page recorded there. */
  lemma EmptyRangeReleasesPage(pt: Paging.PageTable, fa: FrameAllocator.Allocator)
    ensures Sorted(PAGE_TAKEN.free) && Sorted(PAGE_TAKEN.used)
    ensures var d := Deallocate(PAGE_TAKEN, pt, fa, VRange(0, 0));
      && d.Done?
      && Get(d.value.0.used, 0).None?
      && Bucket(d.value.0.free, 0x1000) == [Area(0x1000, 0x1000, {}), Area(0, 0x1000, {})]
  {
    PageAllocation();
    var d := Deallocate(PAGE_TAKEN, pt, fa, VRange(0, 0));
    var before, after := Bucket(PAGE_TAKEN.free, 0x1000), Bucket(d.value.0.free, 0x1000);
    assert after == before + [Area(0, 0x1000, {})];
    AppendOne(before, Area(0x1000, 0x1000, {}), Area(0, 0x1000, {}));
  }

  lemma AppendOne(b: seq<Area>, x: Area, y: Area)
    requires b == [x]
    ensures b + [y] == [x, y]
  {
  }

  /** The free buckets of `Setup(0, 0x2000)`: one area of two pages. */
  const TWO_PAGES: SortedMap<seq<Area>> := [(0x2000, [Area(0, 0x2000, {})])]

  /** After the empty allocation: the same free area, and an empty used area at 0. */
  const EMPTY_TAKEN := Vmm(TWO_PAGES, [(0, Area(0, 0, {}))])

  /** After one more page is allocated: the page at 0 recorded over the empty area. */
  const PAGE_TAKEN := Vmm([(0x1000, [Area(0x1000, 0x1000, {})]), (0x2000, [])], [(0, Area(0, 0x1000, {}))])

  /** `Setup(0, 0x2000)` starts with one free area of two pages. */
  lemma TwoPagesSetup()
    ensures Setup(0, 0x2000) == Vmm(TWO_PAGES, [])
  {
    assert Bucket([], 0x2000) == [];
    assert Insert([], 0x2000, [Area(0, 0x2000, {})]) == TWO_PAGES;
  }

  /** With the checks of `AllocateAsWritten`, a zero-size request takes an empty area at 0. */
  lemma EmptyAllocation()
    ensures AllocateAsWritten(Vmm(TWO_PAGES, []), 0, {}) == Done((EMPTY_TAKEN, Ok(VRange(0, 0))))
  {
    assert AlignUp(0) == 0;
    assert FitFrom(TWO_PAGES, 0, 0) == Some(0);
    EmptySplit();
    assert InsertUsed([], Area(0, 0, {})) == EMPTY_TAKEN.used;
    assert Truncate({}) == {};
  }

  /** Splitting nothing off the two-page area gives the whole area back to the free buckets. */
  lemma EmptySplit()
    ensures TakeFrom(TWO_PAGES, 0, 0) == (TWO_PAGES, Area(0, 0, {}))
  {
    assert Insert(TWO_PAGES, 0x2000, []) == [(0x2000, [])];
    TwoPagesRefilled();
  }

  /** Pushing the whole area back onto its emptied bucket restores the buckets. */
  lemma TwoPagesRefilled()
    ensures InsertFree([(0x2000, [])], Area(0, 0x2000, {})) == TWO_PAGES
  {
    var emptied: SortedMap<seq<Area>> := [(0x2000, [])];
    assert Bucket(emptied, 0x2000) == [];
    assert Insert(emptied, 0x2000, [Area(0, 0x2000, {})]) == TWO_PAGES;
  }

  /** The next page-sized request is served from the same area, at the same start. */
  lemma PageAllocation()
    ensures AllocateAsWritten(EMPTY_TAKEN, 0x1000, {}) == Done((PAGE_TAKEN, Ok(VRange(0, 0x1000))))
    ensures Get(PAGE_TAKEN.used, 0) == Some(Area(0, 0x1000, {}))
    ensures Bucket(PAGE_TAKEN.free, 0x1000) == [Area(0x1000, 0x1000, {})]
  {
    assert AlignUp(0x1000) == 0x1000;
    assert FitFrom(TWO_PAGES, 0x1000, 0) == Some(0);
    PageSplit();
    assert PAGE_TAKEN.free[0] == (0x1000, [Area(0x1000, 0x1000, {})]);
    assert InsertUsed(EMPTY_TAKEN.used, Area(0, 0x1000, {})) == PAGE_TAKEN.used;
    assert Truncate({}) == {};
  }

  /** Taking one page from the two-page area leaves the second page free. */
  lemma PageSplit()
    ensures TakeFrom(TWO_PAGES, 0, 0x1000) == (PAGE_TAKEN.free, Area(0, 0x1000, {}))
  {
    assert Insert(TWO_PAGES, 0x2000, []) == [(0x2000, [])];
    SecondPageFreed();
  }

  /** Pushing the second page onto an emptied two-page bucket gives the free buckets of `PAGE_TAKEN`. */
  lemma SecondPageFreed()
    ensures InsertFree([(0x2000, [])], Area(0x1000, 0x1000, {})) == PAGE_TAKEN.free
  {
    var emptied: SortedMap<seq<Area>> := [(0x2000, [])];
    assert Bucket(emptied, 0x1000) == [];
    assert Insert(emptied, 0x1000, [Area(0x1000, 0x1000, {})]) == PAGE_TAKEN.free;
  }

  /**
   * Unmaps the pages `page`, `page + 4096`, ... below `end` and hands the
   * frame behind each mapped one back to the frame allocator; an address
   * that is not a frame's start, or a frame nobody holds, panics.
   */
  function UnmapPages(pt: Paging.PageTable, fa: FrameAllocator.Allocator, page: nat, end: nat): (r: Outcome<(Paging.PageTable, FrameAllocator.Allocator)>)
    ensures r.Done? ==> forall x :: page <= x < end && (x - page) % PAGE_SIZE == 0 ==> Paging.Translate(r.value.0, x).None?
    ensures r.Done? ==> forall x :: Paging.Translate(r.value.0, x).Some? ==> Paging.Translate(pt, x) == Paging.Translate(r.value.0, x)
    ensures (forall x :: page <= x < end && (x - page) % PAGE_SIZE == 0 ==> Paging.Translate(pt, x).None?) ==> r == Done((pt, fa))
    decreases end - page
  {
    if page >= end then Done((pt, fa))
    else
      match ReleasePage(pt, fa, page)
      case Panic => Panic
      case Done((pt1, fa1)) =>
        var r := UnmapPages(pt1, fa1, page + PAGE_SIZE, end);
        UnmapPagesFacts(pt, page, end, pt1, r);
        UntouchedRest(pt, page, end);
        r
  }

  /**
   * One step of `UnmapPages`: unmaps `page` and hands the frame that was
   * behind it back to the frame allocator.
   */
  function ReleasePage(pt: Paging.PageTable, fa: FrameAllocator.Allocator, page: nat): (r: Outcome<(Paging.PageTable, FrameAllocator.Allocator)>)
    ensures r.Done? ==> r.value.0 == Paging.Unmap(pt, page).0
    ensures Paging.Translate(pt, page).None? ==> r == Done((pt, fa))
  {
    var (pt1, phys) := Paging.Unmap(pt, page);
    match phys
    case None => Done((pt1, fa))
    case Some(address) =>
      match New(address, {})
      case Panic => Panic
      case Done(frame) =>
        match FrameAllocator.Deallocate(fa, frame)
        case Panic => Panic
        case Done(fa1) => Done((pt1, fa1))
  }

  /** Nothing mapped on the pages from `page` on means nothing mapped on those after it. */
  lemma UntouchedRest(pt: Paging.PageTable, page: nat, end: nat)
    ensures (forall x :: page <= x < end && (x - page) % PAGE_SIZE == 0 ==> Paging.Translate(pt, x).None?) ==>
      forall x :: page + PAGE_SIZE <= x < end && (x - (page + PAGE_SIZE)) % PAGE_SIZE == 0 ==> Paging.Translate(pt, x).None?
  {
    if forall x :: page <= x < end && (x - page) % PAGE_SIZE == 0 ==> Paging.Translate(pt, x).None? {
      forall x | page + PAGE_SIZE <= x < end && (x - (page + PAGE_SIZE)) % PAGE_SIZE == 0
        ensures Paging.Translate(pt, x).None?
      {
        assert (x - page) % PAGE_SIZE == 0;
      }
    }
  }

  lemma UnmapPagesFacts(pt: Paging.PageTable, page: nat, end: nat, pt1: Paging.PageTable, r: Outcome<(Paging.PageTable, FrameAllocator.Allocator)>)
    requires page < end && pt1 == Paging.Unmap(pt, page).0
    requires r.Done? ==> forall x :: page + PAGE_SIZE <= x < end && (x - (page + PAGE_SIZE)) % PAGE_SIZE == 0 ==> Paging.Translate(r.value.0, x).None?
    requires r.Done? ==> forall x :: Paging.Translate(r.value.0, x).Some? ==> Paging.Translate(pt1, x) == Paging.Translate(r.value.0, x)
    ensures r.Done? ==> forall x :: page <= x < end && (x - page) % PAGE_SIZE == 0 ==> Paging.Translate(r.value.0, x).None?
    ensures r.Done? ==> forall x :: Paging.Translate(r.value.0, x).Some? ==> Paging.Translate(pt, x) == Paging.Translate(r.value.0, x)
  {
    if r.Done? {
      UnmappedFromPage(pt, page, end, pt1, r.value.0);
      UnmapKeepsOthers(pt, page, pt1, r.value.0);
    }
  }

  /** The first page unmapped and the rest unmapped after it: every page from the first on is unmapped. */
  lemma UnmappedFromPage(pt: Paging.PageTable, page: nat, end: nat, pt1: Paging.PageTable, pt2: Paging.PageTable)
    requires page < end && pt1 == Paging.Unmap(pt, page).0
    requires forall x :: page + PAGE_SIZE <= x < end && (x - (page + PAGE_SIZE)) % PAGE_SIZE == 0 ==> Paging.Translate(pt2, x).None?
    requires forall x :: Paging.Translate(pt2, x).Some? ==> Paging.Translate(pt1, x) == Paging.Translate(pt2, x)
    ensures forall x :: page <= x < end && (x - page) % PAGE_SIZE == 0 ==> Paging.Translate(pt2, x).None?
  {
    forall x | page <= x < end && (x - page) % PAGE_SIZE == 0
      ensures Paging.Translate(pt2, x).None?
    {
      if x != page {
        assert (x - (page + PAGE_SIZE)) % PAGE_SIZE == 0;
      }
    }
  }

  /** Whatever is still mapped after the unmapping was mapped the same way before it. */
  lemma UnmapKeepsOthers(pt: Paging.PageTable, page: nat, pt1: Paging.PageTable, pt2: Paging.PageTable)
    requires pt1 == Paging.Unmap(pt, page).0
    requires forall x :: Paging.Translate(pt2, x).Some? ==> Paging.Translate(pt1, x) == Paging.Translate(pt2, x)
    ensures forall x :: Paging.Translate(pt2, x).Some? ==> Paging.Translate(pt, x) == Paging.Translate(pt2, x)
  {
    forall x | Paging.Translate(pt2, x).Some?
      ensures Paging.Translate(pt, x) == Paging.Translate(pt2, x)
    {
      Paging.UnmapOnlyRemoves(pt, page, x);
    }
  }

  /**
   * `deallocate`: only the start of the range is looked at. The used record
   * there is removed (`unwrap` panics when there is none), a MAP area's
   * pages are unmapped and their frames released, and the area goes back to
   * the free buckets whole, not merged with its neighbours.
   */
  function Deallocate(v: Vmm, pt: Paging.PageTable, fa: FrameAllocator.Allocator, range: VRange): (r: Outcome<(Vmm, Paging.PageTable, FrameAllocator.Allocator)>)
    requires Sorted(v.free) && Sorted(v.used)
    ensures Get(v.used, range.start).None? ==> r.Panic?
    ensures Get(v.used, range.start).Some? && Map !in Get(v.used, range.start).value.flags ==> r.Done? && r.value.1 == pt && r.value.2 == fa
    ensures r.Done? ==>
      var a := Get(v.used, range.start).value;
      var v' := r.value.0;
      && Sorted(v'.free) && Sorted(v'.used)
      && Get(v'.used, range.start).None?
      && (forall k :: k != range.start ==> Get(v'.used, k) == Get(v.used, k))
      && Bucket(v'.free, a.size) == Bucket(v.free, a.size) + [a]
      && FreeSpace(v'.free) == FreeSpace(v.free) + AreaSpan(a)
      && (All(v.free, BucketOk) ==> All(v'.free, BucketOk))
      && (Map in a.flags ==> forall x :: a.start <= x < End(a) && (x - a.start) % PAGE_SIZE == 0 ==> Paging.Translate(r.value.1, x).None?)
  {
    match Get(v.used, range.start)
    case None => Panic
    case Some(a) =>
      var used := Remove(v.used, range.start);
      var unmapped := if Map in a.flags then UnmapPages(pt, fa, a.start, End(a)) else Done((pt, fa));
      match unmapped
      case Panic => Panic
      case Done((pt', fa')) => Done((Vmm(InsertFree(v.free, a), used), pt', fa'))
  }

  /** `deallocate` keeps the invariant. */
  lemma DeallocateKeepsInv(v: Vmm, lo: nat, hi: nat, pt: Paging.PageTable, fa: FrameAllocator.Allocator, range: VRange)
    requires Inv(v, lo, hi)
    requires Deallocate(v, pt, fa, range).Done?
    ensures Inv(Deallocate(v, pt, fa, range).value.0, lo, hi)
  {
    var v' := Deallocate(v, pt, fa, range).value.0;
    var a := Get(v.used, range.start).value;
    assert v'.used == Remove(v.used, range.start);
    GatherRemove(v.used, range.start, AreaSpan);
    RemoveKeeps(v.used, range.start, RecordOk);
  }

  /**
   * Deallocating what was just allocated without MAP gives the free
   * addresses back and restores every used record, though the free
   * buckets themselves need not be the same again.
   */
  lemma AllocateDeallocateRoundTrip(v: Vmm, lo: nat, hi: nat, size: nat, flags: AllocationFlags, pt: Paging.PageTable, fa: FrameAllocator.Allocator)
    requires Inv(v, lo, hi) && size < U64_MODULUS && Map !in flags
    requires Allocate(v, size, flags).Done? && Allocate(v, size, flags).value.1.Ok?
    ensures var (v1, range) := (Allocate(v, size, flags).value.0, Allocate(v, size, flags).value.1.value);
      && Deallocate(v1, pt, fa, range).Done?
      && var v2 := Deallocate(v1, pt, fa, range).value.0;
         && FreeSpace(v2.free) == FreeSpace(v.free)
         && (forall k :: Get(v2.used, k) == Get(v.used, k))
         && Deallocate(v1, pt, fa, range).value.1 == pt
  {
    AllocateKeepsInv(v, lo, hi, size, flags);
    var (v1, range) := (Allocate(v, size, flags).value.0, Allocate(v, size, flags).value.1.value);
    assert AllocateAsWritten(v, size, flags) == Done((v1, Ok(range)));
    assert Recorded(v.used, v1.used, range, flags);
    AllocateAsWrittenConserves(v, size, flags);
    var v2 := Deallocate(v1, pt, fa, range).value.0;
    forall k
      ensures Get(v2.used, k) == Get(v.used, k)
    {
      if k != range.start {
        assert Get(v2.used, k) == Get(v1.used, k);
      }
    }
  }

  /** `a` holds the address. */
  predicate Holds(a: Area, address: nat) {
    a.start <= address < End(a)
  }

  /** The first used area, in order of start, that holds the address. */
  function FindUsed(used: SortedMap<Area>, address: nat): (r: Option<Area>)
    ensures r.None? <==> forall i :: 0 <= i < |used| ==> !Holds(used[i].1, address)
    ensures r.Some? ==> exists i :: (0 <= i < |used| && used[i].1 == r.value && Holds(r.value, address)
      && forall j :: 0 <= j < i ==> !Holds(used[j].1, address))
  {
    if used == [] then None
    else if Holds(used[0].1, address) then Some(used[0].1)
    else
      var r := FindUsed(used[1..], address);
      assert forall i :: 1 <= i < |used| ==> used[i] == used[1..][i - 1];
      if r.Some? then
        var i :| 0 <= i < |used[1..]| && used[1..][i].1 == r.value && Holds(r.value, address)
          && forall j :: 0 <= j < i ==> !Holds(used[1..][j].1, address);
        assert used[i + 1].1 == r.value;
        r
      else r
  }

  /** What a fault handler leaves behind: the tables, the frame allocator, and the outcome. */
  datatype Handled<T> = Handled(table: Paging.PageTable, allocator: FrameAllocator.Allocator, result: Outcome<Result<T, Faults.PageFaultError>>)

  /** A last-level entry written present under present tables is what the address translates through. */
  lemma MappedPageTranslates(table: Paging.PageTable, address: nat, frame: nat)
    requires Paging.PresentAbove(table, Paging.Path(address), 4)
    requires Paging.Present in Paging.Get(table, Paging.Path(address)).flags
    requires frame != 0 ==> Paging.Get(table, Paging.Path(address)).address == frame
    ensures Paging.Translate(table, address).Some?
    ensures frame != 0 ==> Paging.Translate(table, address) == Some(frame + Paging.Offset(address))
  {
    Paging.PresentLeafTranslates(table, address);
  }

  /** A page mapped PRESENT and WRITABLE by a fault handler translates with exactly that protection. */
  lemma DemandPageMapped(table: Paging.PageTable, address: nat, frame: nat)
    requires Paging.PresentAbove(table, Paging.Path(address), 4)
    requires Paging.Get(table, Paging.Path(address)).flags == {Paging.Present, Paging.Writable}
    requires frame != 0 ==> Paging.Get(table, Paging.Path(address)).address == frame
    ensures Paging.Protection(table, address) == Some({Paging.Present, Paging.Writable})
    ensures frame != 0 ==> Paging.Translate(table, address) == Some(frame + Paging.Offset(address))
  {
    MappedPageTranslates(table, address, frame);
  }

  /** The frame flags a demand-paged vmalloc page asks for: ZEROED when its area was allocated ZEROED. */
  function DemandRequest(a: Area): (r: FrameFlags)
    ensures Frames.Zeroed in r <==> AllocationFlag.Zeroed in a.flags
    ensures r <= {Frames.Zeroed}
  {
    if AllocationFlag.Zeroed in a.flags then {Frames.Zeroed} else {}
  }

  /**
   * `handle_demand_paging` for the vmalloc region: the page of the faulting
   * address gets a fresh frame, ZEROED when the area asked for it, mapped
   * PRESENT and WRITABLE, provided a used MAP area holds it. A page already
   * mapped panics.
   */
  method HandleDemandPaging(v: Vmm, pt: Paging.PageTable, fa: FrameAllocator.Allocator, address: nat) returns (h: Handled<()>)
    ensures FindUsed(v.used, AlignDown(address)).None? <==> h.result == Done(Err({Faults.MissingPage}))
    ensures FindUsed(v.used, AlignDown(address)).None? ==> h.table == pt && h.allocator == fa
    ensures FindUsed(v.used, AlignDown(address)).Some? && Map !in FindUsed(v.used, AlignDown(address)).value.flags ==>
      h == Handled(pt, fa, Done(Err({Faults.NotMappable})))
    ensures h.result.Done? && h.result.value.Err? ==> h.result.value.error in {{Faults.MissingPage}, {Faults.NotMappable}, {Faults.OutOfMemory}}
    ensures h.result == Done(Err({Faults.OutOfMemory})) ==> FrameAllocator.FreeCount(h.allocator.frames) == 0
    ensures h.result.Done? && h.result.value.Ok? ==> Paging.Protection(h.table, address) == Some({Paging.Present, Paging.Writable})
    ensures h.result.Panic? ==> Paging.Translate(pt, address).Some?
    ensures h.result == Done(Ok(())) ==>
      && Paging.Translate(pt, address).None?
      && Paging.Translate(h.table, address).Some?
      && var got := FrameAllocator.Allocate(fa, DemandRequest(FindUsed(v.used, AlignDown(address)).value)).1;
         && got.Some?
         && (got.value.address != 0 ==> Paging.Translate(h.table, address) == Some(got.value.address + Paging.Offset(address)))
    ensures forall at :: Paging.Path(at) != Paging.Path(address) ==> Paging.Translate(h.table, at) == Paging.Translate(pt, at)
  {
    var page := AlignDown(address);
    Paging.SamePageSamePath(page, address);
    var found := FindUsed(v.used, page);
    if found.None? {
      return Handled(pt, fa, Done(Err({Faults.MissingPage})));
    }
    var a := found.value;
    if Map !in a.flags {
      return Handled(pt, fa, Done(Err({Faults.NotMappable})));
    }
    h := MapFreshFrame(pt, fa, DemandRequest(a), page, address);
  }

  /**
   * The end of both demand-paging handlers: a frame is allocated with
   * `request` and `at`, on the faulting address's page, is mapped PRESENT
   * and WRITABLE to it. No free frame, or none for the tables, is
   * `OUT_OF_MEMORY`; a mapped page panics; on success the faulting address
   * translates into the allocated frame.
   */
  method MapFreshFrame(pt: Paging.PageTable, fa: FrameAllocator.Allocator, request: FrameFlags, at: nat, address: nat) returns (h: Handled<()>)
    requires Paging.Path(at) == Paging.Path(address)
    ensures h.result.Panic? ==> Paging.Translate(pt, address).Some?
    ensures h.result.Done? && h.result.value.Err? ==>
      h.result.value.error == {Faults.OutOfMemory} && FrameAllocator.FreeCount(h.allocator.frames) == 0
    ensures h.result.Done? && h.result.value.Ok? ==> h.result == Done(Ok(()))
    ensures h.result == Done(Ok(())) ==>
      && Paging.Translate(pt, address).None?
      && Paging.Protection(h.table, address) == Some({Paging.Present, Paging.Writable})
      && FrameAllocator.Allocate(fa, request).1.Some?
    ensures h.result == Done(Ok(())) && FrameAllocator.Allocate(fa, request).1.value.address != 0 ==>
      Paging.Translate(h.table, address) == Some(FrameAllocator.Allocate(fa, request).1.value.address + Paging.Offset(address))
    ensures forall at' :: Paging.Path(at') != Paging.Path(address) ==> Paging.Translate(h.table, at') == Paging.Translate(pt, at')
  {
    var got := FrameAllocator.Allocate(fa, request);
    if got.1.None? {
      FrameAllocator.AllocateUsesOneFree(fa, request);
      return Handled(pt, got.0, Done(Err({Faults.OutOfMemory})));
    }
    h := MapDemandPage(pt, got.0, at, address, got.1.value);
  }

  /** Mapping `at`, on the faulting address's page, PRESENT and WRITABLE to a frame already allocated. */
  method MapDemandPage(pt: Paging.PageTable, fa: FrameAllocator.Allocator, at: nat, address: nat, frame: Frame) returns (h: Handled<()>)
    requires Paging.Path(at) == Paging.Path(address)
    ensures h.result.Panic? <==> Paging.Translate(pt, address).Some?
    ensures h.result.Panic? ==> h.table == pt && h.allocator == fa
    ensures h.result.Done? && h.result.value.Err? ==>
      h.result.value.error == {Faults.OutOfMemory} && FrameAllocator.FreeCount(h.allocator.frames) == 0
    ensures h.result.Done? && h.result.value.Ok? ==> h.result == Done(Ok(()))
    ensures h.result == Done(Ok(())) ==>
      && Paging.Translate(pt, address).None?
      && Paging.Protection(h.table, address) == Some({Paging.Present, Paging.Writable})
      && (frame.address != 0 ==> Paging.Translate(h.table, address) == Some(frame.address + Paging.Offset(address)))
    ensures forall at' :: Paging.Path(at') != Paging.Path(address) ==> Paging.Translate(h.table, at') == Paging.Translate(pt, at')
  {
    var m := Paging.Map(pt, fa, at, frame, {Paging.Present, Paging.Writable});
    if m.result.Ok? {
      h := Handled(m.table, m.allocator, Done(Ok(())));
      DemandPageMapped(h.table, address, frame.address);
    } else if m.result.error == Paging.OutOfMemory {
      h := Handled(m.table, m.allocator, Done(Err({Faults.OutOfMemory})));
    } else {
      h := Handled(m.table, m.allocator, Panic);
    }
  }
}
